=== FILE: README.md ===
# A Dafny model of the agent's project tools

The repository is an agent built from language-model tools. The tools work on a
checked-out project: they find its dependencies and the upgrades available for
them, build it and run its tests, and drive git and the GitHub API. They also
analyse, read, rewrite and search its files, and they generate tests for a file
with a language model. This project models the logic of six of these tools and
proves properties of it:

| Dafny module | source file | what it models |
|---|---|---|
| `DependencyScanner` | `tools/dependency_scanner.py` | Project-type detection by marker files. The parsers for requirements.txt, package.json and pom.xml. The per-ecosystem upgrade check. The scan report. |
| `MessageFormatter` | `utils/message_formatter.py` | The boxed chat message. The 68-column word wrap. Markdown code fences, and how they are found again in a text. |
| `GitOperations` | `tools/git_operations.py` | Branch creation, commit, push and pull-request creation, each as the git commands it issues and the reply it builds. The parse of the remote URL. |
| `Compilation` | `tools/compilation.py` | Choice of the build and test commands. The Python syntax check. The shaping of command results. |
| `TestGenerator` | `tools/test_generator.py` | Framework choice. Gathering of existing tests. Construction of the prompt. Extraction of the generated tests from the model's answer. |
| `CodeAnalysis` | `tools/code_analysis.py` | Validation, file analysis and the Python import set. File rewrite with its changed-line count. Code search. Dispatch. |

Shared modules hold what the tools have in common:
- `Base`: `Option`, a process result and a file-read result.
- `Strings`: Python's `str` methods as the tools use them, namely `strip`, `split()`, `split(c)`, `splitlines`, `replace(x, "")`, `find`, `in`, `join`, `ljust`, `upper` and `str(int)`.
- `Seqs`: filtering and concatenating maps over sequences.
- `Paths`: pathlib's `name`, `suffix` and `stem`.
- `Projects`: the marker-file globs and the order in which project types are tested.

Everything the tools reach outside the process becomes a parameter of the model. This covers the file system (existence, globs, reads, writes), `subprocess`, git, HTTP, the vector store, the language model, JSON decoding, `difflib` and the regular-expression scans of `code_analysis.py` and of pom.xml. Each such parameter is either a value (what a glob returned) or a total function (what git answers to a command). Exceptions of file reads and writes, subprocess, git and HTTP are values of the result types, and each tool's `except` branch is modelled where the tool returns it. The vector-store search and the language model are total functions that never fail (see "## Left out").

Loops that build a list step by step are methods with loop invariants. They are proved equal to a specification function, and the properties are proved about that function. These loops are:
- `ParseRequirementsTxt`, `ParseSection`, `ParsePackageJson`, `ParsePomXml`, `ParseDependencies` and `FindUpgradeCandidates`;
- `WrapLongLine`, `WrapContent` and `ExtractCodeBlocks`;
- `Stage`, `CommitChanges` and `MissingParameters`;
- `CheckPythonSyntax`;
- `GatherExistingTests` and `CreateTestPrompt`;
- `CollectImports` and `CountChangedLines`.

Everything else in the six files is expression code and is modelled as functions.

Behaviours of the code worth knowing:
- **package.json with a bad entry.** When a section of package.json has a non-string version, the parse stops, but the records read before it are kept (`_parse_package_json` returns its list after the `except`).
- **Latest version from pip.** pip's latest version is the text before the first `", "` on the "Available versions: " line.
- **Repeated names in package.json.** A section that names a package twice gives one record, at the first position of the name, with the version written last (`RepeatedNameExample`).
- **Scan with no marker file.** It returns only the error message, with no empty dependency list beside it.
- **.NET detection.** The scanner treats only `*.csproj` as .NET markers. The compilation tool also accepts `*.sln`.
- **Message box.** The box is drawn as the code draws it: the borders and blank rows are 70 characters wide, but a content row is 72, so the side borders of the content stand one column outside the corners (`BoxWidths`).
- **Pull-request URL.** The pull request goes to the repository named by the source's own parse of the remote (`ExtractRepoInfoAsWritten`), even where that parse is wrong (see Findings).
- **Configuration.** The scanner, compilation, code-analysis and git tools import `REPO_LOCAL_PATH` from `config/settings.py`, which defines `PROJECT_PATH` but no `REPO_LOCAL_PATH`. The model takes the project directory as a parameter.

## Model

| member | source | states |
|---|---|---|
| DependencyScanner.DetectProjectType | tools/dependency_scanner.py:52-91 | The detected type has marker files, and every type tested before it has none. The files reported are that type's marker files in glob order. There is no type exactly when no glob finds anything. |
| DependencyScanner.ParseRequirementLine | tools/dependency_scanner.py:120-141 | A stripped line gives a record exactly when it is non-blank, is not a comment and contains `==` or `>=`. The record's constraint is `==` whenever `==` occurs, else `>=`, and its file is the file parsed. |
| DependencyScanner.ParseRequirementsTxt | tools/dependency_scanner.py:115-146 | The loop over `splitlines` yields the line records in order. An unreadable file yields none. |
| DependencyScanner.Member | tools/dependency_scanner.py:152-157 | A JSON object has the key exactly when one of its members is named by it. The value is that of the last member so named, the one `json.loads` keeps. |
| DependencyScanner.Names | tools/dependency_scanner.py:157 | The keys of the decoded object: each name of a member once, and no other. |
| DependencyScanner.Items | tools/dependency_scanner.py:157 | What `.items()` yields: one pair per key, in the order of `Names`, holding the value `Member` finds for that key (the last one written). |
| DependencyScanner.ItemsOfDistinct | tools/dependency_scanner.py:157 | With no name written twice, the items are the members as written. |
| DependencyScanner.RepeatedNameExample | tools/dependency_scanner.py:152-175 | `{"dependencies": {"x": "^1", "x": "^2"}}` yields the one record `x` at version 2 with constraint `^`. |
| DependencyScanner.LaterValueDecidesExample | tools/dependency_scanner.py:152-175 | `{"dependencies": {"a": 1, "a": "2"}}` yields the record of the later, string version: only the last value of a name is read. |
| DependencyScanner.NpmRecord | tools/dependency_scanner.py:159-175 | A version starting with `^` or `~` loses that prefix, which becomes the constraint. Any other version is kept whole, with constraint `^`. |
| DependencyScanner.StringRun | tools/dependency_scanner.py:157-162 | Over the items of a section: the number of leading items with string versions, the items processed before `startswith` raises. Every item before it has a string version and the item at it, if any, does not. |
| DependencyScanner.SectionRecords | tools/dependency_scanner.py:157-175 | One record per item of that leading run, in item order: the k-th record is an npm package named by the k-th item's key, of the parsed file. |
| DependencyScanner.SectionOutcome | tools/dependency_scanner.py:156-175 | A section contributes records of pairwise distinct names, since it is read through `.items()`. |
| DependencyScanner.ParseSection | tools/dependency_scanner.py:157-175 | The loop over a section's items yields exactly `SectionRecords` of them, and reports read-to-the-end exactly when every item has a string version. |
| DependencyScanner.ParsePackageJson | tools/dependency_scanner.py:148-179 | The loop over the two sections, each read through `Items`, yields the records of the document. An unreadable or non-object document yields none. |
| DependencyScanner.PomRecord | tools/dependency_scanner.py:192-199 | A matched triple gives an artifact whose name is `groupId:artifactId`. |
| DependencyScanner.ParsePomXml | tools/dependency_scanner.py:181-203 | The loop over the pattern's matches yields one artifact per match, in order. |
| DependencyScanner.ParseDependencies | tools/dependency_scanner.py:93-113 | The loop yields the records of each file, file by file, from the parser for the project type and the file name. |
| DependencyScanner.LatestVersion | tools/dependency_scanner.py:229-311 | Gradle and .NET have no registry. Python has a latest version exactly when pip exits 0 and prints "Available versions: ", and it is a single version. Node.js has one exactly when npm exits 0, and it is npm's output stripped. Maven has one exactly when the dependency is an artifact and the search answers 200 with a document holding a latest version, and it is that version. |
| DependencyScanner.PipLatest | tools/dependency_scanner.py:245-250 | A latest version is found exactly when the output contains "Available versions: ". It is a single version: no `", "` and no line break. |
| DependencyScanner.CheckUpgrade | tools/dependency_scanner.py:229-325 | A candidate exists exactly when the registry reports a latest version that differs from the declared one as a string. It carries that latest version and the dependency's version and file, and for a well-formed record also its name. |
| DependencyScanner.FindUpgradeCandidates | tools/dependency_scanner.py:205-227 | The loop yields the candidates in dependency order. |
| DependencyScanner.Scan | tools/dependency_scanner.py:24-50 | The result is an error exactly when the directory is missing or no marker file exists, with the source's two messages. A report never has more candidates than dependencies. A report holds the detected type's name, the detected files relative to the project, the records parsed from those files, and the upgrade candidates of those records. |
| DependencyScanner.Run | tools/dependency_scanner.py:24-50 | The tool's entry point computes the scan. |
| DependencyScanner.ConstraintLineParts | tools/dependency_scanner.py:121-137 | For `name op version` without spaces, stripping and splitting at the operator give back the name and the version. |
| DependencyScanner.PinnedRequirementRoundTrip | tools/dependency_scanner.py:126-133 | `name==version` parses back to exactly that pinned requirement. |
| DependencyScanner.NoPinInMinimum | tools/dependency_scanner.py:126-134 | A `name>=version` line contains no `==`, so the minimum branch is taken. |
| DependencyScanner.MinimumRequirementRoundTrip | tools/dependency_scanner.py:134-141 | `name>=version` parses back to exactly that minimum requirement. |
| DependencyScanner.RequirementsExample | tools/dependency_scanner.py:115-146 | Lines `a==1.0`, `b>=2.0`, a comment and a blank line give exactly the records (a, 1.0, ==) and (b, 2.0, >=). |
| DependencyScanner.PackageJsonSections | tools/dependency_scanner.py:155-157 | Records of `dependencies` come first, then those of `devDependencies` unless the first section stopped the parse. |
| DependencyScanner.PackageJsonExample | tools/dependency_scanner.py:155-175 | `{"dependencies": {"x": "^1.2.3"}}` gives exactly x, version 1.2.3, constraint `^`. |
| DependencyScanner.PackageJsonSectionOrder | tools/dependency_scanner.py:155-157 | When the first section is read to its end, the records are its records followed by the second section's. |
| DependencyScanner.PackageJsonStopKeepsPrefix | tools/dependency_scanner.py:151-179 | When the first section stops the parse, the records read so far are returned. |
| DependencyScanner.SectionsRecordsProvenance | tools/dependency_scanner.py:155-175 | Every package.json record is an npm package of the parsed file, with one of the sections as its type. |
| DependencyScanner.FileRecordsProvenance | tools/dependency_scanner.py:93-113 | Every record of a file names that file and is well formed. |
| DependencyScanner.DependencyProvenance | tools/dependency_scanner.py:93-113 | Every parsed dependency names one of the dependency files. |
| DependencyScanner.PythonParsesOnlyRequirements | tools/dependency_scanner.py:98-100 | Of a Python project's marker files, only the requirements.txt files contribute records. |
| DependencyScanner.NotRequirementsGiveNothing | tools/dependency_scanner.py:98-101 | setup.py and pyproject.toml files contribute no records. |
| DependencyScanner.GradleAndDotNetYieldNothing | tools/dependency_scanner.py:97-111 | Gradle and .NET projects have no parsed dependencies and no candidates. |
| DependencyScanner.CandidateOrigins | tools/dependency_scanner.py:205-227 | Each candidate comes from a distinct dependency, in increasing order. That dependency has the candidate's version and file, and its registry answer is the candidate's latest version. Conversely, every dependency whose check finds an upgrade has a candidate. |
| DependencyScanner.SkippedDependencyLeavesOthers | tools/dependency_scanner.py:209-227 | A dependency with no registry answer, or one equal to its version, is left out without changing the candidates of the others. |
| DependencyScanner.PipLatestOfListing | tools/dependency_scanner.py:246-250 | In pip's listing, the first version after "Available versions: " is the latest. |
| DependencyScanner.RelativeToRoundTrip | tools/dependency_scanner.py:47 | A path under the project directory is that directory joined with its relative path. |
| DependencyScanner.RecordsFromListedFiles | tools/dependency_scanner.py:40-48 | Every parsed dependency's file is the project directory joined with one of the reported relative paths. |
| DependencyScanner.CandidatesFromRecords | tools/dependency_scanner.py:205-227 | Every candidate carries the file and version of a parsed dependency. |
| DependencyScanner.ScanProvenance | tools/dependency_scanner.py:24-50 | In a report, dependencies trace back to the reported files, and candidates trace back to dependencies. |
| MessageFormatter.RoleStyle | utils/message_formatter.py:15-29 | Each of the four roles gets its colour and emoji, and every other string gets gray and the memo emoji, in both directions. |
| MessageFormatter.Header | utils/message_formatter.py:31 | The emoji, a space, and the role upper-cased character by character. |
| MessageFormatter.FormatMessage | utils/message_formatter.py:13-41 | The message starts with a newline, the top border carrying the header and a blank row. It ends with a blank row and the bottom border, each line ended by a newline. Between them are the wrapped rows joined by newlines. |
| MessageFormatter.BoxWidths | utils/message_formatter.py:34-39 | The borders and blank rows are the width + 2 characters wide, and a content row that fits is the width + 4. |
| MessageFormatter.MessageBoxLines | utils/message_formatter.py:34-41 | The message is a newline followed by these lines, each ended by a newline: the top border, a blank row, the wrapped rows (one empty line when there are none), a blank row and the bottom border. No line contains a newline. |
| MessageFormatter.Row | utils/message_formatter.py:51 | `│ `, the text left-justified to the width, then ` │`. A text that fits gives a row of width + 4. |
| MessageFormatter.RowsOf | utils/message_formatter.py:59-62 | One row per word group. |
| MessageFormatter.WrapLongLine | utils/message_formatter.py:53-62 | The loop over the words of a long line yields the rows of the greedy grouping. |
| MessageFormatter.WrapContent | utils/message_formatter.py:44-64 | The loop over the lines yields the rows of every line, joined by newlines. |
| MessageFormatter.GreedyKeepsWords | utils/message_formatter.py:55-62 | The greedy grouping keeps every word, in order. |
| MessageFormatter.LongLineKeepsWords | utils/message_formatter.py:53-62 | The rows of a long line hold exactly its words. |
| MessageFormatter.GreedyRowsFit | utils/message_formatter.py:56-60 | Every group fits the width, unless it is a single word. |
| MessageFormatter.LongLineRowsFit | utils/message_formatter.py:53-62 | Every row of a long line fits the width, unless it is a single word. |
| MessageFormatter.GreedyRowsAreFull | utils/message_formatter.py:56-60 | A new group starts only when the next word would not fit in the previous one. |
| MessageFormatter.LongFirstWordGivesEmptyRow | utils/message_formatter.py:54-60 | A long line whose first word does not fit is preceded by an empty row. |
| MessageFormatter.ShortLineIsOneRow | utils/message_formatter.py:50-51 | A line that fits is one row of full width. |
| MessageFormatter.WrappedRowsAppend | utils/message_formatter.py:46-49 | The rows of two newline-separated texts are the rows of each. |
| MessageFormatter.LineRowsNoNewline | utils/message_formatter.py:49-62 | No row of a line contains a newline. |
| MessageFormatter.WrappedRowsNoNewline | utils/message_formatter.py:44-64 | No wrapped row contains a newline. |
| MessageFormatter.FormatCodeBlock | utils/message_formatter.py:67-69 | The block starts with the fence and the language, ends with the closing fence, and holds the code between them. |
| MessageFormatter.FenceAt | utils/message_formatter.py:74-75 | A match at a position ends within the text, its language and code plus eight characters of fences past that position. |
| MessageFormatter.FenceAtMatches | utils/message_formatter.py:74-75 | A match at a position is a formatted code block in the text. Its language is word characters, and its code holds no closing fence (the lazy match). |
| MessageFormatter.FenceAtShape | utils/message_formatter.py:74-75 | Backticks, a run of word characters ended by a newline, and text up to the first closing fence are matched as that language and code. |
| MessageFormatter.FencesFrom | utils/message_formatter.py:74-75 | Every block found from a position on has a word-character language and no closing fence in its code, fits in the rest of the text, and occurs there in its formatted form. |
| MessageFormatter.Fences | utils/message_formatter.py:74-75 | Every block found in a text has a word-character language and no closing fence in its code, and fits in the text. |
| MessageFormatter.FoundBlocksRoundTrip | utils/message_formatter.py:67-84 | Every block found in a text, formatted again, is found again alone and unchanged. |
| MessageFormatter.ExtractCodeBlocks | utils/message_formatter.py:72-84 | The loop over the matches yields one record per match, in order. |
| MessageFormatter.FenceAtFormatted | utils/message_formatter.py:67-75 | A formatted block is matched at its start, with its language and code. |
| MessageFormatter.FirstFenceFound | utils/message_formatter.py:67-75 | After text without backticks, a formatted block is the first block found, whatever follows it. |
| MessageFormatter.CodeBlockRoundTrip | utils/message_formatter.py:67-84 | Extracting the blocks of a formatted block gives back exactly its language and code. |
| GitOperations.RunAll | tools/git_operations.py:86-107 | Commands run in order. The first `GitCommandError` ends the call with its text, and no command after it is issued. |
| GitOperations.RunAllStops | tools/git_operations.py:105-107 | Nothing runs after a failed command. |
| GitOperations.RunAllSnoc | tools/git_operations.py:86-104 | After a clean run, one more command fails exactly when git fails it. |
| GitOperations.BranchNames | tools/git_operations.py:69 | Each ref gives the text after its last `/`. |
| GitOperations.BranchExistsIff | tools/git_operations.py:69 | A branch name without `/` exists exactly when some ref is that name or ends in `/name`. |
| GitOperations.SlashedBranchNeverExists | tools/git_operations.py:69 | A branch name containing `/` is never found, so a new branch is always created. |
| GitOperations.CreateBranch | tools/git_operations.py:62-79 | An empty name is refused with no command. Otherwise there is one checkout: of the existing branch, or with `-b` for a new one. |
| GitOperations.CreateBranchMessages | tools/git_operations.py:71-76 | A successful checkout reports "Switched to existing branch" or "Created and switched to new branch". |
| GitOperations.AddCommands | tools/git_operations.py:88-96 | With no file list, one `add .`. |
| GitOperations.AddCommandsAreExistingFiles | tools/git_operations.py:88-94 | With a list, there is one `add` for each listed file that exists, and no other command. |
| GitOperations.AddCommandsAreAdds | tools/git_operations.py:88-96 | Staging issues only `add` commands. |
| GitOperations.Commit | tools/git_operations.py:81-107 | Committing never makes an HTTP request. With a message: a failed `add` ends the call with git's text; a failed staged diff gives git's text; after a non-empty staged diff `commit -m` is issued last, and the reply is "Changes committed with message: " and the message, or git's text when the commit fails. |
| GitOperations.CommitNeedsMessage | tools/git_operations.py:83-84 | An empty message is refused exactly as the source does, and no command is issued. |
| GitOperations.CommitOnlyWithStagedChanges | tools/git_operations.py:86-104 | The commit command is issued only after clean staging with a non-empty staged diff. An empty diff replies "No changes to commit". |
| GitOperations.Stage | tools/git_operations.py:86-96 | The staging loop issues the add commands until the first failure. |
| GitOperations.CommitChanges | tools/git_operations.py:81-107 | The imperative commit computes the specified outcome. |
| GitOperations.PushCommand | tools/git_operations.py:112-115 | With a branch, `push --set-upstream origin <branch>`; without one, a plain `push`. |
| GitOperations.Push | tools/git_operations.py:109-121 | One push command. Success reports the active branch, and failure reports git's error text. |
| GitOperations.InfoOf | tools/git_operations.py:185-186 | Info exists exactly when the path has two segments, and it is owner and repository from the first two. |
| GitOperations.ExtractRepoInfoAsWritten | tools/git_operations.py:180-193 | Remotes not on GitHub have no info. Owner and repository found are single path segments. |
| GitOperations.TrimGit | tools/git_operations.py:184 | Removes only a trailing ".git". |
| GitOperations.ExtractRepoInfo | tools/git_operations.py:180-193 | Remotes not on GitHub have no info. Owner and repository found are single path segments. |
| GitOperations.ExtractRepoInfoRoundTrip | tools/git_operations.py:183-191 | An https or ssh GitHub URL of owner/repo, with or without `.git` or further path, gives back exactly owner and repo. |
| GitOperations.ExtractRepoInfoAsWrittenRoundTrip | tools/git_operations.py:183-191 | On a GitHub remote, with or without ".git" at the end, the source's parse recovers owner and repository when neither contains "/", ":" or ".git". |
| GitOperations.AsWrittenWithoutSuffix | tools/git_operations.py:183-191 | The same for a remote without ".git" at the end. |
| GitOperations.GitInsideNameIsRemoved | tools/git_operations.py:184 | The source's parse deletes a ".git" inside a repository name. The intended parse keeps it. |
| GitOperations.KeptByIntended | tools/git_operations.py:184 | The intended parse keeps a ".git" inside a repository name. |
| GitOperations.GitHubPagesRemote | tools/git_operations.py:184 | For `https://github.com/octo/octo.github.io.git` the source yields repository `octohub.io`, where `octo.github.io` is meant. |
| GitOperations.OtherRemotesHaveNoInfo | tools/git_operations.py:183-193 | A remote that is neither form has no info under either parse. |
| GitOperations.SingleSegmentHasNoInfo | tools/git_operations.py:185-191 | A GitHub remote whose path has a single segment has no info, by the corrected parse and by the source's own. |
| GitOperations.MissingParameters | tools/git_operations.py:126-133 | The loop names exactly the missing parameters, in source order. It is empty exactly when all three are given. |
| GitOperations.Missing | tools/git_operations.py:127-133 | At most the three names. |
| GitOperations.MissingInOrder | tools/git_operations.py:127-133 | The missing names keep the order branch_name, pr_title, GITHUB_TOKEN. |
| GitOperations.CreatePullRequest | tools/git_operations.py:123-178 | A request is made exactly when branch, title and token are given and the remote parses by the source's own parse. It goes to the pulls URL of the repository that parse names with the token, the API media type, the title, the body, the head and the base. The reply is the one built from the response, and success requires the response 201. A remote the parse cannot read gives "Could not extract repository info from" and the URL. |
| GitOperations.PullReply | tools/git_operations.py:163-175 | 201 gives the html URL and the number. Any other status gives "Failed to create PR: status - text". |
| GitOperations.GitHubPagesPullRequest | tools/git_operations.py:141-148 | The pull request of `https://github.com/octo/octo.github.io.git` is posted to `https://api.github.com/repos/octo/octohub.io/pulls`. |
| GitOperations.MissingParametersMakeNoRequest | tools/git_operations.py:126-135 | Missing parameters give the listed error and no request. |
| GitOperations.Run | tools/git_operations.py:43-60 | No repository gives the "not a valid Git repository" error, and an unknown operation its error. create_branch, commit, push and create_pr reach CreateBranch, Commit, Push and CreatePullRequest with their arguments. Only create_pr makes a request, and only the first three operations issue git commands. |
| Compilation.RunCommand | tools/compilation.py:201-239 | Success exactly for exit status 0, with the stdout. Otherwise the failure carries stdout, stderr and the exit status in the message. A raised exception gives its message. |
| Compilation.DetectProjectType | tools/compilation.py:126-152 | The detected type is present, and every earlier type is absent. There is no type exactly when none is present. |
| Compilation.DetectionAgreesWithScanner | tools/compilation.py:126-152 | Without .sln files this agrees with the scanner's detection. A .sln file alone makes a .NET project here. |
| Compilation.BuildCommand | tools/compilation.py:52-66 | Python has no build command (it gets the syntax check). Node.js builds with `npm run build`, Maven with `mvn compile`, Gradle with `./gradlew build -x test` and .NET with `dotnet build`. |
| Compilation.Compile | tools/compilation.py:41-71 | A given build command runs as is. Otherwise an undetected project is an error, Python gets the syntax check, and other types get their build command. |
| Compilation.MavenTestClasses | tools/compilation.py:104 | One `-Dtest=<stem>` per test file, in order. |
| Compilation.RunTests | tools/compilation.py:73-124 | A given test command runs as is. Otherwise an undetected project is an error, and other projects get their test command. |
| Compilation.PytestIff | tools/compilation.py:84-95 | The Python test command is pytest exactly when pytest.ini or a `test_*.py` file exists. |
| Compilation.CommandWords | tools/compilation.py:88-116 | Command words and arguments without spaces, joined by spaces, split back into the words and the arguments. |
| Compilation.TestCommand | tools/compilation.py:84-118 | The per-type test command: pytest or unittest for Python (`discover` without files), `npm test` and `./gradlew test` whatever files are given, `mvn test` with one `-Dtest` per file, and `dotnet test` followed by the files. |
| Compilation.ListedTestCommand | tools/compilation.py:84-118 | With test files, the command is its words followed by the files (for Maven, the `-Dtest` arguments), joined by spaces. |
| Compilation.TestFilesAreArguments | tools/compilation.py:87-116 | For Python and .NET, the test files are exactly the arguments after the command's words. |
| Compilation.ClassesHaveNoSpace | tools/compilation.py:104 | `-Dtest` arguments of space-free stems contain no space. |
| Compilation.MavenTestArguments | tools/compilation.py:103-105 | The Maven test command is `mvn test` followed by one `-Dtest` argument per file. |
| Compilation.SyntaxCheck | tools/compilation.py:154-199 | The check reports errors or passes. |
| Compilation.CheckedIff | tools/compilation.py:156-165 | A file is checked exactly when the glob found it and no ignored directory name occurs in its path. |
| Compilation.SyntaxCheckPassesIff | tools/compilation.py:167-199 | The check passes exactly when every checked file compiles, and then it reports how many there were. |
| Compilation.SyntaxErrorsComeFromFailures | tools/compilation.py:168-187 | Every reported error belongs to a checked file that failed, named relative to the project. |
| Compilation.IgnoredProjectDirectory | tools/compilation.py:161-165 | A project directory whose own path holds an ignored name, such as `venv`, checks no file and passes with 0 files. |
| Compilation.NoFilesPass | tools/compilation.py:189-199 | With no file to check, the check passes with 0 files. |
| Compilation.CheckPythonSyntax | tools/compilation.py:154-199 | The loops over the files compute the syntax check. |
| Compilation.Run | tools/compilation.py:31-39 | Dispatches compile and test, and refuses other operations with their message. |
| TestGenerator.Framework | tools/test_generator.py:96-119 | Python gets pytest when a pytest marker exists, else unittest. Java gets junit, C# and VB get xunit, and any other suffix gets generic. |
| TestGenerator.JsFrameworkIff | tools/test_generator.py:104-113 | A JavaScript or TypeScript file gets jest or mocha. It gets mocha exactly when package.json exists and mentions mocha but not jest. |
| TestGenerator.Patterns | tools/test_generator.py:134-143 | Two test-file names per suffix, as listed. |
| TestGenerator.UnlistedSuffixFallsBack | tools/test_generator.py:143 | Other suffixes get the wildcard fallback names. |
| TestGenerator.ExistingTestOrigin | tools/test_generator.py:145-152 | Every gathered test is a readable file found by one pattern, named relative to the project. |
| TestGenerator.ExistingTestsComplete | tools/test_generator.py:145-154 | Every readable file a pattern finds is gathered. |
| TestGenerator.GatherExistingTests | tools/test_generator.py:142-154 | The nested loop gathers the tests pattern by pattern, in glob order, skipping unreadable files. |
| TestGenerator.ReadTests | tools/test_generator.py:146-154 | The inner loop reads each file a pattern found, skipping unreadable ones. |
| TestGenerator.Take | tools/test_generator.py:212 | The slice `[:n]`: a prefix of at most n items, the whole list when it is short. |
| TestGenerator.Instructions | tools/test_generator.py:221-249 | Instructions are added exactly for pytest, unittest and jest. |
| TestGenerator.Prompt | tools/test_generator.py:192-253 | The prompt starts with the header holding the file's path, type, framework and content, followed by the existing tests. It ends with the similar code, the framework's instructions and the closing request, in that order. |
| TestGenerator.AtMostTwoEntries | tools/test_generator.py:210-219 | Only the first two tests and the first two similar files reach the prompt. |
| TestGenerator.CreateTestPrompt | tools/test_generator.py:192-253 | The imperative prompt builder computes the specified prompt. |
| TestGenerator.ExtractTests | tools/test_generator.py:180-190 | An answer without a fenced block is returned whole. Otherwise the tests are the code of a block that occurs in the answer in fenced form: shorter than the answer by at least the fences, and holding no closing fence. |
| TestGenerator.FirstBlockWins | tools/test_generator.py:183-187 | When text without backticks is followed by a fenced block, the tests are that block's code, whatever follows: the first match is taken. |
| TestGenerator.FencedAnswer | tools/test_generator.py:183-187 | An answer that is one fenced block gives back that block's code. |
| TestGenerator.UnfencedAnswer | tools/test_generator.py:186-190 | An answer without a fence is returned whole. |
| TestGenerator.Generate | tools/test_generator.py:60-91 | The given framework, or the one chosen for the suffix, is reported. The tests are those extracted from the model's answer to the prompt built from the gathered context. An output path is reported only when it was given and the save succeeded. Without an output path the call succeeds. |
| TestGenerator.Run | tools/test_generator.py:50-94 | A missing path or file is refused with the source's messages. A success names the existing file. |
| CodeAnalysis.Validate | tools/code_analysis.py:50-55 | No error exactly when a path is given and its file exists. Otherwise one of the source's two messages. |
| CodeAnalysis.TopModule | tools/code_analysis.py:91-94 | A `from` import records its first dotted component. |
| CodeAnalysis.FromRecordsFirstComponent | tools/code_analysis.py:93-94 | `from a.rest import` records `a`. |
| CodeAnalysis.ImportSetIff | tools/code_analysis.py:88-94 | A module is in the import set exactly when some match records it. |
| CodeAnalysis.CollectImports | tools/code_analysis.py:88-94 | The loop over the matches builds the import set. |
| CodeAnalysis.Analyse | tools/code_analysis.py:69-75 | Suffix dispatch: `.py` first, then `.js`/`.ts`, then `.java`. The Python analysis records the import set. The `language` entry is absent exactly for any other suffix. |
| CodeAnalysis.AnalyzeFile | tools/code_analysis.py:48-80 | Validation errors as given. A success carries the file's content, size and suffix, the number of its `splitlines`, and the language analysis. |
| CodeAnalysis.PythonFileImports | tools/code_analysis.py:70-71 | A readable `.py` file is analysed as Python, and its modules are exactly those its import matches record. |
| CodeAnalysis.GetFile | tools/code_analysis.py:233-253 | Validation errors as given. A success carries the file's content, size and suffix. |
| CodeAnalysis.GetAgreesWithAnalyze | tools/code_analysis.py:48-80 | Reading succeeds exactly when analysing does, and both report the same file data. |
| CodeAnalysis.Missing | tools/code_analysis.py:160-164 | Names exactly the missing parameters, file_path before new_content. |
| CodeAnalysis.MissingParameters | tools/code_analysis.py:159-166 | The imperative check computes that list. |
| CodeAnalysis.ChangedCount | tools/code_analysis.py:203-207 | Never more than the diff's length. |
| CodeAnalysis.ChangedCountAppend | tools/code_analysis.py:204-207 | The count over concatenated diffs is the sum of the counts. |
| CodeAnalysis.ChangedCountIsChanges | tools/code_analysis.py:205-207 | The count is the number of `+`/`-` lines that are not `+++`/`---` headers. |
| CodeAnalysis.CountChangedLines | tools/code_analysis.py:193-209 | The loop over the diff computes the count. |
| CodeAnalysis.ModifyFile | tools/code_analysis.py:157-191 | Missing parameters give the listed error and no write. With both parameters, the call succeeds exactly when the directories are made, the old file is absent or readable, and the write succeeds. The write of the given content to the full path happens once the directories are made and the old file is read. Each failure gives "Error modifying file: " and its text. A success is a new file exactly when the old file was absent or empty. A new file counts the new content's lines, and an existing one counts the changed lines of the diff between old and new lines. |
| CodeAnalysis.SearchCode | tools/code_analysis.py:211-231 | An empty query is refused. A success reports the query, the search's hits and their number. |
| CodeAnalysis.Run | tools/code_analysis.py:33-46 | Dispatches the four operations and refuses others. Only modify_file writes. |

## Left out

- File system, subprocess, git, HTTP, vector store and language model: these are oracles passed as parameters. The model states what the tools do with their answers, not what the answers are.
- Logging: every `logger` call is left out, because it does not affect any result.
- The regular-expression scans of `code_analysis.py` (imports, classes, functions and methods of Python, JavaScript and Java) and the pom.xml pattern: their matches are inputs. Only the handling of the Python import matches is modelled.
- JSON decoding of package.json and of the Maven Central response: the decoded value is an input.
- `difflib.unified_diff`: an oracle. The counting of its lines is modelled.
- The `__init__` methods: git user configuration, the choice of LLM provider, and vector-store construction. Configuration values such as `REPO_LOCAL_PATH`, `PROJECT_PATH` and `GITHUB_TOKEN` are parameters.
- The vector store's `embed_project` call before a search: it changes no result the tools return.
- The system message sent to the language model in `_generate_tests`: the model's answer is an oracle of the prompt alone.
- MessageFormatter.RoleStyle: the colour is computed but never used by the source, and it is modelled only as part of the result.
- MessageFormatter.Header: `upper` is ASCII-only case mapping, because Unicode case tables are out of scope.
- MessageFormatter.FenceAt: a fence's language is matched as ASCII letters, digits and `_`. Python's `\w` also matches non-ASCII letters and digits, so a fence such as "```é" is not found by the model. Unicode character tables are out of scope. The same gap holds for Fences, ExtractCodeBlocks and TestGenerator.ExtractTests.
- GitOperations.Push: `active_branch` raising on a detached HEAD is not modelled.
- GitOperations.CreatePullRequest: a clone without an `origin` remote (an `AttributeError` caught by the generic handler) is not modelled; the remote URL is always present.
- TestGenerator.Run: it states its outcomes as implications about a success, and not as an if-and-only-if. Generate carries the full relation to the prompt and the answer.
- TestGenerator.Framework: a package.json that exists but cannot be read (an exception propagating to `_run`) is modelled as absent.
- Compilation.SyntaxCheck: its own contract states only the two result shapes. Its meaning is proved in CheckedIff, SyntaxCheckPassesIff and SyntaxErrorsComeFromFailures.
- Compilation: `CheckedFiles` has no contract of its own. It is specified through CheckedIff.
- TestGenerator.Run and TestGenerator.Generate: the vector-store search and the language model are total functions. The exceptions they can raise, which the source reports as "Error generating tests: " and the text (tools/test_generator.py:92-94), are not modelled.
- Exceptions outside the modelled ones, such as encoding errors and permission errors: every `except Exception` branch is modelled only where its cause is an oracle's answer.

## Findings

| source | as written | input that shows it | evidently intended | confidence | as-written member | corrected member |
|---|---|---|---|---|---|---|
| tools/git_operations.py:184 | `.replace(".git", "")` removes every occurrence of ".git" in the remote URL, not only the suffix | `https://github.com/octo/octo.github.io.git` gives repository `octohub.io` | remove only a trailing ".git", so the repository is `octo.github.io` | not executed | GitOperations.GitHubPagesRemote | GitOperations.ExtractRepoInfoRoundTrip |

=== FILE: base.dfy ===
/** Small wrappers shared by every module of the model. */
module Base {
  /** A value that a Python function may return as `None`. */
  datatype Option<T> = None | Some(value: T)

  /**
   * What running an external command gives: the exit status with its captured
   * output, or the exception raised when it could not be run at all.
   */
  datatype Exec = Completed(returnCode: int, stdout: string, stderr: string) | Raised(message: string)

  /** What reading a file gives: its text, or the message of the exception raised. */
  datatype ReadResult = Content(text: string) | ReadFailed(message: string)
}

=== FILE: code_analysis.dfy ===
/**
 * The code-analysis tool: analyses, reads, rewrites and searches files of the
 * project. The file system, the regular-expression scans, the vector store's
 * search and the line diff are oracles; the tool's own decisions (dispatch,
 * validation, import normalisation, the change count) are modelled.
 */
module CodeAnalysis {
  import opened Base
  import opened Strings
  import opened Seqs
  import opened Paths

  /** The project directory as the tool sees it, keyed by full path. */
  datatype Files = Files(
    root: string,                     // the project directory
    present: string -> bool,          // `exists()`
    read: string -> ReadResult,       // `read_text`
    size: string -> int)              // `stat().st_size`

  /**
   * A match of the Python import pattern: `import x` gives its first group,
   * `from a.b.c import` its second.
   */
  datatype ImportMatch = Plain(name: string) | From(dotted: string)

  /** The other patterns of the analysers; the scans themselves are oracles. */
  datatype Pattern = PyClass | PyDef | JsImport | JsClass | JsFunction | JavaImport | JavaClass | JavaMethod

  /** What the regular-expression scans of a file's content find. */
  datatype Scanner = Scanner(importMatches: string -> seq<ImportMatch>, findall: (Pattern, string) -> seq<string>)

  /** The language-specific part of an analysis. */
  datatype Language =
    | Unanalysed
    | Python(modules: set<string>, classes: seq<string>, functions: seq<string>)
    | JavaScript(imports: seq<string>, classes: seq<string>, functions: seq<string>)
    | Java(imports: seq<string>, classes: seq<string>, methods: seq<string>)

  /** A hit of the vector store. */
  datatype Hit = Hit(content: string, source: string, fileType: string)

  /** What the vector store's search gives: its hits, or the message of the exception raised. */
  datatype SearchAnswer = Hits(hits: seq<Hit>) | SearchRaised(message: string)

  /** The result dictionaries the tool returns. */
  datatype Reply =
    | ErrorReply(error: string)
    | Analyzed(filePath: string, sizeBytes: int, extension: string, content: string, lineCount: nat, language: Language)
    | Modified(filePath: string, message: string, isNewFile: bool, changedLines: nat)
    | Searched(query: string, results: seq<Hit>, resultCount: nat)
    | FileContent(filePath: string, content: string, sizeBytes: int, extension: string)

  /** A write to the file system: the full path and the new content. */
  datatype FileWrite = FileWrite(path: string, content: string)

  /** A reply with the write the operation attempted, if any. */
  datatype Outcome = Outcome(reply: Reply, written: Option<FileWrite>)

  /** An optional string argument. Python's `not x` holds for `None` and for `""`. */
  predicate Truthy(o: Option<string>) {
    o.Some? && o.value != ""
  }

  function FullPath(files: Files, filePath: string): string {
    files.root + "/" + filePath
  }

  /** The checks `_analyze_file` and `_get_file` make before reading: the error, if any. */
  function Validate(files: Files, filePath: Option<string>): (r: Option<string>)
    ensures r.None? <==> Truthy(filePath) && files.present(FullPath(files, filePath.value))
    ensures !Truthy(filePath) ==> r == Some("File path is required")
    ensures Truthy(filePath) && !files.present(FullPath(files, filePath.value)) ==>
      r == Some("File not found: " + filePath.value)
  {
    if !Truthy(filePath) then Some("File path is required")
    else if !files.present(FullPath(files, filePath.value)) then Some("File not found: " + filePath.value)
    else None
  }

  // ---------------------------------------------------------------------------
  // _analyze_python_file: the import set
  // ---------------------------------------------------------------------------

  /** The module an import match records: the whole name, or the first dotted component. */
  function TopModule(m: ImportMatch): (r: string)
    ensures m.From? ==> '.' !in r
    ensures m.From? && '.' !in m.dotted ==> r == m.dotted
  {
    match m
    case Plain(name) => name
    case From(dotted) => SplitChar(dotted, '.')[0]
  }

  /** `from a.b.c import` records `a`. */
  lemma FromRecordsFirstComponent(a: string, rest: string)
    requires '.' !in a
    ensures TopModule(From(a + "." + rest)) == a
  {
    SplitCharFirst(a, rest, '.');
  }

  /** The set of modules the matches record. */
  function ImportSet(matches: seq<ImportMatch>): set<string> {
    if matches == [] then {} else ImportSet(matches[..|matches| - 1]) + {TopModule(matches[|matches| - 1])}
  }

  /** A module is in the set exactly when some match records it. */
  lemma {:induction false} ImportSetIff(matches: seq<ImportMatch>, x: string)
    ensures x in ImportSet(matches) <==> exists i :: 0 <= i < |matches| && TopModule(matches[i]) == x
  {
    if matches != [] {
      var init := matches[..|matches| - 1];
      ImportSetIff(init, x);
      if x in ImportSet(init) {
        var i :| 0 <= i < |init| && TopModule(init[i]) == x;
        assert matches[i] == init[i];
      }
      if i :| 0 <= i < |matches| - 1 && TopModule(matches[i]) == x {
        assert init[i] == matches[i];
      }
    }
  }

  /** The loop of `_analyze_python_file` that fills the import set. */
  method CollectImports(matches: seq<ImportMatch>) returns (imports: set<string>)
    ensures imports == ImportSet(matches)
  {
    imports := {};
    for i := 0 to |matches|
      invariant imports == ImportSet(matches[..i])
    {
      assert matches[..i + 1][..i] == matches[..i];
      match matches[i]
      case Plain(name) =>
        imports := imports + {name};
      case From(dotted) =>
        imports := imports + {SplitChar(dotted, '.')[0]};
    }
    assert matches[..|matches|] == matches;
  }

  // ---------------------------------------------------------------------------
  // _analyze_file
  // ---------------------------------------------------------------------------

  /** The `language` entry of an analysis. */
  function LanguageName(l: Language): Option<string> {
    match l
    case Unanalysed => None
    case Python(_, _, _) => Some("python")
    case JavaScript(_, _, _) => Some("javascript/typescript")
    case Java(_, _, _) => Some("java")
  }

  /** The language-specific analysis, chosen by the end of the path. */
  function Analyse(scanner: Scanner, filePath: string, content: string): (r: Language)
    ensures r.Python? <==> EndsWith(filePath, ".py")
    ensures r.JavaScript? <==> !EndsWith(filePath, ".py") && (EndsWith(filePath, ".js") || EndsWith(filePath, ".ts"))
    ensures r.Java? <==> !EndsWith(filePath, ".py") && !EndsWith(filePath, ".js") && !EndsWith(filePath, ".ts") && EndsWith(filePath, ".java")
    ensures r.Python? ==> r.modules == ImportSet(scanner.importMatches(content))
    ensures LanguageName(r).None? <==>
      !EndsWith(filePath, ".py") && !EndsWith(filePath, ".js") && !EndsWith(filePath, ".ts") && !EndsWith(filePath, ".java")
  {
    if EndsWith(filePath, ".py") then
      Python(ImportSet(scanner.importMatches(content)), scanner.findall(PyClass, content), scanner.findall(PyDef, content))
    else if EndsWith(filePath, ".js") || EndsWith(filePath, ".ts") then
      JavaScript(scanner.findall(JsImport, content), scanner.findall(JsClass, content), scanner.findall(JsFunction, content))
    else if EndsWith(filePath, ".java") then
      Java(scanner.findall(JavaImport, content), scanner.findall(JavaClass, content), scanner.findall(JavaMethod, content))
    else Unanalysed
  }

  function AnalyzeFile(files: Files, scanner: Scanner, filePath: Option<string>): (r: Reply)
    ensures Validate(files, filePath).Some? ==> r == ErrorReply(Validate(files, filePath).value)
    ensures r.Analyzed? ==> Truthy(filePath) && r.filePath == filePath.value
    ensures r.Analyzed? ==> var full := FullPath(files, filePath.value);
      files.read(full) == Content(r.content) && r.extension == Suffix(full) && r.sizeBytes == files.size(full)
    ensures r.Analyzed? ==> r.lineCount == |SplitLines(r.content)|
    ensures r.Analyzed? ==> r.language == Analyse(scanner, r.filePath, r.content)
  {
    match Validate(files, filePath)
    case Some(e) => ErrorReply(e)
    case None =>
      var full := FullPath(files, filePath.value);
      match files.read(full)
      case ReadFailed(m) => ErrorReply("Error analyzing file: " + m)
      case Content(content) =>
        Analyzed(filePath.value, files.size(full), Suffix(full), content, |SplitLines(content)|,
                 Analyse(scanner, filePath.value, content))
  }

  /** A readable Python file is analysed with the deduplicated top-level imports of its content. */
  lemma PythonFileImports(files: Files, scanner: Scanner, filePath: string, x: string)
    requires filePath != "" && EndsWith(filePath, ".py")
    requires files.present(FullPath(files, filePath)) && files.read(FullPath(files, filePath)).Content?
    ensures var r := AnalyzeFile(files, scanner, Some(filePath));
      r.Analyzed? && r.language.Python? &&
      var ms := scanner.importMatches(r.content);
      (x in r.language.modules <==> exists i :: 0 <= i < |ms| && TopModule(ms[i]) == x)
  {
    var r := AnalyzeFile(files, scanner, Some(filePath));
    ImportSetIff(scanner.importMatches(r.content), x);
  }

  // ---------------------------------------------------------------------------
  // _get_file
  // ---------------------------------------------------------------------------

  function GetFile(files: Files, filePath: Option<string>): (r: Reply)
    ensures Validate(files, filePath).Some? ==> r == ErrorReply(Validate(files, filePath).value)
    ensures r.FileContent? ==> Truthy(filePath) && r.filePath == filePath.value
    ensures r.FileContent? ==> var full := FullPath(files, filePath.value);
      files.read(full) == Content(r.content) && r.extension == Suffix(full) && r.sizeBytes == files.size(full)
  {
    match Validate(files, filePath)
    case Some(e) => ErrorReply(e)
    case None =>
      var full := FullPath(files, filePath.value);
      match files.read(full)
      case ReadFailed(m) => ErrorReply("Error getting file: " + m)
      case Content(content) => FileContent(filePath.value, content, files.size(full), Suffix(full))
  }

  /** Getting a file and analysing it agree on everything they both report. */
  lemma GetAgreesWithAnalyze(files: Files, scanner: Scanner, filePath: Option<string>)
    ensures var g := GetFile(files, filePath);
      var a := AnalyzeFile(files, scanner, filePath);
      (g.FileContent? <==> a.Analyzed?) &&
      (g.FileContent? ==> g.filePath == a.filePath && g.content == a.content && g.sizeBytes == a.sizeBytes && g.extension == a.extension)
  {
  }

  // ---------------------------------------------------------------------------
  // _modify_file
  // ---------------------------------------------------------------------------

  /** The names of the missing parameters, in the order the code checks them. */
  function Missing(filePath: Option<string>, newContent: Option<string>): (r: seq<string>)
    ensures "file_path" in r <==> !Truthy(filePath)
    ensures "new_content" in r <==> !Truthy(newContent)
    ensures |r| <= 2 && (|r| == 2 ==> r == ["file_path", "new_content"])
  {
    (if !Truthy(filePath) then ["file_path"] else []) + (if !Truthy(newContent) then ["new_content"] else [])
  }

  /** The list `_modify_file` builds by appending. */
  method MissingParameters(filePath: Option<string>, newContent: Option<string>) returns (missing: seq<string>)
    ensures missing == Missing(filePath, newContent)
  {
    missing := [];
    if !Truthy(filePath) {
      missing := missing + ["file_path"];
    }
    if !Truthy(newContent) {
      missing := missing + ["new_content"];
    }
  }

  /** A line of a unified diff that the count takes as a change: an added or removed line, not a file header. */
  predicate IsChange(line: string) {
    (StartsWith(line, "+") || StartsWith(line, "-")) && !StartsWith(line, "+++") && !StartsWith(line, "---")
  }

  /** The number of changed lines in a diff. */
  function ChangedCount(diff: seq<string>): (r: nat)
    ensures r <= |diff|
  {
    if diff == [] then 0
    else ChangedCount(diff[..|diff| - 1]) + (if IsChange(diff[|diff| - 1]) then 1 else 0)
  }

  /** The count of a diff is the sum of the counts of its parts. */
  lemma {:induction false} ChangedCountAppend(a: seq<string>, b: seq<string>)
    ensures ChangedCount(a + b) == ChangedCount(a) + ChangedCount(b)
    decreases |b|
  {
    if b != [] {
      var b' := b[..|b| - 1];
      assert (a + b)[..|a + b| - 1] == a + b';
      assert (a + b)[|a + b| - 1] == b[|b| - 1];
      ChangedCountAppend(a, b');
      var last := if IsChange(b[|b| - 1]) then 1 else 0;
      assert ChangedCount(b) == ChangedCount(b') + last;
      assert ChangedCount(a + b) == ChangedCount(a + b') + last;
    } else {
      assert a + b == a;
    }
  }

  /** Every line of a diff counts exactly when it is a change: the count is that of the changed lines. */
  lemma {:induction false} ChangedCountIsChanges(diff: seq<string>)
    ensures ChangedCount(diff) == |FilterMap(diff, ChangeOf)|
  {
    if diff != [] {
      var init := diff[..|diff| - 1];
      ChangedCountIsChanges(init);
      FilterMapAppend(init, [diff[|diff| - 1]], ChangeOf);
      assert init + [diff[|diff| - 1]] == diff;
      assert [diff[|diff| - 1]][..0] == [];
    }
  }

  /** A line, kept when it is a change. */
  function ChangeOf(line: string): Option<string> {
    if IsChange(line) then Some(line) else None
  }

  /** The loop of `_count_changed_lines` over the diff lines. */
  method CountChangedLines(diff: seq<string>) returns (changed: nat)
    ensures changed == ChangedCount(diff)
  {
    changed := 0;
    for i := 0 to |diff|
      invariant changed == ChangedCount(diff[..i])
    {
      assert diff[..i + 1][..i] == diff[..i];
      var line := diff[i];
      if StartsWith(line, "+") || StartsWith(line, "-") {
        if !StartsWith(line, "+++") && !StartsWith(line, "---") {
          changed := changed + 1;
        }
      }
    }
    assert diff[..|diff|] == diff;
  }

  /**
   * `_modify_file`. `makeParents` creates the parent directories of a path,
   * `write` writes a file and `diff` gives the unified diff of two line lists;
   * the first two give the message of the exception they raise, if any.
   */
  function ModifyFile(files: Files, makeParents: string -> Option<string>, write: (string, string) -> Option<string>,
                      diff: (seq<string>, seq<string>) -> seq<string>,
                      filePath: Option<string>, newContent: Option<string>): (r: Outcome)
    ensures Missing(filePath, newContent) != [] ==>
      r == Outcome(ErrorReply("Missing required parameters: " + Join(Missing(filePath, newContent), ", ")), None)
    ensures r.written.Some? ==> (Truthy(filePath) && Truthy(newContent) &&
      r.written.value == FileWrite(FullPath(files, filePath.value), newContent.value))
    ensures r.reply.Modified? ==> r.written.Some? && write(r.written.value.path, r.written.value.content).None?
    ensures r.reply.Modified? ==> r.reply.filePath == filePath.value && r.reply.message == "File modified successfully"
    ensures r.reply.Modified? ==> var full := FullPath(files, filePath.value);
      (r.reply.isNewFile <==> !files.present(full) || files.read(full) == Content(""))
    ensures r.reply.Modified? && r.reply.isNewFile ==> r.reply.changedLines == |SplitLines(newContent.value)|
    ensures r.reply.Modified? && !r.reply.isNewFile ==> var full := FullPath(files, filePath.value);
      && files.present(full) && files.read(full).Content?
      && r.reply.changedLines == ChangedCount(diff(SplitLines(files.read(full).text), SplitLines(newContent.value)))
    ensures Truthy(filePath) && Truthy(newContent) ==> var full := FullPath(files, filePath.value);
      && (r.reply.Modified? <==>
           makeParents(full).None? && (!files.present(full) || files.read(full).Content?) && write(full, newContent.value).None?)
      && (makeParents(full).Some? ==> r == Outcome(ErrorReply("Error modifying file: " + makeParents(full).value), None))
      && (makeParents(full).None? && files.present(full) && files.read(full).ReadFailed? ==>
           r == Outcome(ErrorReply("Error modifying file: " + files.read(full).message), None))
      && (makeParents(full).None? && (!files.present(full) || files.read(full).Content?) ==>
           r.written == Some(FileWrite(full, newContent.value)))
      && (makeParents(full).None? && (!files.present(full) || files.read(full).Content?) && write(full, newContent.value).Some? ==>
           r.reply == ErrorReply("Error modifying file: " + write(full, newContent.value).value))
  {
    var missing := Missing(filePath, newContent);
    if missing != [] then
      Outcome(ErrorReply("Missing required parameters: " + Join(missing, ", ")), None)
    else
      var full := FullPath(files, filePath.value);
      var text := newContent.value;
      match makeParents(full)
      case Some(m) => Outcome(ErrorReply("Error modifying file: " + m), None)
      case None =>
        var original := if files.present(full) then files.read(full) else Content("");
        match original
        case ReadFailed(m) => Outcome(ErrorReply("Error modifying file: " + m), None)
        case Content(before) =>
          var written := Some(FileWrite(full, text));
          match write(full, text)
          case Some(m) => Outcome(ErrorReply("Error modifying file: " + m), written)
          case None =>
            var changed := if before == "" then |SplitLines(text)| else ChangedCount(diff(SplitLines(before), SplitLines(text)));
            Outcome(Modified(filePath.value, "File modified successfully", before == "", changed), written)
  }

  // ---------------------------------------------------------------------------
  // _search_code
  // ---------------------------------------------------------------------------

  /** `_search_code`. `search` answers a query with at most the requested number of hits. */
  function SearchCode(search: (string, Option<int>) -> SearchAnswer, query: Option<string>, nResults: Option<int>): (r: Reply)
    ensures !Truthy(query) <==> r == ErrorReply("Query is required")
    ensures r.Searched? ==> (r.query == query.value && search(query.value, nResults) == Hits(r.results) &&
      r.resultCount == |r.results|)
  {
    if !Truthy(query) then ErrorReply("Query is required")
    else match search(query.value, nResults)
      case SearchRaised(m) => ErrorReply("Error searching code: " + m)
      case Hits(hits) => Searched(query.value, hits, |hits|)
  }

  // ---------------------------------------------------------------------------
  // _run
  // ---------------------------------------------------------------------------

  const Operations := ["analyze_file", "modify_file", "search_code", "get_file"]

  /** `_run`: dispatch on the operation name. Only `modify_file` writes. */
  function Run(files: Files, scanner: Scanner, makeParents: string -> Option<string>,
               write: (string, string) -> Option<string>, diff: (seq<string>, seq<string>) -> seq<string>,
               search: (string, Option<int>) -> SearchAnswer,
               operation: string, filePath: Option<string>, query: Option<string>,
               newContent: Option<string>, nResults: Option<int>): (r: Outcome)
    ensures operation !in Operations ==> r == Outcome(ErrorReply("Unknown operation: " + operation), None)
    ensures operation != "modify_file" ==> r.written.None?
    ensures operation == "analyze_file" ==> r.reply == AnalyzeFile(files, scanner, filePath)
    ensures operation == "get_file" ==> r.reply == GetFile(files, filePath)
    ensures operation == "search_code" ==> r.reply == SearchCode(search, query, nResults)
    ensures operation == "modify_file" ==> r == ModifyFile(files, makeParents, write, diff, filePath, newContent)
  {
    if operation == "analyze_file" then Outcome(AnalyzeFile(files, scanner, filePath), None)
    else if operation == "modify_file" then ModifyFile(files, makeParents, write, diff, filePath, newContent)
    else if operation == "search_code" then Outcome(SearchCode(search, query, nResults), None)
    else if operation == "get_file" then Outcome(GetFile(files, filePath), None)
    else Outcome(ErrorReply("Unknown operation: " + operation), None)
  }
}

=== FILE: compilation.dfy ===
/**
 * The compilation tool: builds a project or runs its tests with the command its
 * project type calls for, or with a command the caller supplies, and checks the
 * syntax of a Python project file by file.
 *
 * The shell and `python -m py_compile` are oracles from a command (or a file)
 * to what the process gave back; the globs over the project directory are
 * inputs.
 */
module Compilation {
  import opened Base
  import opened Strings
  import opened Seqs
  import opened Paths
  import opened Projects
  import DependencyScanner

  /** What the tool's globs and existence tests see in the project directory. */
  datatype Project = Project(
    path: string,               // the project directory
    markers: Markers,           // the marker-file globs
    pytestIni: bool,            // whether `path/pytest.ini` exists
    testPyFiles: seq<string>,   // glob("**/test_*.py")
    pyFiles: seq<string>)       // glob("**/*.py"), as full paths

  /** One entry of the syntax check's `errors` list. */
  datatype SyntaxError = SyntaxError(file: string, error: string)

  /** The result dictionaries the tool returns. */
  datatype Reply =
    | ErrorReply(error: string)                                              // {"error": ...}
    | Succeeded(command: string, output: string, message: string)            // success True
    | CommandFailed(command: string, output: string, error: string, message: string)
    | CommandRaised(command: string, error: string, message: string)
    | SyntaxErrors(errors: seq<SyntaxError>, message: string)                // success False
    | SyntaxClean(message: string)                                           // success True

  /** An optional string argument. Python's `not x` holds for `None` and for `""`. */
  predicate Truthy(o: Option<string>) {
    o.Some? && o.value != ""
  }

  /** An optional list argument: `None` and the empty list are false. */
  predicate TruthyList(o: Option<seq<string>>) {
    o.Some? && o.value != []
  }

  // ---------------------------------------------------------------------------
  // _run_command
  // ---------------------------------------------------------------------------

  /** Runs a shell command in the project directory and shapes its result. */
  function RunCommand(command: string, shell: string -> Exec): (r: Reply)
    ensures r.Succeeded? || r.CommandFailed? || r.CommandRaised?
    ensures r.command == command
    ensures r.Succeeded? <==> shell(command).Completed? && shell(command).returnCode == 0
    ensures r.Succeeded? ==> r.output == shell(command).stdout && r.message == "Command executed successfully"
    ensures r.CommandFailed? ==> (shell(command).Completed? && r.output == shell(command).stdout &&
      r.error == shell(command).stderr && r.message == "Command failed with exit code " + IntToString(shell(command).returnCode))
    ensures r.CommandRaised? <==> shell(command).Raised?
    ensures r.CommandRaised? ==> r.error == shell(command).message && r.message == "Error executing command"
  {
    match shell(command)
    case Completed(code, stdout, stderr) =>
      if code == 0 then Succeeded(command, stdout, "Command executed successfully")
      else CommandFailed(command, stdout, stderr, "Command failed with exit code " + IntToString(code))
    case Raised(m) => CommandRaised(command, m, "Error executing command")
  }

  // ---------------------------------------------------------------------------
  // _detect_project_type
  // ---------------------------------------------------------------------------

  /** Whether the globs find a marker of the project type; .NET also counts `*.sln` here. */
  predicate Present(m: Markers, t: ProjectType) {
    MarkerFiles(m, t) != [] || (t == DotNet && m.sln != [])
  }

  /** The first project type, in priority order, that has a marker file. */
  function DetectProjectType(m: Markers): (r: Option<ProjectType>)
    ensures r.Some? ==> Present(m, r.value) && forall t :: Rank(t) < Rank(r.value) ==> !Present(m, t)
    ensures r.None? <==> forall t :: !Present(m, t)
  {
    if m.requirementsTxt != [] || m.setupPy != [] || m.pyprojectToml != [] then Some(Python)
    else if m.packageJson != [] then Some(NodeJs)
    else if m.pomXml != [] then Some(Maven)
    else if m.buildGradle != [] || m.buildGradleKts != [] then Some(Gradle)
    else if m.csproj != [] || m.sln != [] then assert Present(m, DotNet); Some(DotNet)
    else None
  }

  /**
   * Both tools pick the same project type, except that a directory whose only
   * markers are `*.sln` files is .NET here and undetermined for the scanner.
   */
  lemma DetectionAgreesWithScanner(m: Markers)
    ensures m.sln == [] ==>
      DetectProjectType(m) == (match DependencyScanner.DetectProjectType(m)
                               case None => None
                               case Some(d) => Some(d.projectType))
    ensures DependencyScanner.DetectProjectType(m).None? && m.sln != [] ==> DetectProjectType(m) == Some(DotNet)
  {
  }

  // ---------------------------------------------------------------------------
  // _compile_project
  // ---------------------------------------------------------------------------

  /** The build command of a project type; Python projects get the syntax check instead. */
  function BuildCommand(t: ProjectType): (r: Option<string>)
    ensures r.None? <==> t == Python
    ensures t == NodeJs ==> r == Some("npm run build")
    ensures t == Maven ==> r == Some("mvn compile")
    ensures t == Gradle ==> r == Some("./gradlew build -x test")
    ensures t == DotNet ==> r == Some("dotnet build")
  {
    match t
    case Python => None
    case NodeJs => Some("npm run build")
    case Maven => Some("mvn compile")
    case Gradle => Some("./gradlew build -x test")
    case DotNet => Some("dotnet build")
  }

  /** `_compile_project`: a supplied command is run as it is; otherwise the detected type decides. */
  function Compile(project: Project, buildCommand: Option<string>, shell: string -> Exec, pyCompile: string -> Exec): (r: Reply)
    ensures Truthy(buildCommand) ==> r == RunCommand(buildCommand.value, shell)
    ensures !Truthy(buildCommand) && DetectProjectType(project.markers).None? ==>
      r == ErrorReply("Could not determine project type for compilation")
    ensures !Truthy(buildCommand) && DetectProjectType(project.markers) == Some(Python) ==>
      r == SyntaxCheck(project, pyCompile)
    ensures !Truthy(buildCommand) && DetectProjectType(project.markers).Some? && DetectProjectType(project.markers) != Some(Python) ==>
      r == RunCommand(BuildCommand(DetectProjectType(project.markers).value).value, shell)
  {
    if Truthy(buildCommand) then RunCommand(buildCommand.value, shell)
    else
      match DetectProjectType(project.markers)
      case None => ErrorReply("Could not determine project type for compilation")
      case Some(t) =>
        match BuildCommand(t)
        case None => SyntaxCheck(project, pyCompile)
        case Some(command) => RunCommand(command, shell)
  }

  // ---------------------------------------------------------------------------
  // _run_tests
  // ---------------------------------------------------------------------------

  /** Whether Python tests run under pytest: a `pytest.ini`, or some `test_*.py` file. */
  predicate UsesPytest(project: Project) {
    project.pytestIni || project.testPyFiles != []
  }

  /** One `-Dtest=<stem>` argument per test file, in order. */
  function MavenTestClasses(files: seq<string>): (r: seq<string>)
    ensures |r| == |files|
    ensures forall i :: 0 <= i < |files| ==> r[i] == "-Dtest=" + Stem(files[i])
  {
    seq(|files|, i requires 0 <= i < |files| => "-Dtest=" + Stem(files[i]))
  }

  /** The test command of a detected project type. */
  function TestCommand(project: Project, t: ProjectType, testFiles: Option<seq<string>>): (r: string)
    ensures t == NodeJs ==> r == "npm test"
    ensures t == Gradle ==> r == "./gradlew test"
    ensures !TruthyList(testFiles) ==>
      && (t == Python ==> r == (if UsesPytest(project) then "pytest" else "python -m unittest discover"))
      && (t == Maven ==> r == "mvn test")
      && (t == DotNet ==> r == "dotnet test")
    ensures TruthyList(testFiles) ==>
      && (t == Python ==> r == (if UsesPytest(project) then "pytest " else "python -m unittest ") + Join(testFiles.value, " "))
      && (t == Maven ==> r == "mvn test " + Join(MavenTestClasses(testFiles.value), " "))
      && (t == DotNet ==> r == "dotnet test " + Join(testFiles.value, " "))
  {
    match t
    case Python =>
      if UsesPytest(project) then
        (if TruthyList(testFiles) then "pytest " + Join(testFiles.value, " ") else "pytest")
      else
        (if TruthyList(testFiles) then "python -m unittest " + Join(testFiles.value, " ") else "python -m unittest discover")
    case NodeJs => "npm test"
    case Maven =>
      if TruthyList(testFiles) then "mvn test " + Join(MavenTestClasses(testFiles.value), " ") else "mvn test"
    case Gradle => "./gradlew test"
    case DotNet =>
      if TruthyList(testFiles) then "dotnet test " + Join(testFiles.value, " ") else "dotnet test"
  }

  /** `_run_tests`: a supplied command is run as it is; otherwise the detected type decides. */
  function RunTests(project: Project, testFiles: Option<seq<string>>, testCommand: Option<string>, shell: string -> Exec): (r: Reply)
    ensures Truthy(testCommand) ==> r == RunCommand(testCommand.value, shell)
    ensures !Truthy(testCommand) && DetectProjectType(project.markers).None? ==>
      r == ErrorReply("Could not determine project type for testing")
    ensures !Truthy(testCommand) && DetectProjectType(project.markers).Some? ==>
      r == RunCommand(TestCommand(project, DetectProjectType(project.markers).value, testFiles), shell)
  {
    if Truthy(testCommand) then RunCommand(testCommand.value, shell)
    else
      match DetectProjectType(project.markers)
      case None => ErrorReply("Could not determine project type for testing")
      case Some(t) => RunCommand(TestCommand(project, t, testFiles), shell)
  }

  /** Python tests run under pytest exactly when a `pytest.ini` or a `test_*.py` file exists. */
  lemma PytestIff(project: Project, testFiles: Option<seq<string>>)
    ensures StartsWith(TestCommand(project, Python, testFiles), "pytest") <==> UsesPytest(project)
  {
    var r := TestCommand(project, Python, testFiles);
    if UsesPytest(project) {
      assert r[..6] == "pytest";
    } else {
      assert r[3] == 'h';
    }
  }

  /** Words joined by spaces, after a command's own words, split back into those words. */
  lemma CommandWords(command: seq<string>, args: seq<string>)
    requires command != [] && args != []
    requires forall k :: 0 <= k < |command| ==> ' ' !in command[k]
    requires forall k :: 0 <= k < |args| ==> ' ' !in args[k]
    ensures SplitChar(Join(command, " ") + " " + Join(args, " "), ' ') == command + args
  {
    JoinAppend(command, args, " ");
    SplitCharJoin(command + args, ' ');
  }

  /** The test command of a Python, Maven or .NET project with test files: the head, then the files. */
  lemma ListedTestCommand(project: Project, t: ProjectType, files: seq<string>) returns (head: string, command: seq<string>)
    requires t == Python || t == DotNet || t == Maven
    requires files != []
    ensures command == (if t == DotNet then ["dotnet", "test"] else if t == Maven then ["mvn", "test"]
                        else if UsesPytest(project) then ["pytest"] else ["python", "-m", "unittest"])
    ensures head == Join(command, " ") + " " && forall k :: 0 <= k < |command| ==> ' ' !in command[k]
    ensures TestCommand(project, t, Some(files)) ==
      head + Join(if t == Maven then MavenTestClasses(files) else files, " ")
  {
    if t == DotNet {
      head, command := "dotnet test ", ["dotnet", "test"];
      JoinPair("dotnet", "test", " ");
      assert head == "dotnet" + " " + "test" + " ";
    } else if t == Maven {
      head, command := "mvn test ", ["mvn", "test"];
      JoinPair("mvn", "test", " ");
      assert head == "mvn" + " " + "test" + " ";
    } else if UsesPytest(project) {
      head, command := "pytest ", ["pytest"];
      assert ' ' !in "pytest";
    } else {
      head, command := "python -m unittest ", ["python", "-m", "unittest"];
      JoinTriple("python", "-m", "unittest", " ");
      assert head == "python" + " " + ("-m" + " " + "unittest") + " ";
    }
  }

  /** With test files free of spaces, each one becomes exactly one argument of the Python or .NET command, in order. */
  lemma TestFilesAreArguments(project: Project, t: ProjectType, files: seq<string>)
    requires t == Python || t == DotNet
    requires files != [] && forall k :: 0 <= k < |files| ==> ' ' !in files[k]
    ensures SplitChar(TestCommand(project, t, Some(files)), ' ') ==
      (if t == DotNet then ["dotnet", "test"] else if UsesPytest(project) then ["pytest"] else ["python", "-m", "unittest"]) + files
  {
    var head, command := ListedTestCommand(project, t, files);
    CommandWords(command, files);
  }

  /** Test classes from stems free of spaces contain no space. */
  lemma ClassesHaveNoSpace(files: seq<string>)
    requires forall k :: 0 <= k < |files| ==> ' ' !in Stem(files[k])
    ensures forall k :: 0 <= k < |files| ==> ' ' !in MavenTestClasses(files)[k]
  {
    forall k | 0 <= k < |files|
      ensures ' ' !in MavenTestClasses(files)[k]
    {
      assert ' ' !in "-Dtest=";
    }
  }

  /** With stems free of spaces, the Maven command names one test class per file, in order. */
  lemma MavenTestArguments(project: Project, files: seq<string>)
    requires files != [] && forall k :: 0 <= k < |files| ==> ' ' !in Stem(files[k])
    ensures SplitChar(TestCommand(project, Maven, Some(files)), ' ') == ["mvn", "test"] + MavenTestClasses(files)
  {
    ClassesHaveNoSpace(files);
    var head, command := ListedTestCommand(project, Maven, files);
    CommandWords(command, MavenTestClasses(files));
  }

  // ---------------------------------------------------------------------------
  // _check_python_syntax
  // ---------------------------------------------------------------------------

  const IgnoredDirs := ["venv", ".git", ".vscode", "__pycache__", "node_modules"]

  /** A path is skipped when an ignored directory name occurs anywhere in it. */
  predicate Ignored(path: string) {
    exists k :: 0 <= k < |IgnoredDirs| && Contains(path, IgnoredDirs[k])
  }

  function Unignored(path: string): Option<string> {
    if Ignored(path) then None else Some(path)
  }

  /** The Python files the check looks at. */
  function CheckedFiles(files: seq<string>): (r: seq<string>)
  {
    FilterMap(files, Unignored)
  }

  /** The error entry for one file, when `py_compile` fails or cannot be run. */
  function FileError(root: string, pyCompile: string -> Exec): string -> Option<SyntaxError> {
    file =>
      match pyCompile(file)
      case Completed(code, _, stderr) =>
        if code != 0 then Some(SyntaxError(DependencyScanner.RelativeTo(root, file), Strip(stderr))) else None
      case Raised(m) => Some(SyntaxError(DependencyScanner.RelativeTo(root, file), m))
  }

  /** The result of the syntax check over the project's Python files. */
  function SyntaxCheck(project: Project, pyCompile: string -> Exec): (r: Reply)
    ensures r.SyntaxErrors? || r.SyntaxClean?
  {
    var checked := CheckedFiles(project.pyFiles);
    var errors := FilterMap(checked, FileError(project.path, pyCompile));
    if errors != [] then SyntaxErrors(errors, "Found " + NatToString(|errors|) + " files with syntax errors")
    else SyntaxClean("All " + NatToString(|checked|) + " Python files passed syntax check")
  }

  /** A file is checked exactly when it was globbed and no ignored directory name occurs in its path. */
  lemma CheckedIff(files: seq<string>, f: string)
    ensures f in CheckedFiles(files) <==> f in files && !Ignored(f)
  {
    if f in CheckedFiles(files) {
      var i := FilterMapMember(files, Unignored, f);
    }
    if f in files && !Ignored(f) {
      var i :| 0 <= i < |files| && files[i] == f;
      FilterMapComplete(files, Unignored, i);
    }
  }

  /** `py_compile` succeeding on a file. */
  predicate Compiles(pyCompile: string -> Exec, file: string) {
    pyCompile(file).Completed? && pyCompile(file).returnCode == 0
  }

  /** The check passes exactly when every checked file compiles, and then reports how many there were. */
  lemma SyntaxCheckPassesIff(project: Project, pyCompile: string -> Exec)
    ensures var checked := CheckedFiles(project.pyFiles);
      (SyntaxCheck(project, pyCompile).SyntaxClean? <==> forall i :: 0 <= i < |checked| ==> Compiles(pyCompile, checked[i])) &&
      (SyntaxCheck(project, pyCompile).SyntaxClean? ==>
        SyntaxCheck(project, pyCompile).message == "All " + NatToString(|checked|) + " Python files passed syntax check")
  {
    var checked := CheckedFiles(project.pyFiles);
    var f := FileError(project.path, pyCompile);
    if forall i :: 0 <= i < |checked| ==> Compiles(pyCompile, checked[i]) {
      FilterMapNone(checked, f);
    } else {
      var i :| 0 <= i < |checked| && !Compiles(pyCompile, checked[i]);
      FilterMapComplete(checked, f, i);
    }
  }

  /** Every reported error belongs to a checked file that failed, named relative to the project. */
  lemma SyntaxErrorsComeFromFailures(project: Project, pyCompile: string -> Exec, e: SyntaxError)
    requires SyntaxCheck(project, pyCompile).SyntaxErrors? && e in SyntaxCheck(project, pyCompile).errors
    ensures exists f :: (f in project.pyFiles && !Ignored(f) && !Compiles(pyCompile, f) &&
      e.file == DependencyScanner.RelativeTo(project.path, f))
  {
    var checked := CheckedFiles(project.pyFiles);
    var i := FilterMapMember(checked, FileError(project.path, pyCompile), e);
    CheckedIff(project.pyFiles, checked[i]);
  }

  /** A text that starts with one containing `p` contains `p` too. */
  lemma ContainsExtended(s: string, t: string, p: string)
    requires StartsWith(t, s) && Contains(s, p)
    ensures Contains(t, p)
  {
    ContainsIff(s, p);
    var j: nat :| Occurs(s, p, j);
    assert t[..|s|] == s;
    assert t[j..j + |p|] == s[j..j + |p|];
    assert Occurs(t, p, j);
    ContainsIff(t, p);
  }

  /**
   * The filter looks at whole paths: when the project directory's own path
   * contains an ignored name, every file is skipped and the check passes on
   * zero files.
   */
  lemma IgnoredProjectDirectory(project: Project, pyCompile: string -> Exec, k: nat)
    requires k < |IgnoredDirs| && Contains(project.path, IgnoredDirs[k])
    requires forall i :: 0 <= i < |project.pyFiles| ==> StartsWith(project.pyFiles[i], project.path + "/")
    ensures CheckedFiles(project.pyFiles) == []
    ensures SyntaxCheck(project, pyCompile) == SyntaxClean("All " + NatToString(0) + " Python files passed syntax check")
    ensures NatToString(0) == "0"
  {
    forall i | 0 <= i < |project.pyFiles|
      ensures Unignored(project.pyFiles[i]).None?
    {
      var f := project.pyFiles[i];
      var d := project.path + "/";
      assert f[..|d|] == d;
      assert f[..|project.path|] == d[..|project.path|] == project.path;
      ContainsExtended(project.path, f, IgnoredDirs[k]);
    }
    FilterMapNone(project.pyFiles, Unignored);
    NoFilesPass(project, pyCompile);
  }

  lemma NoFilesPass(project: Project, pyCompile: string -> Exec)
    requires CheckedFiles(project.pyFiles) == []
    ensures SyntaxCheck(project, pyCompile) == SyntaxClean("All " + NatToString(0) + " Python files passed syntax check")
  {
    assert FilterMap(CheckedFiles(project.pyFiles), FileError(project.path, pyCompile)) == [];
  }

  /** The loop of `_check_python_syntax` over the files the filter kept. */
  method CheckPythonSyntax(project: Project, pyCompile: string -> Exec) returns (r: Reply)
    ensures r == SyntaxCheck(project, pyCompile)
  {
    var checked := CheckedFiles(project.pyFiles);
    var f := FileError(project.path, pyCompile);
    var errors: seq<SyntaxError> := [];
    for i := 0 to |checked|
      invariant errors == FilterMap(checked[..i], f)
    {
      assert checked[..i + 1][..i] == checked[..i];
      var file := checked[i];
      match pyCompile(file)
      case Completed(code, _, stderr) =>
        if code != 0 {
          errors := errors + [SyntaxError(DependencyScanner.RelativeTo(project.path, file), Strip(stderr))];
        }
      case Raised(m) =>
        errors := errors + [SyntaxError(DependencyScanner.RelativeTo(project.path, file), m)];
    }
    assert checked[..|checked|] == checked;
    if errors != [] {
      r := SyntaxErrors(errors, "Found " + NatToString(|errors|) + " files with syntax errors");
    } else {
      r := SyntaxClean("All " + NatToString(|checked|) + " Python files passed syntax check");
    }
  }

  // ---------------------------------------------------------------------------
  // _run
  // ---------------------------------------------------------------------------

  /** `_run`: `compile` and `test` go to their handlers; any other operation is an error. */
  function Run(
    project: Project, shell: string -> Exec, pyCompile: string -> Exec,
    operation: string, testFiles: Option<seq<string>>, testCommand: Option<string>, buildCommand: Option<string>): (r: Reply)
    ensures operation == "compile" ==> r == Compile(project, buildCommand, shell, pyCompile)
    ensures operation == "test" ==> r == RunTests(project, testFiles, testCommand, shell)
    ensures operation != "compile" && operation != "test" ==> r == ErrorReply("Unknown operation: " + operation)
  {
    if operation == "compile" then Compile(project, buildCommand, shell, pyCompile)
    else if operation == "test" then RunTests(project, testFiles, testCommand, shell)
    else ErrorReply("Unknown operation: " + operation)
  }
}

=== FILE: dependency_scanner.dfy ===
/**
 * The dependency scan of the upgrade tool: detect the project type from its marker
 * files, parse the declared dependencies of the detected type, ask each package
 * registry for the latest version, and report the dependencies whose declared
 * version differs from it as upgrade candidates.
 *
 * Globs, file reads, JSON decoding, the pom.xml pattern, `pip`, `npm` and the
 * Maven Central search are inputs: marker paths, a map from readable paths to what
 * the parsers see in them, and a registry of oracle functions.
 */
module DependencyScanner {
  import opened Base
  import opened Strings
  import opened Seqs
  import opened Paths
  import opened Projects

  // ---------------------------------------------------------------------------
  // Project type detection
  // ---------------------------------------------------------------------------

  datatype Detection = Detection(projectType: ProjectType, files: seq<string>)

  /**
   * The first project type, in priority order, that has a marker file, with its
   * marker files; `None` when there are none at all.
   */
  function DetectProjectType(m: Markers): (r: Option<Detection>)
    ensures r.Some? ==> r.value.files == MarkerFiles(m, r.value.projectType) && r.value.files != []
    ensures r.Some? ==> forall t :: Rank(t) < Rank(r.value.projectType) ==> MarkerFiles(m, t) == []
    ensures r.None? <==> forall t :: MarkerFiles(m, t) == []
  {
    if m.requirementsTxt != [] || m.setupPy != [] || m.pyprojectToml != [] then
      Some(Detection(Python, m.requirementsTxt + m.setupPy + m.pyprojectToml))
    else if m.packageJson != [] then
      Some(Detection(NodeJs, m.packageJson))
    else if m.pomXml != [] then
      Some(Detection(Maven, m.pomXml))
    else if m.buildGradle + m.buildGradleKts != [] then
      Some(Detection(Gradle, m.buildGradle + m.buildGradleKts))
    else if m.csproj != [] then
      Some(Detection(DotNet, m.csproj))
    else
      None
  }

  // ---------------------------------------------------------------------------
  // Dependency records
  // ---------------------------------------------------------------------------

  /** A declared dependency, with the path of the file that declares it. */
  datatype Dependency =
    | Requirement(name: string, version: string, constraint: string, file: string)
    | NpmPackage(name: string, version: string, constraint: string, depType: string, file: string)
    | MavenArtifact(name: string, groupId: string, artifactId: string, version: string, file: string)

  /** A Maven record is named `groupId:artifactId`. */
  predicate WellFormed(d: Dependency) {
    d.MavenArtifact? ==> d.name == d.groupId + ":" + d.artifactId
  }

  // --- requirements.txt ------------------------------------------------------

  /**
   * One line of a requirements.txt file. Blank lines and comments give nothing;
   * `==` is looked for before `>=`; a line with neither gives nothing.
   */
  function ParseRequirementLine(raw: string, file: string): (r: Option<Dependency>)
    ensures r.Some? <==>
      (var line := Strip(raw); line != [] && line[0] != '#' && (Contains(line, "==") || Contains(line, ">=")))
    ensures r.Some? ==> r.value.Requirement? && r.value.file == file
    ensures r.Some? ==> r.value.constraint == if Contains(Strip(raw), "==") then "==" else ">="
  {
    var line := Strip(raw);
    if line == [] || line[0] == '#' then None
    else if Contains(line, "==") then
      Some(Requirement(Strip(Before(line, "==")), Strip(After(line, "==")), "==", file))
    else if Contains(line, ">=") then
      Some(Requirement(Strip(Before(line, ">=")), Strip(After(line, ">=")), ">=", file))
    else None
  }

  function RequirementParser(file: string): string -> Option<Dependency> {
    raw => ParseRequirementLine(raw, file)
  }

  /** The records of a requirements.txt file, in line order; an unreadable file gives none. */
  function RequirementRecords(text: Option<string>, file: string): seq<Dependency> {
    match text
    case None => []
    case Some(t) => FilterMap(SplitLines(t), RequirementParser(file))
  }

  method ParseRequirementsTxt(text: Option<string>, file: string) returns (deps: seq<Dependency>)
    ensures deps == RequirementRecords(text, file)
  {
    deps := [];
    if text.None? {
      return;
    }
    var lines := SplitLines(text.value);
    for i := 0 to |lines|
      invariant deps == FilterMap(lines[..i], RequirementParser(file))
    {
      FilterMapStep(lines, i, RequirementParser(file));
      var d := RequirementParser(file)(lines[i]);
      if d.Some? {
        deps := deps + [d.value];
      }
    }
    assert lines[..|lines|] == lines;
  }

  // --- package.json ----------------------------------------------------------

  /**
   * A JSON value, as far as the parser looks into it. The members of an object
   * are listed as written, a name possibly more than once; what `json.loads`
   * makes of them is `Member` for a lookup and `Items` for an iteration.
   */
  datatype Json = JString(text: string) | JObject(members: seq<(string, Json)>) | JOther

  /** Position `k` holds the last member named `key`. */
  ghost predicate LastNamed(members: seq<(string, Json)>, key: string, k: int) {
    0 <= k < |members| && members[k].0 == key && forall j :: k < j < |members| ==> members[j].0 != key
  }

  /** The value of the last member named `key`: the one a decoded JSON object keeps. */
  function Member(members: seq<(string, Json)>, key: string): (r: Option<Json>)
    ensures r.Some? <==> exists k :: 0 <= k < |members| && members[k].0 == key
    ensures r.Some? ==> exists k :: LastNamed(members, key, k) && members[k].1 == r.value
  {
    if members == [] then None
    else if members[|members| - 1].0 == key then
      assert LastNamed(members, key, |members| - 1);
      Some(members[|members| - 1].1)
    else
      var r := Member(members[..|members| - 1], key);
      LastNamedExtends(members, key);
      r
  }

  /** A member named otherwise at the end leaves the members named `key` where they were. */
  lemma LastNamedExtends(members: seq<(string, Json)>, key: string)
    requires members != [] && members[|members| - 1].0 != key
    ensures forall k :: LastNamed(members[..|members| - 1], key, k) ==> LastNamed(members, key, k)
  {
    var init := members[..|members| - 1];
    forall k | LastNamed(init, key, k)
      ensures LastNamed(members, key, k)
    {
      assert members[k] == init[k];
    }
  }

  /** Some member is named `key`. */
  ghost predicate Named(members: seq<(string, Json)>, key: string) {
    exists k :: 0 <= k < |members| && members[k].0 == key
  }

  /** A member more at the end adds its name to those named. */
  lemma NamedSnoc(members: seq<(string, Json)>)
    requires members != []
    ensures forall key :: Named(members, key) <==> Named(members[..|members| - 1], key) || members[|members| - 1].0 == key
  {
    var init := members[..|members| - 1];
    forall key
      ensures Named(members, key) <==> Named(init, key) || members[|members| - 1].0 == key
    {
      if Named(members, key) && members[|members| - 1].0 != key {
        var k :| 0 <= k < |members| && members[k].0 == key;
        assert init[k] == members[k];
      }
      if Named(init, key) {
        var k :| 0 <= k < |init| && init[k].0 == key;
        assert members[k] == init[k];
      }
    }
  }

  /** The names of the members, each once, in the order they first appear: the keys of the decoded object. */
  function Names(members: seq<(string, Json)>): (r: seq<string>)
    ensures forall i, j :: 0 <= i < j < |r| ==> r[i] != r[j]
    ensures forall key :: key in r <==> Named(members, key)
  {
    if members == [] then []
    else
      var names, last := Names(members[..|members| - 1]), members[|members| - 1].0;
      NamedSnoc(members);
      if last in names then names else names + [last]
  }

  /**
   * The items of the decoded object, as `.items()` yields them: each name once,
   * where it first appears, with the value of its last appearance.
   */
  function Items(members: seq<(string, Json)>): (r: seq<(string, Json)>)
    ensures |r| == |Names(members)|
    ensures forall i :: 0 <= i < |r| ==> r[i].0 == Names(members)[i] && Member(members, r[i].0) == Some(r[i].1)
  {
    var names := Names(members);
    assert forall i :: 0 <= i < |names| ==> Named(members, names[i]);
    seq(|names|, i requires 0 <= i < |names| => (names[i], Member(members, names[i]).value))
  }

  /**
   * One package.json entry: a leading `^` or `~` is taken off the version and kept
   * as the constraint; any other version is kept whole with the constraint `^`.
   */
  function NpmRecord(name: string, version: string, depType: string, file: string): (d: Dependency)
    ensures d.NpmPackage? && d.name == name && d.depType == depType && d.file == file
    ensures d.constraint == "^" || d.constraint == "~"
    ensures StartsWith(version, "^") || StartsWith(version, "~") ==> d.constraint + d.version == version
    ensures !StartsWith(version, "^") && !StartsWith(version, "~") ==> d.version == version && d.constraint == "^"
  {
    if StartsWith(version, "^") then NpmPackage(name, version[1..], "^", depType, file)
    else if StartsWith(version, "~") then NpmPackage(name, version[1..], "~", depType, file)
    else NpmPackage(name, version, "^", depType, file)
  }

  /** How many entries, from the first, have a string as their version. */
  function StringRun(entries: seq<(string, Json)>): (n: nat)
    ensures n <= |entries| && forall k :: 0 <= k < n ==> entries[k].1.JString?
    ensures n < |entries| ==> !entries[n].1.JString?
  {
    if entries == [] || !entries[0].1.JString? then 0 else 1 + StringRun(entries[1..])
  }

  /** The records of one section, up to the first entry whose version is not a string. */
  function SectionRecords(entries: seq<(string, Json)>, depType: string, file: string): (r: seq<Dependency>)
    ensures |r| == StringRun(entries)
    ensures forall k :: 0 <= k < |r| ==> r[k].name == entries[k].0 && r[k].NpmPackage? && r[k].file == file
  {
    var n := StringRun(entries);
    seq(n, k requires 0 <= k < n => NpmRecord(entries[k].0, entries[k].1.text, depType, file))
  }

  /**
   * What the section `depType` of the document contributes, and whether parsing
   * goes on after it: a missing section contributes nothing; a section that is not
   * an object, or an entry whose version is not a string, stops the parse.
   */
  function SectionOutcome(content: seq<(string, Json)>, depType: string, file: string): (r: (seq<Dependency>, bool))
    ensures forall i, j :: 0 <= i < j < |r.0| ==> r.0[i].name != r.0[j].name
  {
    match Member(content, depType)
    case None => ([], true)
    case Some(JObject(members)) =>
      var entries := Items(members);
      (SectionRecords(entries, depType, file), StringRun(entries) == |entries|)
    case Some(_) => ([], false)
  }

  /** The sections package.json is read from, in order. */
  const DepTypes: seq<string> := ["dependencies", "devDependencies"]

  /**
   * The records of the sections `types`, in order, and whether none stopped the
   * parse; what was read before a stop is kept.
   */
  function SectionsRecords(content: seq<(string, Json)>, types: seq<string>, file: string): (seq<Dependency>, bool) {
    if types == [] then ([], true)
    else
      var prev := SectionsRecords(content, types[..|types| - 1], file);
      if !prev.1 then prev
      else
        var last := SectionOutcome(content, types[|types| - 1], file);
        (prev.0 + last.0, last.1)
  }

  /** The records of a package.json file; a file that is unreadable, not JSON or not an object gives none. */
  function PackageJsonRecords(doc: Option<Json>, file: string): seq<Dependency> {
    match doc
    case Some(JObject(content)) => SectionsRecords(content, DepTypes, file).0
    case _ => []
  }

  /** The entries of one section, read until one has a version that is not a string. */
  method ParseSection(entries: seq<(string, Json)>, depType: string, file: string)
    returns (deps: seq<Dependency>, complete: bool)
    ensures deps == SectionRecords(entries, depType, file)
    ensures complete <==> StringRun(entries) == |entries|
  {
    deps := [];
    for k := 0 to |entries|
      invariant |deps| == k
      invariant forall j :: 0 <= j < k ==> entries[j].1.JString?
      invariant forall j :: 0 <= j < k ==> deps[j] == NpmRecord(entries[j].0, entries[j].1.text, depType, file)
    {
      var (name, version) := entries[k];
      if !version.JString? {
        assert StringRun(entries) == k;
        return deps, false;
      }
      deps := deps + [NpmRecord(name, version.text, depType, file)];
    }
    assert StringRun(entries) == |entries|;
    complete := true;
  }

  method ParsePackageJson(doc: Option<Json>, file: string) returns (deps: seq<Dependency>)
    ensures deps == PackageJsonRecords(doc, file)
  {
    deps := [];
    if !(doc.Some? && doc.value.JObject?) {
      return;
    }
    var content := doc.value.members;
    for t := 0 to |DepTypes|
      invariant SectionsRecords(content, DepTypes[..t], file) == (deps, true)
    {
      assert DepTypes[..t + 1][..t] == DepTypes[..t];
      var depType := DepTypes[t];
      ghost var outcome := SectionOutcome(content, depType, file);
      assert SectionsRecords(content, DepTypes[..t + 1], file) == (deps + outcome.0, outcome.1);
      var section := Member(content, depType);
      if section.Some? {
        if !section.value.JObject? {
          assert outcome == ([], false);
          if t == 0 {
            assert SectionsRecords(content, DepTypes[..2], file) == (deps, false);
          }
          assert DepTypes[..2] == DepTypes;
          return;
        }
        var records, complete := ParseSection(Items(section.value.members), depType, file);
        assert outcome == (records, complete);
        deps := deps + records;
        if !complete {
          if t == 0 {
            assert SectionsRecords(content, DepTypes[..2], file) == (deps, false);
          }
          assert DepTypes[..2] == DepTypes;
          return;
        }
      } else {
        assert outcome == ([], true);
        assert deps + [] == deps;
      }
    }
    assert DepTypes[..|DepTypes|] == DepTypes;
  }

  // --- pom.xml ---------------------------------------------------------------

  /** The groupId, artifactId and version captured by one match of the dependency pattern. */
  datatype PomMatch = PomMatch(groupId: string, artifactId: string, version: string)

  function PomRecord(m: PomMatch, file: string): (d: Dependency)
    ensures d.MavenArtifact? && WellFormed(d) && d.file == file
  {
    MavenArtifact(m.groupId + ":" + m.artifactId, m.groupId, m.artifactId, m.version, file)
  }

  /** The records of a pom.xml file, one per match in document order; an unreadable file gives none. */
  function PomRecords(matches: Option<seq<PomMatch>>, file: string): seq<Dependency> {
    match matches
    case None => []
    case Some(ms) => seq(|ms|, k requires 0 <= k < |ms| => PomRecord(ms[k], file))
  }

  method ParsePomXml(matches: Option<seq<PomMatch>>, file: string) returns (deps: seq<Dependency>)
    ensures deps == PomRecords(matches, file)
  {
    deps := [];
    if matches.None? {
      return;
    }
    var ms := matches.value;
    for k := 0 to |ms|
      invariant |deps| == k && forall j :: 0 <= j < k ==> deps[j] == PomRecord(ms[j], file)
    {
      deps := deps + [PomRecord(ms[k], file)];
    }
  }

  // --- all dependency files --------------------------------------------------

  /**
   * What the parsers see in a readable file: its text, its decoded JSON (`None` when
   * it is not JSON) and the matches of the pom.xml dependency pattern in it.
   */
  datatype FileView = FileView(text: string, json: Option<Json>, pomMatches: seq<PomMatch>)

  /** The records one dependency file contributes; only the file names each type parses contribute. */
  function FileRecords(pt: ProjectType, path: string, files: map<string, FileView>): seq<Dependency> {
    var view := if path in files then Some(files[path]) else None;
    match pt
    case Python =>
      if Name(path) == "requirements.txt" then
        RequirementRecords(if view.Some? then Some(view.value.text) else None, path)
      else []
    case NodeJs =>
      if Name(path) == "package.json" then
        PackageJsonRecords(if view.Some? then view.value.json else None, path)
      else []
    case Maven =>
      if Name(path) == "pom.xml" then
        PomRecords(if view.Some? then Some(view.value.pomMatches) else None, path)
      else []
    case _ => []
  }

  function FileParser(pt: ProjectType, files: map<string, FileView>): string -> seq<Dependency> {
    path => FileRecords(pt, path, files)
  }

  /** The records of all dependency files, file by file in order. */
  function DependencyRecords(pt: ProjectType, paths: seq<string>, files: map<string, FileView>): seq<Dependency> {
    ConcatMap(paths, FileParser(pt, files))
  }

  method ParseDependencies(pt: ProjectType, paths: seq<string>, files: map<string, FileView>)
    returns (deps: seq<Dependency>)
    ensures deps == DependencyRecords(pt, paths, files)
  {
    deps := [];
    for i := 0 to |paths|
      invariant deps == ConcatMap(paths[..i], FileParser(pt, files))
    {
      assert paths[..i + 1][..i] == paths[..i];
      var path := paths[i];
      var view := if path in files then Some(files[path]) else None;
      var more: seq<Dependency> := [];
      if pt == Python && Name(path) == "requirements.txt" {
        more := ParseRequirementsTxt(if view.Some? then Some(view.value.text) else None, path);
      } else if pt == NodeJs && Name(path) == "package.json" {
        more := ParsePackageJson(if view.Some? then view.value.json else None, path);
      } else if pt == Maven && Name(path) == "pom.xml" {
        more := ParsePomXml(if view.Some? then Some(view.value.pomMatches) else None, path);
      }
      assert more == FileRecords(pt, path, files);
      deps := deps + more;
    }
    assert paths[..|paths|] == paths;
  }

  // ---------------------------------------------------------------------------
  // Upgrade candidates
  // ---------------------------------------------------------------------------

  /** A dependency whose registry reports a different latest version. */
  datatype Candidate =
    | PipUpgrade(name: string, currentVersion: string, latestVersion: string, file: string)
    | NpmUpgrade(name: string, currentVersion: string, latestVersion: string, depType: string, file: string)
    | MavenUpgrade(name: string, groupId: string, artifactId: string,
                   currentVersion: string, latestVersion: string, file: string)

  /** The part of a Maven Central search answer the checker reads: `numFound` and the first document's `latestVersion`. */
  datatype MavenSearch = MavenSearch(numFound: int, firstLatestVersion: Option<string>)

  /** An HTTP answer of the search API; `search` is `None` when the body lacks the expected fields. */
  datatype HttpReply = HttpReply(statusCode: int, search: Option<MavenSearch>)

  /**
   * The registries: what `pip index versions <name>` and `npm view <name> version`
   * do, and what the Maven Central search for (groupId, artifactId) answers
   * (`None` when the request raises).
   */
  datatype Registry = Registry(
    pip: string -> Exec,
    npm: string -> Exec,
    mavenCentral: (string, string) -> Option<HttpReply>)

  const AvailableVersions: string := "Available versions: "

  /**
   * The latest version in the output of `pip index versions`: the text after the
   * first "Available versions: " up to the end of that line, cut at the first ", ".
   */
  function PipLatest(stdout: string): (r: Option<string>)
    ensures r.Some? <==> Contains(stdout, AvailableVersions)
    ensures r.Some? ==> !Contains(r.value, ", ") && '\n' !in r.value
  {
    match Find(stdout, AvailableVersions)
    case None => None
    case Some(i) =>
      var line := Before(stdout[i + |AvailableVersions|..], "\n");
      var v := Before(line, ", ");
      NoNewlineBefore(stdout[i + |AvailableVersions|..]);
      FirstPieceHasNoSeparator(line, ", ");
      assert StartsWith(line, v);
      assert v == line[..|v|];
      Some(v)
  }

  /** The text before the first newline contains no newline. */
  lemma NoNewlineBefore(s: string)
    ensures '\n' !in Before(s, "\n")
  {
    var b := Before(s, "\n");
    forall k | 0 <= k < |b|
      ensures b[k] != '\n'
    {
      assert s[k..k + 1] == [s[k]];
      assert !Occurs(s, "\n", k);
    }
  }

  /** The text before the first `sep` does not contain `sep`. */
  lemma FirstPieceHasNoSeparator(s: string, sep: string)
    requires sep != []
    ensures !Contains(Before(s, sep), sep)
  {
    var b := Before(s, sep);
    match Find(s, sep)
    case None =>
    case Some(i) =>
      assert b == s[..i];
      forall j: nat | j <= |b|
        ensures !Occurs(b, sep, j)
      {
        if j + |sep| <= |b| {
          assert b[j..j + |sep|] == s[j..j + |sep|];
          assert !Occurs(s, sep, j);
        }
      }
      ContainsIff(b, sep);
  }

  /** A command that ran and exited with status 0. */
  predicate Succeeded(e: Exec) {
    e.Completed? && e.returnCode == 0
  }

  /** A search answered with status 200, at least one document and that document's latest version. */
  predicate MavenHit(a: Option<HttpReply>) {
    a.Some? && a.value.statusCode == 200 && a.value.search.Some? &&
    a.value.search.value.numFound > 0 && a.value.search.value.firstLatestVersion.Some?
  }

  /**
   * The latest version the registry of the project type reports for a dependency:
   * pip's "Available versions" line when pip succeeds, npm's output stripped when
   * npm succeeds, the first search document's latest version when Maven Central
   * finds the artifact; nothing for Gradle and .NET projects.
   */
  function LatestVersion(pt: ProjectType, dep: Dependency, reg: Registry): (r: Option<string>)
    ensures pt == Gradle || pt == DotNet ==> r.None?
    ensures pt == Python ==>
      (r.Some? <==> Succeeded(reg.pip(dep.name)) && Contains(reg.pip(dep.name).stdout, AvailableVersions))
    ensures pt == Python && r.Some? ==> !Contains(r.value, ", ") && '\n' !in r.value
    ensures pt == NodeJs ==> (r.Some? <==> Succeeded(reg.npm(dep.name)))
    ensures pt == NodeJs && r.Some? ==> r.value == Strip(reg.npm(dep.name).stdout)
    ensures pt == Maven ==> (r.Some? <==> dep.MavenArtifact? && MavenHit(reg.mavenCentral(dep.groupId, dep.artifactId)))
    ensures pt == Maven && r.Some? ==> r == reg.mavenCentral(dep.groupId, dep.artifactId).value.search.value.firstLatestVersion
  {
    match pt
    case Python =>
      (match reg.pip(dep.name)
       case Completed(0, out, _) => PipLatest(out)
       case _ => None)
    case NodeJs =>
      (match reg.npm(dep.name)
       case Completed(0, out, _) => Some(Strip(out))
       case _ => None)
    case Maven =>
      if !dep.MavenArtifact? then None
      else
        (match reg.mavenCentral(dep.groupId, dep.artifactId)
         case Some(HttpReply(200, Some(MavenSearch(found, first)))) => if found > 0 then first else None
         case _ => None)
    case _ => None
  }

  /**
   * The candidate for one dependency: there is one exactly when the registry
   * reports a latest version that differs, as a string, from the declared one;
   * it keeps the dependency's name, version and file.
   */
  function CheckUpgrade(pt: ProjectType, dep: Dependency, reg: Registry): (r: Option<Candidate>)
    ensures r.Some? <==> LatestVersion(pt, dep, reg).Some? && LatestVersion(pt, dep, reg).value != dep.version
    ensures r.Some? ==> r.value.latestVersion == LatestVersion(pt, dep, reg).value
    ensures r.Some? ==> r.value.currentVersion == dep.version && r.value.file == dep.file
    ensures r.Some? && WellFormed(dep) ==> r.value.name == dep.name
  {
    match LatestVersion(pt, dep, reg)
    case None => None
    case Some(latest) =>
      if latest == dep.version then None
      else if pt == Python then Some(PipUpgrade(dep.name, dep.version, latest, dep.file))
      else if pt == NodeJs then
        Some(NpmUpgrade(dep.name, dep.version, latest, if dep.NpmPackage? then dep.depType else "dependencies", dep.file))
      else
        Some(MavenUpgrade(dep.groupId + ":" + dep.artifactId, dep.groupId, dep.artifactId, dep.version, latest, dep.file))
  }

  function Checker(pt: ProjectType, reg: Registry): Dependency -> Option<Candidate> {
    dep => CheckUpgrade(pt, dep, reg)
  }

  /** The upgrade candidates, in dependency order. */
  function Candidates(pt: ProjectType, deps: seq<Dependency>, reg: Registry): seq<Candidate> {
    FilterMap(deps, Checker(pt, reg))
  }

  method FindUpgradeCandidates(pt: ProjectType, deps: seq<Dependency>, reg: Registry)
    returns (candidates: seq<Candidate>)
    ensures candidates == Candidates(pt, deps, reg)
  {
    candidates := [];
    for i := 0 to |deps|
      invariant candidates == FilterMap(deps[..i], Checker(pt, reg))
    {
      FilterMapStep(deps, i, Checker(pt, reg));
      if pt == Python || pt == NodeJs || pt == Maven {
        var c := CheckUpgrade(pt, deps[i], reg);
        if c.Some? {
          candidates := candidates + [c.value];
        }
      } else {
        assert LatestVersion(pt, deps[i], reg).None?;
      }
    }
    assert deps[..|deps|] == deps;
  }

  // ---------------------------------------------------------------------------
  // The scan report
  // ---------------------------------------------------------------------------

  datatype ScanResult =
    | ScanError(message: string)
    | ScanReport(projectType: string, dependencyFiles: seq<string>,
                 dependencies: seq<Dependency>, upgradeCandidates: seq<Candidate>)

  /** A path the glob returned, relative to the project directory. */
  function RelativeTo(root: string, path: string): string {
    if StartsWith(path, root + "/") then path[|root| + 1..] else path
  }

  function Relativizer(root: string): string -> Option<string> {
    path => Some(RelativeTo(root, path))
  }

  /** Every marker path lies under the project directory, as the globs return them. */
  ghost predicate UnderRoot(root: string, paths: seq<string>) {
    forall i :: 0 <= i < |paths| ==> StartsWith(paths[i], root + "/")
  }

  /**
   * The scan of the configured project directory `root`: an error exactly when the
   * directory is missing or has no marker file of any type; otherwise a report of
   * the detected type with at most one candidate per dependency.
   */
  function Scan(rootExists: bool, root: string, m: Markers, files: map<string, FileView>, reg: Registry): (r: ScanResult)
    ensures r.ScanError? <==> !rootExists || forall t :: MarkerFiles(m, t) == []
    ensures !rootExists ==> r.message == "Project path " + root + " does not exist"
    ensures rootExists && r.ScanError? ==> r.message == "Could not determine project type"
    ensures r.ScanReport? ==> |r.upgradeCandidates| <= |r.dependencies|
    ensures r.ScanReport? ==> rootExists && DetectProjectType(m).Some?
    ensures r.ScanReport? && DetectProjectType(m).Some? ==>
      var d := DetectProjectType(m).value;
      && r.projectType == TypeName(d.projectType)
      && r.dependencyFiles == FilterMap(d.files, Relativizer(root))
      && r.dependencies == DependencyRecords(d.projectType, d.files, files)
      && r.upgradeCandidates == Candidates(d.projectType, r.dependencies, reg)
  {
    if !rootExists then ScanError("Project path " + root + " does not exist")
    else
      match DetectProjectType(m)
      case None => ScanError("Could not determine project type")
      case Some(Detection(pt, paths)) =>
        var deps := DependencyRecords(pt, paths, files);
        ScanReport(TypeName(pt), FilterMap(paths, Relativizer(root)), deps, Candidates(pt, deps, reg))
  }

  method Run(rootExists: bool, root: string, m: Markers, files: map<string, FileView>, reg: Registry)
    returns (r: ScanResult)
    ensures r == Scan(rootExists, root, m, files, reg)
  {
    if !rootExists {
      return ScanError("Project path " + root + " does not exist");
    }
    var detection := DetectProjectType(m);
    if detection.None? {
      return ScanError("Could not determine project type");
    }
    var pt, paths := detection.value.projectType, detection.value.files;
    var deps := ParseDependencies(pt, paths, files);
    var candidates := FindUpgradeCandidates(pt, deps, reg);
    var relative: seq<string> := [];
    for i := 0 to |paths|
      invariant relative == FilterMap(paths[..i], Relativizer(root))
    {
      assert paths[..i + 1][..i] == paths[..i];
      relative := relative + [RelativeTo(root, paths[i])];
    }
    assert paths[..|paths|] == paths;
    r := ScanReport(TypeName(pt), relative, deps, candidates);
  }

  // ---------------------------------------------------------------------------
  // Properties of the scan
  // ---------------------------------------------------------------------------

  /**
   * The pieces of `name` + `op` + `version` as the line parser sees them: the line
   * is already stripped, contains `op`, and splits around it into the two parts.
   */
  lemma ConstraintLineParts(name: string, op: string, version: string)
    requires op == "==" || op == ">="
    requires NoSpace(name) && NoSpace(version) && name != [] && op[0] !in name
    ensures var line := name + op + version;
      Strip(line) == line && line[0] == name[0] && Contains(line, op) &&
      Strip(Before(line, op)) == name && Strip(After(line, op)) == version
  {
    var line := name + op + version;
    assert NoSpace(line) by {
      forall k | 0 <= k < |line| ensures !IsSpace(line[k]) {
        if k >= |name| + 2 { assert line[k] == version[k - |name| - 2]; }
      }
    }
    StripNoSpace(line);
    FindAfterFreeChar(name, op, version);
    SplitAtFind(name, op, version);
    StripNoSpace(name);
    StripNoSpace(version);
  }

  /** `name==version` parses back to its name and version, pinned with `==`. */
  lemma PinnedRequirementRoundTrip(name: string, version: string, file: string)
    requires NoSpace(name) && NoSpace(version) && name != [] && version != []
    requires '=' !in name && name[0] != '#'
    ensures ParseRequirementLine(name + "==" + version, file) == Some(Requirement(name, version, "==", file))
  {
    ConstraintLineParts(name, "==", version);
  }

  /** `name>=version` contains no `==` when neither part contains `=`. */
  lemma NoPinInMinimum(name: string, version: string)
    requires '=' !in name && '=' !in version
    ensures !Contains(name + ">=" + version, "==")
  {
    var line := name + ">=" + version;
    forall j: nat | j <= |line|
      ensures !Occurs(line, "==", j)
    {
      if j + 2 <= |line| {
        var w := line[j..j + 2];
        if j < |name| {
          assert w[0] == name[j];
        } else if j == |name| {
          assert w[0] == '>';
        } else {
          assert w[1] == version[j - |name| - 1];
        }
      }
    }
    ContainsIff(line, "==");
  }

  /** `name>=version` parses back to its name and version, with the minimum constraint `>=`. */
  lemma MinimumRequirementRoundTrip(name: string, version: string, file: string)
    requires NoSpace(name) && NoSpace(version) && name != [] && version != []
    requires '=' !in name && '>' !in name && '=' !in version && name[0] != '#'
    ensures ParseRequirementLine(name + ">=" + version, file) == Some(Requirement(name, version, ">=", file))
  {
    ConstraintLineParts(name, ">=", version);
    NoPinInMinimum(name, version);
  }

  /** The lines of the example requirements.txt of `RequirementsExample`. */
  lemma ExampleLines(pinned: string, minimum: string, comment: string)
    requires pinned == "a==1.0" && minimum == "b>=2.0" && comment == "# comment"
    ensures SplitLines(pinned + "\n" + minimum + "\n" + comment + "\n" + "\n") == [pinned, minimum, comment, ""]
  {
    assert forall k :: 0 <= k < |pinned| ==> !IsLineBreak(pinned[k]);
    assert forall k :: 0 <= k < |minimum| ==> !IsLineBreak(minimum[k]);
    assert forall k :: 0 <= k < |comment| ==> !IsLineBreak(comment[k]);
    ThreeLinesAndBlank(pinned, minimum, comment);
    RegroupLines(pinned, minimum, comment, "\n");
  }

  /** Three lines, each ended by a newline, then a blank line. */
  lemma ThreeLinesAndBlank(a: string, b: string, c: string)
    requires forall k :: 0 <= k < |a| ==> !IsLineBreak(a[k])
    requires forall k :: 0 <= k < |b| ==> !IsLineBreak(b[k])
    requires forall k :: 0 <= k < |c| ==> !IsLineBreak(c[k])
    ensures SplitLines(a + "\n" + (b + "\n" + (c + "\n" + ([] + "\n" + [])))) == [a, b, c, ""]
  {
    TwoLinesAndBlank(b, c);
    LineBefore(a, b + "\n" + (c + "\n" + ([] + "\n" + [])), [b, c, ""]);
  }

  lemma TwoLinesAndBlank(b: string, c: string)
    requires forall k :: 0 <= k < |b| ==> !IsLineBreak(b[k])
    requires forall k :: 0 <= k < |c| ==> !IsLineBreak(c[k])
    ensures SplitLines(b + "\n" + (c + "\n" + ([] + "\n" + []))) == [b, c, ""]
  {
    LineAndBlank(c);
    LineBefore(b, c + "\n" + ([] + "\n" + []), [c, ""]);
  }

  lemma LineAndBlank(c: string)
    requires forall k :: 0 <= k < |c| ==> !IsLineBreak(c[k])
    ensures SplitLines(c + "\n" + ([] + "\n" + [])) == [c, ""]
  {
    BlankLine();
    LineBefore(c, [] + "\n" + [], [""]);
  }

  /** A lone newline is one empty line. */
  lemma BlankLine()
    ensures SplitLines([] + "\n" + []) == [""]
  {
    var s: string := [] + "\n" + [];
    assert s == "\n";
    assert LineEnd(s) == 0;
    assert s[..0] == "";
    assert s[1..] == [];
  }

  /** A line without line breaks, a newline, then text with known lines. */
  lemma LineBefore(line: string, rest: string, lines: seq<string>)
    requires forall k :: 0 <= k < |line| ==> !IsLineBreak(line[k])
    requires SplitLines(rest) == lines
    ensures SplitLines(line + "\n" + rest) == [line] + lines
  {
    SplitLinesFirst(line, rest);
  }

  lemma RegroupLines<T>(a: seq<T>, b: seq<T>, c: seq<T>, n: seq<T>)
    ensures a + n + b + n + c + n + n == a + n + (b + n + (c + n + ([] + n + [])))
  {
  }

  /** The non-blank lines of the example requirements.txt of `RequirementsExample`. */
  lemma ExamplePinnedLine(file: string)
    ensures ParseRequirementLine("a==1.0", file) == Some(Requirement("a", "1.0", "==", file))
  {
    assert "a==1.0" == "a" + "==" + "1.0";
    PinnedRequirementRoundTrip("a", "1.0", file);
  }

  lemma ExampleMinimumLine(file: string)
    ensures ParseRequirementLine("b>=2.0", file) == Some(Requirement("b", "2.0", ">=", file))
  {
    assert "b>=2.0" == "b" + ">=" + "2.0";
    MinimumRequirementRoundTrip("b", "2.0", file);
  }

  lemma ExampleCommentLine(comment: string, file: string)
    requires comment == "# comment"
    ensures ParseRequirementLine(comment, file) == None
  {
    assert comment[0] == '#';
    StripKeepsFirst(comment);
  }

  /**
   * A requirements.txt with a pinned line, a minimum line, a comment and a blank
   * line gives exactly two records, in line order.
   */
  lemma RequirementsExample(file: string, pinned: string, minimum: string, comment: string)
    requires pinned == "a==1.0" && minimum == "b>=2.0" && comment == "# comment"
    ensures RequirementRecords(Some(pinned + "\n" + minimum + "\n" + comment + "\n" + "\n"), file)
      == [Requirement("a", "1.0", "==", file), Requirement("b", "2.0", ">=", file)]
  {
    ExampleLines(pinned, minimum, comment);
    ExamplePinnedLine(file);
    ExampleMinimumLine(file);
    ExampleCommentLine(comment, file);
    FilterMapFirstTwo([pinned, minimum, comment, ""], RequirementParser(file),
      Requirement("a", "1.0", "==", file), Requirement("b", "2.0", ">=", file));
  }

  /** How the two sections of package.json combine. */
  lemma PackageJsonSections(content: seq<(string, Json)>, file: string)
    ensures var first := SectionOutcome(content, "dependencies", file);
      PackageJsonRecords(Some(JObject(content)), file)
        == if first.1 then first.0 + SectionOutcome(content, "devDependencies", file).0 else first.0
  {
    assert DepTypes[..1] == ["dependencies"] && DepTypes[..1][..0] == [];
    assert DepTypes[..2][..1] == DepTypes[..1] && DepTypes[..2] == DepTypes;
    var first := SectionOutcome(content, "dependencies", file);
    assert SectionsRecords(content, DepTypes[..1], file) == ([] + first.0, first.1);
    assert [] + first.0 == first.0;
  }

  /** `{"dependencies": {"x": "^1.2.3"}}` gives one record, version `1.2.3` with the constraint `^`. */
  lemma PackageJsonExample(file: string)
    ensures PackageJsonRecords(Some(JObject([("dependencies", JObject([("x", JString("^1.2.3"))]))])), file)
      == [NpmPackage("x", "1.2.3", "^", "dependencies", file)]
  {
    var entries := [("x", JString("^1.2.3"))];
    var content := [("dependencies", JObject(entries))];
    assert StringRun(entries) == 1;
    assert StartsWith("^1.2.3", "^");
    assert "^1.2.3"[1..] == "1.2.3";
    assert SectionRecords(entries, "dependencies", file) == [NpmPackage("x", "1.2.3", "^", "dependencies", file)];
    assert Member(content, "devDependencies") == None;
    PackageJsonSections(content, file);
  }

  /** An object whose names are all different is iterated as written. */
  lemma {:induction false} ItemsOfDistinct(members: seq<(string, Json)>)
    requires forall i, j :: 0 <= i < j < |members| ==> members[i].0 != members[j].0
    ensures Items(members) == members
  {
    NamesOfDistinct(members);
    forall i | 0 <= i < |members|
      ensures Member(members, members[i].0) == Some(members[i].1)
    {
      var k :| LastNamed(members, members[i].0, k) && members[k].1 == Member(members, members[i].0).value;
    }
  }

  lemma {:induction false} NamesOfDistinct(members: seq<(string, Json)>)
    requires forall i, j :: 0 <= i < j < |members| ==> members[i].0 != members[j].0
    ensures |Names(members)| == |members| && forall i :: 0 <= i < |members| ==> Names(members)[i] == members[i].0
  {
    if members != [] {
      var n := |members| - 1;
      var init := members[..n];
      NamesOfDistinct(init);
      forall i | 0 <= i < n
        ensures Names(init)[i] != members[n].0
      {
        assert init[i] == members[i];
      }
    }
  }

  /** `{"dependencies": {"x": "^1", "x": "^2"}}` gives one record, with the later version. */
  lemma RepeatedNameExample(file: string)
    ensures PackageJsonRecords(Some(JObject([("dependencies", JObject([("x", JString("^1")), ("x", JString("^2"))]))])), file)
      == [NpmPackage("x", "2", "^", "dependencies", file)]
  {
    var members := [("x", JString("^1")), ("x", JString("^2"))];
    var content := [("dependencies", JObject(members))];
    assert members[..1][..0] == [];
    assert Names(members[..1]) == ["x"];
    assert Names(members) == ["x"];
    assert Items(members) == [("x", JString("^2"))];
    assert StringRun(Items(members)) == 1;
    assert StartsWith("^2", "^") && "^2"[1..] == "2";
    assert Member(content, "devDependencies") == None;
    PackageJsonSections(content, file);
  }

  /** `{"dependencies": {"a": 1, "a": "2"}}` gives the record of the later, string version. */
  lemma LaterValueDecidesExample(file: string)
    ensures PackageJsonRecords(Some(JObject([("dependencies", JObject([("a", JOther), ("a", JString("2"))]))])), file)
      == [NpmPackage("a", "2", "^", "dependencies", file)]
  {
    var members := [("a", JOther), ("a", JString("2"))];
    var content := [("dependencies", JObject(members))];
    assert members[..1][..0] == [];
    assert Names(members[..1]) == ["a"];
    assert Names(members) == ["a"];
    assert Items(members) == [("a", JString("2"))];
    assert StringRun(Items(members)) == 1;
    assert "2"[..1] == "2";
    assert !StartsWith("2", "^") && !StartsWith("2", "~");
    assert Member(content, "devDependencies") == None;
    PackageJsonSections(content, file);
  }

  /**
   * When the `dependencies` section is read through, the records are those of
   * `dependencies` followed by those of `devDependencies`.
   */
  lemma PackageJsonSectionOrder(content: seq<(string, Json)>, file: string)
    requires SectionOutcome(content, "dependencies", file).1
    ensures PackageJsonRecords(Some(JObject(content)), file)
      == SectionOutcome(content, "dependencies", file).0 + SectionOutcome(content, "devDependencies", file).0
  {
    PackageJsonSections(content, file);
  }

  /**
   * When the `dependencies` section stops the parse (it is not an object, or an
   * entry's version is not a string), `devDependencies` is not read and the
   * records read before the stop are kept.
   */
  lemma PackageJsonStopKeepsPrefix(content: seq<(string, Json)>, file: string)
    requires !SectionOutcome(content, "dependencies", file).1
    ensures PackageJsonRecords(Some(JObject(content)), file) == SectionOutcome(content, "dependencies", file).0
  {
    PackageJsonSections(content, file);
  }

  /** Every package.json record is an npm package of one of the sections read, from `file`. */
  lemma {:induction false} SectionsRecordsProvenance(content: seq<(string, Json)>, types: seq<string>, file: string, d: Dependency)
    requires d in SectionsRecords(content, types, file).0
    ensures d.NpmPackage? && d.file == file && d.depType in types
  {
    var n := |types| - 1;
    var prev := SectionsRecords(content, types[..n], file);
    if d in prev.0 {
      SectionsRecordsProvenance(content, types[..n], file, d);
    } else {
      var out := SectionOutcome(content, types[n], file);
      assert d in out.0;
      var entries := Items(Member(content, types[n]).value.members);
      var k :| 0 <= k < |out.0| && out.0[k] == d;
      assert d == NpmRecord(entries[k].0, entries[k].1.text, types[n], file);
    }
  }

  /** Every record of a dependency file names that file; Maven records are named `groupId:artifactId`. */
  lemma FileRecordsProvenance(pt: ProjectType, path: string, files: map<string, FileView>, d: Dependency)
    requires d in FileRecords(pt, path, files)
    ensures d.file == path && WellFormed(d)
  {
    var view := if path in files then Some(files[path]) else None;
    match pt
    case Python => RequirementRecordsProvenance(if view.Some? then Some(view.value.text) else None, path, d);
    case NodeJs => PackageJsonRecordsProvenance(if view.Some? then view.value.json else None, path, d);
    case Maven => PomRecordsProvenance(if view.Some? then Some(view.value.pomMatches) else None, path, d);
  }

  lemma RequirementRecordsProvenance(text: Option<string>, path: string, d: Dependency)
    requires d in RequirementRecords(text, path)
    ensures d.file == path && WellFormed(d)
  {
    var i := FilterMapMember(SplitLines(text.value), RequirementParser(path), d);
  }

  lemma PackageJsonRecordsProvenance(doc: Option<Json>, path: string, d: Dependency)
    requires d in PackageJsonRecords(doc, path)
    ensures d.file == path && WellFormed(d)
  {
    SectionsRecordsProvenance(doc.value.members, DepTypes, path, d);
  }

  lemma PomRecordsProvenance(matches: Option<seq<PomMatch>>, path: string, d: Dependency)
    requires d in PomRecords(matches, path)
    ensures d.file == path && WellFormed(d)
  {
    var k :| 0 <= k < |matches.value| && PomRecords(matches, path)[k] == d;
  }

  /** Every parsed record comes from one of the dependency files and names it. */
  lemma DependencyProvenance(pt: ProjectType, paths: seq<string>, files: map<string, FileView>, d: Dependency)
    requires d in DependencyRecords(pt, paths, files)
    ensures d.file in paths && WellFormed(d)
  {
    var i := ConcatMapMember(paths, FileParser(pt, files), d);
    FileRecordsProvenance(pt, paths[i], files, d);
  }

  /** The globs find files with the names they look for. */
  ghost predicate NamedMarkers(m: Markers) {
    (forall i :: 0 <= i < |m.requirementsTxt| ==> Name(m.requirementsTxt[i]) == "requirements.txt") &&
    (forall i :: 0 <= i < |m.setupPy| ==> Name(m.setupPy[i]) == "setup.py") &&
    (forall i :: 0 <= i < |m.pyprojectToml| ==> Name(m.pyprojectToml[i]) == "pyproject.toml")
  }

  /** Of a Python project's marker files, only the requirements.txt files contribute records. */
  lemma PythonParsesOnlyRequirements(m: Markers, files: map<string, FileView>)
    requires NamedMarkers(m)
    ensures DependencyRecords(Python, MarkerFiles(m, Python), files) == DependencyRecords(Python, m.requirementsTxt, files)
  {
    var f := FileParser(Python, files);
    assert MarkerFiles(m, Python) == m.requirementsTxt + m.setupPy + m.pyprojectToml;
    ConcatMapAppend(m.requirementsTxt + m.setupPy, m.pyprojectToml, f);
    ConcatMapAppend(m.requirementsTxt, m.setupPy, f);
    NotRequirementsGiveNothing(m.setupPy, "setup.py", files);
    NotRequirementsGiveNothing(m.pyprojectToml, "pyproject.toml", files);
  }

  /** Python files of any other name than requirements.txt give no records. */
  lemma NotRequirementsGiveNothing(paths: seq<string>, name: string, files: map<string, FileView>)
    requires name == "setup.py" || name == "pyproject.toml"
    requires forall i :: 0 <= i < |paths| ==> Name(paths[i]) == name
    ensures ConcatMap(paths, FileParser(Python, files)) == []
  {
    assert name != "requirements.txt" by { assert |name| != |"requirements.txt"|; }
    ConcatMapEmpty(paths, FileParser(Python, files));
  }

  /** Gradle and .NET projects are detected, but give no records and no candidates. */
  lemma GradleAndDotNetYieldNothing(pt: ProjectType, paths: seq<string>, files: map<string, FileView>,
                                    deps: seq<Dependency>, reg: Registry)
    requires pt == Gradle || pt == DotNet
    ensures DependencyRecords(pt, paths, files) == []
    ensures Candidates(pt, deps, reg) == []
  {
    ConcatMapEmpty(paths, FileParser(pt, files));
    FilterMapNone(deps, Checker(pt, reg));
  }

  /**
   * Where each candidate comes from: the k-th candidate is the check of the
   * dependency at `idx[k]`, positions increase (dependency order, at most one
   * candidate per dependency), and it keeps that dependency's version and file
   * next to a different latest version.
   */
  lemma CandidateOrigins(pt: ProjectType, deps: seq<Dependency>, reg: Registry) returns (idx: seq<nat>)
    ensures |idx| == |Candidates(pt, deps, reg)|
    ensures forall k, l :: 0 <= k < l < |idx| ==> idx[k] < idx[l]
    ensures forall k :: 0 <= k < |idx| ==>
      (idx[k] < |deps| &&
       var c, d := Candidates(pt, deps, reg)[k], deps[idx[k]];
       c.currentVersion == d.version && c.file == d.file && c.latestVersion != d.version &&
       LatestVersion(pt, d, reg) == Some(c.latestVersion))
    ensures forall i :: 0 <= i < |deps| && CheckUpgrade(pt, deps[i], reg).Some? ==> i in idx
  {
    idx := FilterMapOrigins(deps, Checker(pt, reg));
    forall i | 0 <= i < |deps| && CheckUpgrade(pt, deps[i], reg).Some?
      ensures i in idx
    {
      PositionsComplete(deps, Checker(pt, reg), i);
    }
  }

  /**
   * A dependency whose check fails, or whose latest version equals its own, is
   * left out without changing the candidates of the others.
   */
  lemma SkippedDependencyLeavesOthers(pt: ProjectType, before: seq<Dependency>, dep: Dependency,
                                      after: seq<Dependency>, reg: Registry)
    requires LatestVersion(pt, dep, reg).None? || LatestVersion(pt, dep, reg) == Some(dep.version)
    ensures Candidates(pt, before + [dep] + after, reg) == Candidates(pt, before, reg) + Candidates(pt, after, reg)
  {
    var f := Checker(pt, reg);
    assert f(dep).None?;
    FilterMapSkip(before, dep, after, f);
  }

  /**
   * The latest version pip reports is the first entry of the first
   * "Available versions: " line.
   */
  lemma PipLatestOfListing(pre: string, latest: string, older: string, rest: string)
    requires !Contains(pre, AvailableVersions)
    requires ',' !in latest && '\n' !in latest && '\n' !in older
    ensures PipLatest(pre + AvailableVersions + latest + ", " + older + "\n" + rest) == Some(latest)
  {
    var listing := latest + ", " + older;
    var tail := listing + "\n" + rest;
    var out := pre + AvailableVersions + tail;
    assert out == pre + AvailableVersions + latest + ", " + older + "\n" + rest;
    FindAfterAbsent(pre, AvailableVersions, tail);
    assert out[|pre| + |AvailableVersions|..] == tail;
    assert '\n' !in listing;
    FindAfterFreeChar(listing, "\n", rest);
    SplitAtFind(listing, "\n", rest);
    FindAfterFreeChar(latest, ", ", older);
    SplitAtFind(latest, ", ", older);
  }

  /** A path under the project directory is the directory, a slash and its relative path. */
  lemma RelativeToRoundTrip(root: string, path: string)
    requires StartsWith(path, root + "/")
    ensures root + "/" + RelativeTo(root, path) == path
  {
    assert path[..|root| + 1] == root + "/";
  }

  /** Every dependency's file is `root` joined with one of the reported relative paths. */
  ghost predicate FilesTraced(root: string, relative: seq<string>, deps: seq<Dependency>) {
    forall d :: d in deps ==> exists i :: 0 <= i < |relative| && d.file == root + "/" + relative[i]
  }

  /** Every candidate carries the file and current version of one of the dependencies. */
  ghost predicate CandidatesTraced(cs: seq<Candidate>, deps: seq<Dependency>) {
    forall k :: 0 <= k < |cs| ==>
      exists d :: (d in deps && d.file == cs[k].file && d.version == cs[k].currentVersion)
  }

  /** Each parsed dependency comes from one of the listed files, named relative to `root`. */
  lemma RecordsFromListedFiles(root: string, pt: ProjectType, paths: seq<string>, files: map<string, FileView>)
    requires UnderRoot(root, paths)
    ensures FilesTraced(root, FilterMap(paths, Relativizer(root)), DependencyRecords(pt, paths, files))
  {
    var rel := FilterMap(paths, Relativizer(root));
    FilterMapTotal(paths, Relativizer(root));
    forall d | d in DependencyRecords(pt, paths, files)
      ensures exists i :: 0 <= i < |rel| && d.file == root + "/" + rel[i]
    {
      var i := ConcatMapMember(paths, FileParser(pt, files), d);
      FileRecordsProvenance(pt, paths[i], files, d);
      RelativeToRoundTrip(root, paths[i]);
      assert rel[i] == RelativeTo(root, paths[i]);
    }
  }

  /** Each upgrade candidate carries the file and current version of one of the dependencies. */
  lemma CandidatesFromRecords(pt: ProjectType, deps: seq<Dependency>, reg: Registry)
    ensures CandidatesTraced(Candidates(pt, deps, reg), deps)
  {
    var cs := Candidates(pt, deps, reg);
    var idx := CandidateOrigins(pt, deps, reg);
    forall k | 0 <= k < |cs|
      ensures exists d :: (d in deps && d.file == cs[k].file && d.version == cs[k].currentVersion)
    {
      assert deps[idx[k]] in deps;
    }
  }

  /**
   * The report keeps each dependency's provenance: its file is the project
   * directory joined with one of the reported dependency files, and every
   * candidate's file and current version are those of a reported dependency.
   */
  lemma ScanProvenance(rootExists: bool, root: string, m: Markers, files: map<string, FileView>, reg: Registry)
    requires forall t :: UnderRoot(root, MarkerFiles(m, t))
    ensures var r := Scan(rootExists, root, m, files, reg);
      r.ScanReport? ==>
        FilesTraced(root, r.dependencyFiles, r.dependencies) &&
        CandidatesTraced(r.upgradeCandidates, r.dependencies)
  {
    var r := Scan(rootExists, root, m, files, reg);
    if r.ScanReport? {
      var det := DetectProjectType(m).value;
      var pt, paths := det.projectType, det.files;
      var deps := DependencyRecords(pt, paths, files);
      assert r == ScanReport(TypeName(pt), FilterMap(paths, Relativizer(root)), deps, Candidates(pt, deps, reg));
      assert UnderRoot(root, MarkerFiles(m, pt));
      RecordsFromListedFiles(root, pt, paths, files);
      CandidatesFromRecords(pt, deps, reg);
    }
  }
}

=== FILE: git_operations.dfy ===
/**
 * The git tool: branch creation, committing, pushing and pull-request creation
 * on a local clone, with the GitHub owner/repository parsed from the `origin`
 * remote URL.
 *
 * Git itself is an oracle: it answers each command given the commands this
 * call issued before it. The HTTP request to the GitHub API is an oracle too.
 * Each operation returns the result dictionary it builds together with the
 * commands and the request it issued, so that "nothing is run" can be stated.
 */
module GitOperations {
  import opened Base
  import opened Strings
  import opened Seqs

  /** An optional string argument. Python's `not x` holds for `None` and for `""`. */
  predicate Truthy(o: Option<string>) {
    o.Some? && o.value != ""
  }

  /** A git command line, such as `["checkout", "-b", "feature"]`. */
  type Command = seq<string>

  /** What git answers: its output, or the text of the `GitCommandError` it raised. */
  datatype GitAnswer = Output(text: string) | CommandError(message: string)

  /** Git's answer to a command, given the commands issued before it in the same call. */
  type Git = (seq<Command>, Command) -> GitAnswer

  /** The clone the tool opened. */
  datatype Repo = Repo(
    refs: seq<string>,          // full names of `repo.refs`, such as "origin/main"
    activeBranch: string,       // name of the checked-out branch
    originUrl: string,          // URL of the `origin` remote
    present: string -> bool,     // whether `repo_path / file` exists
    git: Git)

  /** The GitHub API request for a new pull request. */
  datatype Request = Request(
    url: string,
    authorization: string,
    accept: string,
    title: string,
    body: Option<string>,
    head: string,
    base: Option<string>)

  /** The decoded JSON of a response: the two fields read from it, when present. */
  datatype Json = NotJson(message: string) | PullFields(htmlUrl: Option<string>, number: Option<int>)

  /** What `requests.post` gives: a response, or the text of the exception it raised. */
  datatype Response = Posted(statusCode: int, text: string, json: Json) | PostRaised(message: string)

  /** The result dictionaries the tool returns. */
  datatype Reply =
    | ErrorReply(error: string)                             // {"error": ...}
    | Done(success: bool, message: string)                  // {"success": ..., "message": ...}
    | Failed(error: string)                                 // {"success": False, "error": ...}
    | PullRequest(message: string, prUrl: string, prNumber: int)  // {"success": True, "message", "pr_url", "pr_number"}

  /** A reply together with the git commands and the HTTP request that produced it. */
  datatype Outcome = Outcome(reply: Reply, commands: seq<Command>, request: Option<Request>)

  /** The tool: where the clone lives, the clone when `git.Repo` could open it, and `GITHUB_TOKEN`. */
  datatype Tool = Tool(repoPath: string, repo: Option<Repo>, token: Option<string>)

  /** The keyword arguments of `_run`; `base_branch` defaults to "main". */
  datatype Args = Args(
    branchName: Option<string>,
    commitMessage: Option<string>,
    prTitle: Option<string>,
    prDescription: Option<string>,
    files: Option<seq<string>>,
    baseBranch: Option<string>)

  // ---------------------------------------------------------------------------
  // Running git commands
  // ---------------------------------------------------------------------------

  /**
   * Runs `cmds` in order, stopping at the first `GitCommandError`: the error, if
   * any, and the commands actually issued.
   */
  function RunAll(git: Git, cmds: seq<Command>): (r: (Option<string>, seq<Command>))
    ensures |r.1| <= |cmds| && r.1 == cmds[..|r.1|]
    ensures r.0.None? ==> r.1 == cmds
    ensures r.0.Some? ==> r.1 != [] && git(r.1[..|r.1| - 1], r.1[|r.1| - 1]) == CommandError(r.0.value)
  {
    if cmds == [] then (None, [])
    else
      var n := |cmds| - 1;
      var (err, issued) := RunAll(git, cmds[..n]);
      if err.Some? then
        assert issued == cmds[..|issued|] by { assert cmds[..n][..|issued|] == cmds[..|issued|]; }
        (err, issued)
      else
        match git(issued, cmds[n])
        case Output(_) => (None, issued + [cmds[n]])
        case CommandError(m) => (Some(m), issued + [cmds[n]])
  }

  /** Commands after a failure are never issued. */
  lemma {:induction false} RunAllStops(git: Git, a: seq<Command>, b: seq<Command>)
    requires RunAll(git, a).0.Some?
    ensures RunAll(git, a + b) == RunAll(git, a)
    decreases |b|
  {
    if b == [] {
      assert a + b == a;
    } else {
      var b' := b[..|b| - 1];
      assert (a + b)[..|a + b| - 1] == a + b';
      RunAllStops(git, a, b');
    }
  }

  /** Running one more command after a run that did not fail. */
  lemma RunAllSnoc(git: Git, a: seq<Command>, c: Command)
    requires RunAll(git, a).0.None?
    ensures RunAll(git, a + [c]) ==
      match git(a, c)
      case Output(_) => (None, a + [c])
      case CommandError(m) => (Some(m), a + [c])
  {
    assert (a + [c])[..|a|] == a;
  }

  // ---------------------------------------------------------------------------
  // _create_branch
  // ---------------------------------------------------------------------------

  /** The names the existence check compares with: the last `/`-segment of each ref. */
  function BranchNames(refs: seq<string>): (r: seq<string>)
    ensures |r| == |refs|
    ensures forall i :: 0 <= i < |r| ==> r[i] == AfterLast(refs[i], '/')
  {
    seq(|refs|, i requires 0 <= i < |refs| => AfterLast(refs[i], '/'))
  }

  /** A branch exists iff some ref is named `b` or ends with `"/" + b`. */
  lemma BranchExistsIff(refs: seq<string>, b: string)
    requires '/' !in b
    ensures b in BranchNames(refs) <==> exists i :: 0 <= i < |refs| && (refs[i] == b || EndsWith(refs[i], "/" + b))
  {
    forall i | 0 <= i < |refs|
      ensures AfterLast(refs[i], '/') == b <==> refs[i] == b || EndsWith(refs[i], "/" + b)
    {
      AfterLastIs(refs[i], b, '/');
    }
  }

  /** A branch name with a `/` in it is never found among the existing branches. */
  lemma SlashedBranchNeverExists(refs: seq<string>, b: string)
    requires '/' in b
    ensures b !in BranchNames(refs)
  {
  }

  function CreateBranch(repo: Repo, branch: Option<string>): (r: Outcome)
    ensures !Truthy(branch) <==> r.reply == ErrorReply("Branch name is required")
    ensures !Truthy(branch) ==> r.commands == []
    ensures Truthy(branch) ==> (|r.commands| == 1 &&
      r.commands[0] == (if branch.value in BranchNames(repo.refs) then ["checkout", branch.value] else ["checkout", "-b", branch.value]))
    ensures r.request.None?
  {
    if !Truthy(branch) then Outcome(ErrorReply("Branch name is required"), [], None)
    else
      var b := branch.value;
      var existing := b in BranchNames(repo.refs);
      var cmd := if existing then ["checkout", b] else ["checkout", "-b", b];
      var message := if existing then "Switched to existing branch: " + b else "Created and switched to new branch: " + b;
      match repo.git([], cmd)
      case Output(_) => Outcome(Done(true, message), [cmd], None)
      case CommandError(m) => Outcome(Failed(m), [cmd], None)
  }

  /** An existing branch is checked out without `-b`; a new one is created with it, and the message says which. */
  lemma CreateBranchMessages(repo: Repo, b: string)
    requires b != "" && repo.git([], if b in BranchNames(repo.refs) then ["checkout", b] else ["checkout", "-b", b]).Output?
    ensures var r := CreateBranch(repo, Some(b)).reply;
      r == Done(true, if b in BranchNames(repo.refs) then "Switched to existing branch: " + b
                      else "Created and switched to new branch: " + b)
  {
  }

  // ---------------------------------------------------------------------------
  // _commit_changes
  // ---------------------------------------------------------------------------

  /** The `git add` for one listed file, when the file exists. */
  function Adder(present: string -> bool): (f: string -> Option<Command>)
    ensures forall file :: f(file) == (if present(file) then Some(["add", file]) else None)
  {
    file => if present(file) then Some(["add", file]) else None
  }

  /** The `git add` commands: one per existing listed file, or `git add .` when no files are listed. */
  function AddCommands(files: Option<seq<string>>, present: string -> bool): (r: seq<Command>)
    ensures files.None? || files.value == [] ==> r == [["add", "."]]
  {
    if files.Some? && files.value != [] then FilterMap(files.value, Adder(present)) else [["add", "."]]
  }

  /** Exactly the listed files that exist are added, each once per listing, in listed order. */
  lemma AddCommandsAreExistingFiles(files: seq<string>, present: string -> bool)
    requires files != []
    ensures forall c :: c in AddCommands(Some(files), present) <==> exists i :: 0 <= i < |files| && present(files[i]) && c == ["add", files[i]]
  {
    var f := Adder(present);
    forall c | c in AddCommands(Some(files), present)
      ensures exists i :: 0 <= i < |files| && present(files[i]) && c == ["add", files[i]]
    {
      var i := FilterMapMember(files, f, c);
    }
    forall i | 0 <= i < |files| && present(files[i])
      ensures ["add", files[i]] in AddCommands(Some(files), present)
    {
      FilterMapComplete(files, f, i);
    }
  }

  const StagedDiff: Command := ["diff", "--staged"]

  function CommitCommand(message: string): Command {
    ["commit", "-m", message]
  }

  /**
   * `_commit_changes`: stage, check the staged diff, commit. A `GitCommandError`
   * anywhere ends the call with its text.
   */
  function Commit(repo: Repo, message: Option<string>, files: Option<seq<string>>): (r: Outcome)
    ensures r.request.None?
    ensures Truthy(message) ==>
      var (err, staged) := RunAll(repo.git, AddCommands(files, repo.present));
      var diffed, cmd := staged + [StagedDiff], CommitCommand(message.value);
      && (err.Some? ==> r.reply == Failed(err.value) && r.commands == staged)
      && (err.None? && repo.git(staged, StagedDiff).CommandError? ==>
           r.reply == Failed(repo.git(staged, StagedDiff).message) && r.commands == diffed)
      && (err.None? && repo.git(staged, StagedDiff).Output? && repo.git(staged, StagedDiff).text != "" ==>
           && r.commands == diffed + [cmd]
           && (repo.git(diffed, cmd).Output? ==> r.reply == Done(true, "Changes committed with message: " + message.value))
           && (repo.git(diffed, cmd).CommandError? ==> r.reply == Failed(repo.git(diffed, cmd).message)))
  {
    if !Truthy(message) then Outcome(ErrorReply("Commit message is required"), [], None)
    else
      var (err, staged) := RunAll(repo.git, AddCommands(files, repo.present));
      if err.Some? then Outcome(Failed(err.value), staged, None)
      else
        var diffed := staged + [StagedDiff];
        match repo.git(staged, StagedDiff)
        case CommandError(m) => Outcome(Failed(m), diffed, None)
        case Output(diff) =>
          if diff == "" then Outcome(Done(false, "No changes to commit"), diffed, None)
          else
            var cmd := CommitCommand(message.value);
            match repo.git(diffed, cmd)
            case CommandError(m) => Outcome(Failed(m), diffed + [cmd], None)
            case Output(_) => Outcome(Done(true, "Changes committed with message: " + message.value), diffed + [cmd], None)
  }

  /** An empty commit message is refused before git is asked anything. */
  lemma CommitNeedsMessage(repo: Repo, message: Option<string>, files: Option<seq<string>>)
    ensures !Truthy(message) <==> Commit(repo, message, files).reply == ErrorReply("Commit message is required")
    ensures !Truthy(message) ==> Commit(repo, message, files).commands == []
  {
  }

  /** Nothing is committed unless the staged diff is non-empty; an empty one is reported as no changes. */
  lemma CommitOnlyWithStagedChanges(repo: Repo, message: Option<string>, files: Option<seq<string>>)
    requires Truthy(message)
    ensures var r := Commit(repo, message, files);
      var (err, staged) := RunAll(repo.git, AddCommands(files, repo.present));
      (CommitCommand(message.value) in r.commands ==> err.None? && repo.git(staged, StagedDiff) != Output("")) &&
      (err.None? && repo.git(staged, StagedDiff) == Output("") ==>
        r.reply == Done(false, "No changes to commit") && r.commands == staged + [StagedDiff])
  {
    var r := Commit(repo, message, files);
    var (err, staged) := RunAll(repo.git, AddCommands(files, repo.present));
    var cmd := CommitCommand(message.value);
    if err.Some? {
      assert r.commands == staged;
      if cmd in staged {
        var k :| 0 <= k < |staged| && staged[k] == cmd;
        assert staged[k] in AddCommands(files, repo.present);
        AddCommandsAreAdds(files, repo.present);
      }
    } else if repo.git(staged, StagedDiff).Output? && repo.git(staged, StagedDiff).text == "" {
      assert r.commands == staged + [StagedDiff];
      if cmd in r.commands {
        var k :| 0 <= k < |r.commands| && r.commands[k] == cmd;
        if k < |staged| {
          assert staged[k] in AddCommands(files, repo.present);
          AddCommandsAreAdds(files, repo.present);
        }
      }
    }
  }

  /** Every staging command is a `git add`. */
  lemma AddCommandsAreAdds(files: Option<seq<string>>, present: string -> bool)
    ensures forall c :: c in AddCommands(files, present) ==> |c| == 2 && c[0] == "add"
  {
    if files.Some? && files.value != [] {
      AddCommandsAreExistingFiles(files.value, present);
    }
  }

  /** One more listed file adds its command when it exists, and nothing otherwise. */
  lemma AdderStep(list: seq<string>, i: nat, present: string -> bool)
    requires i < |list|
    ensures FilterMap(list[..i + 1], Adder(present)) ==
      FilterMap(list[..i], Adder(present)) + (if present(list[i]) then [["add", list[i]]] else [])
  {
    assert list[..i + 1][..i] == list[..i];
  }

  /** After a failed `git add` no later listed file is added. */
  lemma StopsAfterFailedAdd(git: Git, list: seq<string>, i: nat, f: string -> Option<Command>)
    requires i <= |list| && RunAll(git, FilterMap(list[..i], f)).0.Some?
    ensures RunAll(git, FilterMap(list, f)) == RunAll(git, FilterMap(list[..i], f))
  {
    FilterMapSplit(list, i, f);
    RunAllStops(git, FilterMap(list[..i], f), FilterMap(list[i..], f));
  }

  /**
   * The staging loop of `_commit_changes`: each listed file that exists is added
   * in turn, a missing one is only logged, and the first git error ends the loop.
   */
  method Stage(repo: Repo, files: Option<seq<string>>) returns (err: Option<string>, issued: seq<Command>)
    ensures (err, issued) == RunAll(repo.git, AddCommands(files, repo.present))
  {
    if files.None? || files.value == [] {
      var cmd: Command := ["add", "."];
      issued := [cmd];
      assert [cmd][..0] == [];
      match repo.git([], cmd) {
        case Output(_) => err := None;
        case CommandError(m) => err := Some(m);
      }
      return;
    }
    var list := files.value;
    err, issued := None, [];
    for i := 0 to |list|
      invariant (err, issued) == RunAll(repo.git, FilterMap(list[..i], Adder(repo.present)))
      invariant err.None?
    {
      AdderStep(list, i, repo.present);
      if repo.present(list[i]) {
        var cmd: Command := ["add", list[i]];
        RunAllSnoc(repo.git, issued, cmd);
        match repo.git(issued, cmd)
        case Output(_) => {
          issued := issued + [cmd];
        }
        case CommandError(m) => {
          err, issued := Some(m), issued + [cmd];
          StopsAfterFailedAdd(repo.git, list, i + 1, Adder(repo.present));
          return;
        }
      } else {
        assert FilterMap(list[..i + 1], Adder(repo.present)) == FilterMap(list[..i], Adder(repo.present));
      }
    }
    assert list[..|list|] == list;
  }

  /** `_commit_changes`, running the staging loop. */
  method CommitChanges(repo: Repo, message: Option<string>, files: Option<seq<string>>) returns (r: Outcome)
    ensures r == Commit(repo, message, files)
  {
    if !Truthy(message) {
      return Outcome(ErrorReply("Commit message is required"), [], None);
    }
    var err, staged := Stage(repo, files);
    if err.Some? {
      return Outcome(Failed(err.value), staged, None);
    }
    var diffed := staged + [StagedDiff];
    match repo.git(staged, StagedDiff)
    case CommandError(m) => r := Outcome(Failed(m), diffed, None);
    case Output(diff) =>
      if diff == "" {
        r := Outcome(Done(false, "No changes to commit"), diffed, None);
      } else {
        var cmd := CommitCommand(message.value);
        match repo.git(diffed, cmd)
        case CommandError(m) => r := Outcome(Failed(m), diffed + [cmd], None);
        case Output(_) => r := Outcome(Done(true, "Changes committed with message: " + message.value), diffed + [cmd], None);
      }
  }

  // ---------------------------------------------------------------------------
  // _push_changes
  // ---------------------------------------------------------------------------

  function PushCommand(branch: Option<string>): (c: Command)
    ensures Truthy(branch) ==> c == ["push", "--set-upstream", "origin", branch.value]
    ensures !Truthy(branch) ==> c == ["push"]
  {
    if Truthy(branch) then ["push", "--set-upstream", "origin", branch.value] else ["push"]
  }

  /** `_push_changes`: one push; the message names the active branch, whichever branch was pushed. */
  function Push(repo: Repo, branch: Option<string>): (r: Outcome)
    ensures r.commands == [PushCommand(branch)] && r.request.None?
    ensures r.reply.Done? <==> repo.git([], PushCommand(branch)).Output?
    ensures r.reply.Done? ==> r.reply == Done(true, "Changes pushed to " + repo.activeBranch)
    ensures r.reply.Failed? ==> repo.git([], PushCommand(branch)) == CommandError(r.reply.error)
  {
    var cmd := PushCommand(branch);
    match repo.git([], cmd)
    case Output(_) => Outcome(Done(true, "Changes pushed to " + repo.activeBranch), [cmd], None)
    case CommandError(m) => Outcome(Failed(m), [cmd], None)
  }

  // ---------------------------------------------------------------------------
  // _extract_repo_info
  // ---------------------------------------------------------------------------

  datatype RepoInfo = RepoInfo(owner: string, repo: string)

  const HttpsPrefix := "https://github.com/"
  const SshPrefix := "git@github.com:"
  const GitSuffix := ".git"

  /** owner = parts[0], repo = parts[1] when there are at least two parts. */
  function InfoOf(parts: seq<string>): (r: Option<RepoInfo>)
    ensures r.Some? <==> |parts| >= 2
    ensures r.Some? ==> r.value == RepoInfo(parts[0], parts[1])
  {
    if |parts| >= 2 then Some(RepoInfo(parts[0], parts[1])) else None
  }

  /**
   * `_extract_repo_info` as written: after the prefix test, every occurrence of
   * the prefix and every occurrence of ".git" anywhere in the URL is removed.
   */
  function ExtractRepoInfoAsWritten(url: string): (r: Option<RepoInfo>)
    ensures !StartsWith(url, HttpsPrefix) && !StartsWith(url, SshPrefix) ==> r.None?
    ensures r.Some? ==> '/' !in r.value.owner && '/' !in r.value.repo
  {
    if StartsWith(url, HttpsPrefix) then
      InfoOf(SplitChar(RemoveAll(RemoveAll(url, HttpsPrefix), GitSuffix), '/'))
    else if StartsWith(url, SshPrefix) then
      InfoOf(SplitChar(RemoveAll(RemoveAll(url, SshPrefix), GitSuffix), '/'))
    else None
  }

  /** The path of a GitHub remote with one trailing ".git" removed. */
  function TrimGit(path: string): (r: string)
    ensures EndsWith(path, GitSuffix) ==> r + GitSuffix == path
    ensures !EndsWith(path, GitSuffix) ==> r == path
  {
    if EndsWith(path, GitSuffix) then path[..|path| - |GitSuffix|] else path
  }

  /**
   * `_extract_repo_info` as intended: the leading prefix and a trailing ".git"
   * are removed, and the rest is split on `/`.
   */
  function ExtractRepoInfo(url: string): (r: Option<RepoInfo>)
    ensures !StartsWith(url, HttpsPrefix) && !StartsWith(url, SshPrefix) ==> r.None?
    ensures r.Some? ==> '/' !in r.value.owner && '/' !in r.value.repo
  {
    if StartsWith(url, HttpsPrefix) then
      InfoOf(SplitChar(TrimGit(url[|HttpsPrefix|..]), '/'))
    else if StartsWith(url, SshPrefix) then
      InfoOf(SplitChar(TrimGit(url[|SshPrefix|..]), '/'))
    else None
  }

  /** Either GitHub prefix, followed by a path. */
  predicate GitHubPrefix(prefix: string) {
    prefix == HttpsPrefix || prefix == SshPrefix
  }

  lemma PrefixOf(prefix: string, rest: string)
    requires GitHubPrefix(prefix)
    ensures prefix == HttpsPrefix ==> StartsWith(prefix + rest, HttpsPrefix)
    ensures prefix == SshPrefix ==> StartsWith(prefix + rest, SshPrefix) && !StartsWith(prefix + rest, HttpsPrefix)
    ensures (prefix + rest)[|prefix|..] == rest
  {
    assert (prefix + rest)[..|prefix|] == prefix;
    if prefix == SshPrefix {
      assert (prefix + rest)[0] == 'g';
    }
  }

  /** A trailing ".git" cannot reach back across a `/`. */
  lemma TrimGitAfterSlash(a: string, m: string)
    requires m != [] && m[0] == '/'
    ensures TrimGit(a + m) == a + TrimGit(m)
  {
    var s := a + m;
    if |m| >= 4 {
      assert s[|s| - 4..] == m[|m| - 4..];
      if EndsWith(m, GitSuffix) {
        assert s[..|s| - 4] == a + m[..|m| - 4];
      }
    } else if |s| >= 4 {
      assert s[|s| - 4..][4 - |m|] == '/';
    }
  }

  /** A path of owner and repository, where the repository does not end in ".git", is not trimmed. */
  lemma TrimGitKeeps(owner: string, repo: string)
    requires !EndsWith(repo, GitSuffix)
    ensures TrimGit(owner + "/" + repo) == owner + "/" + repo
  {
    var s := owner + "/" + repo;
    if |repo| >= 4 {
      assert s[|s| - 4..] == repo[|repo| - 4..];
    } else if |s| >= 4 {
      assert s[|s| - 4..][3 - |repo|] == '/';
    }
  }

  /** Splitting `owner/repo` followed by nothing or by further segments gives owner and repo first. */
  lemma PartsOf(owner: string, repo: string, tail: string)
    requires '/' !in owner && '/' !in repo && (tail == [] || tail[0] == '/')
    ensures InfoOf(SplitChar(owner + "/" + repo + tail, '/')) == Some(RepoInfo(owner, repo))
  {
    var rest := repo + tail;
    AppendAssoc(owner + "/", repo, tail);
    assert owner + "/" + repo + tail == owner + ['/'] + rest;
    SplitCharFirst(owner, rest, '/');
    RepoFirst(repo, tail);
  }

  /** The first segment of `repo` followed by nothing or by further segments is `repo`. */
  lemma RepoFirst(repo: string, tail: string)
    requires '/' !in repo && (tail == [] || tail[0] == '/')
    ensures SplitChar(repo + tail, '/')[0] == repo
  {
    if tail == [] {
      assert repo + tail == repo;
    } else {
      assert tail == ['/'] + tail[1..];
      AppendAssoc(repo, ['/'], tail[1..]);
      SplitCharFirst(repo, tail[1..], '/');
    }
  }

  /** Trimming keeps owner and repository and leaves nothing or further segments after them. */
  lemma TrimmedPath(owner: string, repo: string, more: string) returns (tail: string)
    requires more == "" || more == GitSuffix || (more != [] && more[0] == '/')
    requires more == "" ==> !EndsWith(repo, GitSuffix)
    ensures TrimGit(owner + "/" + repo + more) == owner + "/" + repo + tail
    ensures tail == [] || tail[0] == '/'
  {
    if more == "" {
      assert owner + "/" + repo + more == owner + "/" + repo;
      TrimGitKeeps(owner, repo);
      tail := [];
    } else if more == GitSuffix {
      var s := owner + "/" + repo + more;
      assert s[|s| - 4..] == GitSuffix;
      assert s[..|s| - 4] == owner + "/" + repo;
      tail := [];
    } else {
      TrimGitAfterSlash(owner + "/" + repo, more);
      tail := TrimGit(more);
      assert tail[0] == more[0];
    }
  }

  /** Owner and repository, with or without ".git" and with any further segments, are read back. */
  lemma ExtractRepoInfoRoundTrip(prefix: string, owner: string, repo: string, more: string)
    requires GitHubPrefix(prefix) && '/' !in owner && '/' !in repo
    requires more == "" || more == GitSuffix || (more != [] && more[0] == '/')
    requires more == "" ==> !EndsWith(repo, GitSuffix)
    ensures ExtractRepoInfo(prefix + owner + "/" + repo + more) == Some(RepoInfo(owner, repo))
  {
    var rest := owner + "/" + repo + more;
    assert prefix + owner + "/" + repo + more == prefix + rest;
    PrefixOf(prefix, rest);
    var tail := TrimmedPath(owner, repo, more);
    PartsOf(owner, repo, tail);
  }

  /** The prefix does not recur after itself: it has a `:` and the rest has none. */
  lemma PrefixRemoved(prefix: string, rest: string)
    requires GitHubPrefix(prefix) && ':' !in rest
    ensures RemoveAll(prefix + rest, prefix) == rest
  {
    assert prefix[if prefix == HttpsPrefix then 5 else 14] == ':';
    AbsentChar(rest, prefix, if prefix == HttpsPrefix then 5 else 14);
    RemoveAllPrefix(prefix, rest);
    RemoveAllAbsent(rest, prefix);
  }

  /** As written, a GitHub URL with no `:` after its prefix is read from its path with every ".git" removed. */
  lemma AsWrittenReadsPath(prefix: string, path: string)
    requires GitHubPrefix(prefix) && ':' !in path
    ensures ExtractRepoInfoAsWritten(prefix + path) == InfoOf(SplitChar(RemoveAll(path, GitSuffix), '/'))
  {
    PrefixOf(prefix, path);
    PrefixRemoved(prefix, path);
  }

  /** ".git" occurs in `owner/repo` only if it occurs in one of the two. */
  lemma NoGitInPath(owner: string, repo: string)
    requires !Contains(owner, GitSuffix) && !Contains(repo, GitSuffix)
    ensures !Contains(owner + "/" + repo, GitSuffix)
  {
    ContainsAcross(owner, '/', repo, GitSuffix);
    assert owner + "/" + repo == owner + ['/'] + repo;
  }

  /** As written, the round trip holds only when neither part contains ".git" or a `:`. */
  lemma ExtractRepoInfoAsWrittenRoundTrip(prefix: string, owner: string, repo: string)
    requires GitHubPrefix(prefix) && '/' !in owner && '/' !in repo && ':' !in owner && ':' !in repo
    requires !Contains(owner, GitSuffix) && !Contains(repo, GitSuffix)
    ensures ExtractRepoInfoAsWritten(prefix + owner + "/" + repo + GitSuffix) == Some(RepoInfo(owner, repo))
    ensures ExtractRepoInfoAsWritten(prefix + owner + "/" + repo) == Some(RepoInfo(owner, repo))
  {
    AsWrittenWithoutSuffix(prefix, owner, repo);
    var path := owner + "/" + repo;
    RegroupPath(prefix, owner, "/", repo, GitSuffix);
    assert ':' !in "/" && ':' !in GitSuffix;
    NotInFour(':', owner, "/", repo, GitSuffix);
    AsWrittenReadsPath(prefix, path + GitSuffix);
    NoGitInPath(owner, repo);
    TrailingGitRemoved(path);
    PartsOf(owner, repo, []);
    EmptyEnd(path);
  }

  /** As written, a URL whose names hold neither ".git" nor a `:` and that has no ".git" is read back. */
  lemma AsWrittenWithoutSuffix(prefix: string, owner: string, repo: string)
    requires GitHubPrefix(prefix) && '/' !in owner && '/' !in repo && ':' !in owner && ':' !in repo
    requires !Contains(owner, GitSuffix) && !Contains(repo, GitSuffix)
    ensures ExtractRepoInfoAsWritten(prefix + owner + "/" + repo) == Some(RepoInfo(owner, repo))
  {
    var path := owner + "/" + repo;
    assert prefix + owner + "/" + repo == prefix + path;
    assert ':' !in "/";
    NotInThree(':', owner, "/", repo);
    AsWrittenReadsPath(prefix, path);
    NoGitInPath(owner, repo);
    RemoveAllAbsent(path, GitSuffix);
    PartsOf(owner, repo, []);
    EmptyEnd(path);
  }

  /** As written, a trailing ".git" after a path without ".git" is removed. */
  lemma TrailingGitRemoved(path: string)
    requires !Contains(path, GitSuffix)
    ensures RemoveAll(path + GitSuffix, GitSuffix) == path
  {
    GitSuffixHead();
    RemoveAllThrough(path, GitSuffix, []);
    EmptyEnd(path + GitSuffix);
    EmptyEnd(path);
    assert RemoveAll([], GitSuffix) == [];
  }

  /** The first character of ".git" does not recur in it. */
  lemma GitSuffixHead()
    ensures forall i :: 0 < i < |GitSuffix| ==> GitSuffix[i] != GitSuffix[0]
  {
  }

  /** As written, every ".git" is cut out of the path `owner/a.gitb.git`. */
  lemma GitCutOut(owner: string, a: string, b: string)
    requires !Contains(owner, GitSuffix) && !Contains(a, GitSuffix) && !Contains(b, GitSuffix)
    ensures RemoveAll(owner + "/" + a + GitSuffix + (b + GitSuffix), GitSuffix) == owner + "/" + (a + b)
  {
    var front := owner + "/" + a;
    NoGitInPath(owner, a);
    GitSuffixHead();
    RemoveAllThrough(front, GitSuffix, b + GitSuffix);
    TrailingGitRemoved(b);
    AppendAssoc(owner + "/", a, b);
  }

  /**
   * As written, a ".git" inside the repository name is removed too: the
   * repository `a + ".git" + b` is read as `a + b`, while the intended parser
   * keeps the name.
   */
  lemma GitInsideNameIsRemoved(prefix: string, owner: string, a: string, b: string)
    requires GitHubPrefix(prefix) && '/' !in owner && '/' !in a && '/' !in b && ':' !in owner && ':' !in a && ':' !in b
    requires !Contains(owner, GitSuffix) && !Contains(a, GitSuffix) && !Contains(b, GitSuffix)
    ensures ExtractRepoInfoAsWritten(prefix + owner + "/" + a + GitSuffix + b + GitSuffix) == Some(RepoInfo(owner, a + b))
    ensures ExtractRepoInfo(prefix + owner + "/" + a + GitSuffix + b + GitSuffix) == Some(RepoInfo(owner, a + GitSuffix + b))
  {
    var rest := owner + "/" + a + GitSuffix + (b + GitSuffix);
    RegroupUrl(prefix, owner, "/", a, GitSuffix, b);
    assert ':' !in "/" && ':' !in GitSuffix;
    NotInFour(':', owner, "/", a, GitSuffix);
    NotInFour(':', owner + "/" + a + GitSuffix, b, GitSuffix, []);
    EmptyEnd(b + GitSuffix);
    AsWrittenReadsPath(prefix, rest);
    GitCutOut(owner, a, b);
    NotInFour('/', a, b, [], []);
    PartsOf(owner, a + b, []);
    EmptyEnd(owner + "/" + (a + b));
    KeptByIntended(prefix, owner, a, b);
  }

  lemma KeptByIntended(prefix: string, owner: string, a: string, b: string)
    requires GitHubPrefix(prefix) && '/' !in owner && '/' !in a && '/' !in b
    ensures ExtractRepoInfo(prefix + owner + "/" + a + GitSuffix + b + GitSuffix) == Some(RepoInfo(owner, a + GitSuffix + b))
  {
    var repo := a + GitSuffix + b;
    assert '/' !in GitSuffix;
    NotInThree('/', a, GitSuffix, b);
    ExtractRepoInfoRoundTrip(prefix, owner, repo, GitSuffix);
    Regroup(prefix + owner + "/", a, GitSuffix, b);
  }

  lemma NotInFour<T>(c: T, a: seq<T>, b: seq<T>, d: seq<T>, e: seq<T>)
    requires c !in a && c !in b && c !in d && c !in e
    ensures c !in a + b + d + e && c !in a + b + (d + e) && c !in a + b + d && c !in a + b
  {
  }

  lemma EmptyEnd<T>(s: seq<T>)
    ensures s + [] == s
  {
  }

  lemma RegroupPath<T>(p: seq<T>, o: seq<T>, c: seq<T>, r: seq<T>, g: seq<T>)
    ensures p + o + c + r + g == p + (o + c + r + g)
  {
  }

  lemma RegroupUrl<T>(p: seq<T>, o: seq<T>, c: seq<T>, a: seq<T>, g: seq<T>, b: seq<T>)
    ensures p + o + c + a + g + b + g == p + (o + c + a + g + (b + g))
  {
  }

  lemma NotInThree<T>(c: T, a: seq<T>, g: seq<T>, b: seq<T>)
    requires c !in a && c !in g && c !in b
    ensures c !in a + g + b
  {
  }

  lemma Regroup<T>(x: seq<T>, a: seq<T>, g: seq<T>, b: seq<T>)
    ensures x + (a + g + b) + g == x + a + g + b + g
  {
  }

  /** The remote of the repository `octo/octo.github.io` is read as the repository "octohub.io". */
  lemma GitHubPagesRemote(url: string, owner: string, a: string, b: string)
    requires url == HttpsPrefix + owner + "/" + a + GitSuffix + b + GitSuffix
    requires owner == "octo" && a == "octo" && b == "hub.io"
    ensures ExtractRepoInfoAsWritten(url) == Some(RepoInfo("octo", "octohub.io"))
    ensures ExtractRepoInfo(url) == Some(RepoInfo("octo", "octo.github.io"))
  {
    AbsentChar(owner, GitSuffix, 1);
    AbsentChar(a, GitSuffix, 1);
    AbsentChar(b, GitSuffix, 1);
    GitInsideNameIsRemoved(HttpsPrefix, owner, a, b);
    PagesNames(a, b);
  }

  lemma PagesNames(a: string, b: string)
    requires a == "octo" && b == "hub.io"
    ensures a + b == "octohub.io" && a + GitSuffix + b == "octo.github.io"
  {
  }

  /** Any URL without a GitHub prefix yields no repository info. */
  lemma OtherRemotesHaveNoInfo(url: string)
    requires !StartsWith(url, HttpsPrefix) && !StartsWith(url, SshPrefix)
    ensures ExtractRepoInfo(url).None? && ExtractRepoInfoAsWritten(url).None?
  {
  }

  /** A path with no `/` gives fewer than two segments, hence no repository info, in either parse. */
  lemma SingleSegmentHasNoInfo(prefix: string, path: string)
    requires GitHubPrefix(prefix) && '/' !in path
    ensures ExtractRepoInfo(prefix + path).None?
    ensures ExtractRepoInfoAsWritten(prefix + path).None?
  {
    PrefixOf(prefix, path);
    RemoveAllPrefix(prefix, path);
    RemoveAllKeepsOut(path, prefix, '/');
    RemoveAllKeepsOut(RemoveAll(path, prefix), GitSuffix, '/');
    var t := TrimGit(path);
    assert '/' !in t by {
      if EndsWith(path, GitSuffix) { assert t == path[..|path| - 4]; }
    }
  }

  // ---------------------------------------------------------------------------
  // _create_pull_request
  // ---------------------------------------------------------------------------

  /** The names of the missing required parameters, in the order the checks run. */
  method MissingParameters(branch: Option<string>, title: Option<string>, token: Option<string>) returns (missing: seq<string>)
    ensures "branch_name" in missing <==> !Truthy(branch)
    ensures "pr_title" in missing <==> !Truthy(title)
    ensures "GITHUB_TOKEN" in missing <==> !Truthy(token)
    ensures missing == [] <==> Truthy(branch) && Truthy(title) && Truthy(token)
    ensures missing == Missing(branch, title, token)
  {
    missing := [];
    if !Truthy(branch) {
      missing := missing + ["branch_name"];
    }
    if !Truthy(title) {
      missing := missing + ["pr_title"];
    }
    if !Truthy(token) {
      missing := missing + ["GITHUB_TOKEN"];
    }
  }

  /** The three required parameters, each with whether it is missing. */
  function Missing(branch: Option<string>, title: Option<string>, token: Option<string>): (r: seq<string>)
    ensures |r| <= 3
  {
    (if !Truthy(branch) then ["branch_name"] else [])
    + (if !Truthy(title) then ["pr_title"] else [])
    + (if !Truthy(token) then ["GITHUB_TOKEN"] else [])
  }

  /** The missing names keep the order branch_name, pr_title, GITHUB_TOKEN. */
  lemma MissingInOrder(branch: Option<string>, title: Option<string>, token: Option<string>)
    ensures var r := Missing(branch, title, token);
      forall i, j :: 0 <= i < j < |r| ==> Rank(r[i]) < Rank(r[j])
  {
  }

  function Rank(name: string): nat {
    if name == "branch_name" then 0 else if name == "pr_title" then 1 else 2
  }

  function PullsUrl(info: RepoInfo): string {
    "https://api.github.com/repos/" + info.owner + "/" + info.repo + "/pulls"
  }

  /** `_create_pull_request`, with the remote URL parsed as the source parses it, by `ExtractRepoInfoAsWritten`. */
  function CreatePullRequest(
    repo: Repo, token: Option<string>, post: Request -> Response,
    branch: Option<string>, base: Option<string>, title: Option<string>, description: Option<string>): (r: Outcome)
    ensures r.commands == []
    ensures r.request.Some? <==> Truthy(branch) && Truthy(title) && Truthy(token) && ExtractRepoInfoAsWritten(repo.originUrl).Some?
    ensures r.request.Some? ==> (r.request.value ==
      Request(PullsUrl(ExtractRepoInfoAsWritten(repo.originUrl).value), "token " + token.value, "application/vnd.github.v3+json",
              title.value, description, branch.value, base))
    ensures r.reply.PullRequest? ==> r.request.Some? && post(r.request.value).Posted? && post(r.request.value).statusCode == 201
    ensures r.request.Some? ==> r.reply == PullReply(post(r.request.value))
    ensures Truthy(branch) && Truthy(title) && Truthy(token) && ExtractRepoInfoAsWritten(repo.originUrl).None? ==>
      r.reply == ErrorReply("Could not extract repository info from " + repo.originUrl)
  {
    if !(Truthy(branch) && Truthy(title) && Truthy(token)) then
      Outcome(ErrorReply("Missing required parameters: " + Join(Missing(branch, title, token), ", ")), [], None)
    else
      match ExtractRepoInfoAsWritten(repo.originUrl)
      case None => Outcome(ErrorReply("Could not extract repository info from " + repo.originUrl), [], None)
      case Some(info) =>
        var request := Request(PullsUrl(info), "token " + token.value, "application/vnd.github.v3+json",
                               title.value, description, branch.value, base);
        Outcome(PullReply(post(request)), [], Some(request))
  }

  /** What the tool makes of the API's response. */
  function PullReply(response: Response): (r: Reply)
    ensures r.PullRequest? ==> (response.Posted? && response.statusCode == 201 &&
      response.json.PullFields? && response.json.htmlUrl == Some(r.prUrl) && response.json.number == Some(r.prNumber) &&
      r.message == "Pull request created: " + r.prUrl)
    ensures response.Posted? && response.statusCode != 201 ==>
      r == Failed("Failed to create PR: " + IntToString(response.statusCode) + " - " + response.text)
  {
    match response
    case PostRaised(m) => Failed(m)
    case Posted(status, text, json) =>
      if status != 201 then Failed("Failed to create PR: " + IntToString(status) + " - " + text)
      else
        match json
        case NotJson(m) => Failed(m)
        case PullFields(url, number) =>
          if url.None? then Failed("'html_url'")
          else if number.None? then Failed("'number'")
          else PullRequest("Pull request created: " + url.value, url.value, number.value)
  }

  /** A missing parameter is reported by name and no request is made. */
  lemma MissingParametersMakeNoRequest(
    repo: Repo, token: Option<string>, post: Request -> Response,
    branch: Option<string>, base: Option<string>, title: Option<string>, description: Option<string>)
    requires !Truthy(branch) || !Truthy(title) || !Truthy(token)
    ensures var r := CreatePullRequest(repo, token, post, branch, base, title, description);
      r.request.None? && r.reply == ErrorReply("Missing required parameters: " + Join(Missing(branch, title, token), ", "))
  {
  }

  /** The pull request of the repository `octo/octo.github.io` is posted to the repository "octohub.io". */
  lemma GitHubPagesPullRequest(
    repo: Repo, token: Option<string>, post: Request -> Response,
    branch: Option<string>, base: Option<string>, title: Option<string>, description: Option<string>,
    owner: string, a: string, b: string)
    requires repo.originUrl == HttpsPrefix + owner + "/" + a + GitSuffix + b + GitSuffix
    requires owner == "octo" && a == "octo" && b == "hub.io"
    requires Truthy(branch) && Truthy(title) && Truthy(token)
    ensures var r := CreatePullRequest(repo, token, post, branch, base, title, description);
      r.request.Some? && r.request.value.url == "https://api.github.com/repos/octo/octohub.io/pulls"
  {
    GitHubPagesRemote(repo.originUrl, owner, a, b);
    PagesPullsUrl();
  }

  lemma PagesPullsUrl()
    ensures PullsUrl(RepoInfo("octo", "octohub.io")) == "https://api.github.com/repos/octo/octohub.io/pulls"
  {
  }

  // ---------------------------------------------------------------------------
  // _run
  // ---------------------------------------------------------------------------

  const Operations := ["create_branch", "commit", "push", "create_pr"]

  /** `_run`: the repository check, then dispatch on the operation name. */
  function Run(tool: Tool, post: Request -> Response, operation: string, args: Args): (r: Outcome)
    ensures tool.repo.None? ==> r == Outcome(ErrorReply(tool.repoPath + " is not a valid Git repository"), [], None)
    ensures tool.repo.Some? && operation !in Operations ==> r == Outcome(ErrorReply("Unknown operation: " + operation), [], None)
    ensures r.request.Some? ==> tool.repo.Some? && operation == "create_pr"
    ensures r.commands != [] ==> tool.repo.Some? && operation in Operations[..3]
    ensures tool.repo.Some? && operation == "create_branch" ==> r == CreateBranch(tool.repo.value, args.branchName)
    ensures tool.repo.Some? && operation == "commit" ==> r == Commit(tool.repo.value, args.commitMessage, args.files)
    ensures tool.repo.Some? && operation == "push" ==> r == Push(tool.repo.value, args.branchName)
    ensures tool.repo.Some? && operation == "create_pr" ==>
      r == CreatePullRequest(tool.repo.value, tool.token, post, args.branchName, args.baseBranch, args.prTitle, args.prDescription)
  {
    match tool.repo
    case None => Outcome(ErrorReply(tool.repoPath + " is not a valid Git repository"), [], None)
    case Some(repo) =>
      if operation == "create_branch" then CreateBranch(repo, args.branchName)
      else if operation == "commit" then Commit(repo, args.commitMessage, args.files)
      else if operation == "push" then Push(repo, args.branchName)
      else if operation == "create_pr" then
        CreatePullRequest(repo, tool.token, post, args.branchName, args.baseBranch, args.prTitle, args.prDescription)
      else Outcome(ErrorReply("Unknown operation: " + operation), [], None)
  }
}

=== FILE: message_formatter.dfy ===
/**
 * The console formatter of agent messages: a role header in a box of fixed
 * width, content wrapped word by word into rows of that box, and Markdown code
 * fences written and read back.
 */
module MessageFormatter {
  import opened Base
  import opened Strings
  import opened Seqs

  // ---------------------------------------------------------------------------
  // Role styles and the message box
  // ---------------------------------------------------------------------------

  datatype Color = Blue | Green | Purple | Orange | Gray

  /**
   * The colour and emoji of a role. Roles are strings (the role enumeration
   * compares equal to its values), so any other string takes the gray default.
   */
  function RoleStyle(role: string): (r: (Color, string))
    ensures role == "system" <==> r == (Blue, "\U{1F916}")
    ensures role == "user" <==> r == (Green, "\U{1F464}")
    ensures role == "assistant" <==> r == (Purple, "\U{1F9E0}")
    ensures role == "function" <==> r == (Orange, "\U{2699}\U{FE0F}")
    ensures role !in ["system", "user", "assistant", "function"] <==> r == (Gray, "\U{1F4DD}")
  {
    if role == "system" then (Blue, "\U{1F916}")
    else if role == "user" then (Green, "\U{1F464}")
    else if role == "assistant" then (Purple, "\U{1F9E0}")
    else if role == "function" then (Orange, "\U{2699}\U{FE0F}")
    else (Gray, "\U{1F4DD}")
  }

  /** The header of the box: the role's emoji, a space, and the role in capitals. */
  function Header(role: string): (r: string)
    ensures var emoji := RoleStyle(role).1;
      |r| == |emoji| + 1 + |role| && r[..|emoji|] == emoji && r[|emoji|] == ' ' &&
      forall k :: 0 <= k < |role| ==> r[|emoji| + 1 + k] == UpperChar(role[k])
  {
    RoleStyle(role).1 + " " + Upper(role)
  }

  /** The width of the text inside the box. */
  const MaxWidth: nat := 68

  function Repeat(c: char, n: nat): (r: string)
    ensures |r| == n && forall k :: 0 <= k < n ==> r[k] == c
  {
    seq(n, _ => c)
  }

  /** The blank row that opens and closes the content of the box. */
  function BlankRow(): string {
    "│" + Spaces(MaxWidth) + "│"
  }

  /** The top border, with the header in the middle. */
  function Top(role: string): string {
    "┌" + Repeat('─', 29) + " " + Header(role) + " " + Repeat('─', 29) + "┐"
  }

  function Bottom(): string {
    "└" + Repeat('─', MaxWidth) + "┘"
  }

  /**
   * The borders and the blank rows are two characters wide more than the text,
   * while a content row is four wider: the side borders of the content rows stand
   * one column outside the corners of the box.
   */
  lemma BoxWidths(role: string)
    ensures |BlankRow()| == MaxWidth + 2 && |Bottom()| == MaxWidth + 2
    ensures |Top(role)| == 62 + |Header(role)|
    ensures forall text :: |text| <= MaxWidth ==> |Row(text, MaxWidth)| == MaxWidth + 4
  {
  }

  /**
   * The message box: a leading newline, the top border carrying the header, a
   * blank row, the wrapped content, a blank row and the bottom border, each line
   * ended by a newline. The colour of the role is chosen but not used.
   */
  function FormatMessage(role: string, content: string): (r: string)
    ensures StartsWith(r, "\n" + Top(role) + "\n" + BlankRow() + "\n")
    ensures EndsWith(r, "\n" + BlankRow() + "\n" + Bottom() + "\n")
    ensures |r| == |Top(role)| + 2 * |BlankRow()| + |Join(WrappedRows(content, MaxWidth), "\n")| + |Bottom()| + 6
  {
    var head, body, tail := "\n" + Top(role) + "\n" + BlankRow() + "\n", Join(WrappedRows(content, MaxWidth), "\n"),
                            "\n" + BlankRow() + "\n" + Bottom() + "\n";
    BoxFrame(head, body, tail);
    head + body + tail
  }

  /** A text between a head and a tail starts with the head and ends with the tail. */
  lemma BoxFrame(head: string, body: string, tail: string)
    ensures StartsWith(head + body + tail, head) && EndsWith(head + body + tail, tail)
  {
    var r := head + body + tail;
    assert r[..|head|] == head;
    assert r[|r| - |tail|..] == tail;
  }

  /** The head, the body and the tail of the box, written as one run of parts. */
  lemma HeadBodyTail<T>(nl: seq<T>, top: seq<T>, blank: seq<T>, body: seq<T>, bottom: seq<T>)
    ensures (nl + top + nl + blank + nl) + body + (nl + blank + nl + bottom + nl)
      == nl + top + nl + blank + nl + body + nl + blank + nl + bottom + nl
  {
  }

  lemma BoxRegroup<T>(nl: seq<T>, top: seq<T>, blank: seq<T>, body: seq<T>, bottom: seq<T>)
    ensures nl + top + nl + blank + nl + body + nl + blank + nl + bottom + nl
      == nl + ((top + nl + blank) + nl + body + nl + (blank + nl + bottom)) + nl
  {
  }

  /** The borders of the box hold no newline when the role holds none. */
  lemma BordersNoNewline(role: string)
    requires '\n' !in role
    ensures '\n' !in Top(role) && '\n' !in BlankRow() && '\n' !in Bottom()
  {
    assert '\n' !in Upper(role);
  }

  /**
   * The lines of the box, between a leading and a trailing newline: the top
   * border, a blank row, the rows of the content (one empty line when there are
   * none), a blank row and the bottom border; no line holds a newline of its own.
   */
  lemma MessageBoxLines(role: string, content: string)
    requires '\n' !in role
    ensures var rows := WrappedRows(content, MaxWidth);
      var lines := [Top(role), BlankRow()] + (if rows == [] then [""] else rows) + [BlankRow(), Bottom()];
      FormatMessage(role, content) == "\n" + Join(lines, "\n") + "\n" &&
      forall k :: 0 <= k < |lines| ==> '\n' !in lines[k]
  {
    var rows := WrappedRows(content, MaxWidth);
    BordersNoNewline(role);
    WrappedRowsNoNewline(content, MaxWidth);
    HeadBodyTail("\n", Top(role), BlankRow(), Join(rows, "\n"), Bottom());
    BoxJoin(Top(role), BlankRow(), rows, Bottom());
    BoxLinesClean(Top(role), BlankRow(), rows, Bottom());
  }

  /** The lines of a box joined by newlines, between a leading and a trailing newline. */
  lemma BoxJoin(top: string, blank: string, rows: seq<string>, bottom: string)
    ensures var lines := [top, blank] + (if rows == [] then [""] else rows) + [blank, bottom];
      "\n" + Join(lines, "\n") + "\n" ==
      "\n" + top + "\n" + blank + "\n" + Join(rows, "\n") + "\n" + blank + "\n" + bottom + "\n"
  {
    var body := if rows == [] then [""] else rows;
    assert Join(body, "\n") == Join(rows, "\n");
    JoinAppend([top, blank], body, "\n");
    JoinAppend([top, blank] + body, [blank, bottom], "\n");
    JoinPair(top, blank, "\n");
    JoinPair(blank, bottom, "\n");
    BoxRegroup("\n", top, blank, Join(rows, "\n"), bottom);
  }

  /** No line of a box holds a newline when neither the borders nor the rows do. */
  lemma BoxLinesClean(top: string, blank: string, rows: seq<string>, bottom: string)
    requires '\n' !in top && '\n' !in blank && '\n' !in bottom
    requires forall k :: 0 <= k < |rows| ==> '\n' !in rows[k]
    ensures var lines := [top, blank] + (if rows == [] then [""] else rows) + [blank, bottom];
      forall k :: 0 <= k < |lines| ==> '\n' !in lines[k]
  {
    var body := if rows == [] then [""] else rows;
    var lines := [top, blank] + body + [blank, bottom];
    forall k | 0 <= k < |lines|
      ensures '\n' !in lines[k]
    {
      if 2 <= k < 2 + |body| {
        assert lines[k] == body[k - 2];
      }
    }
  }

  // ---------------------------------------------------------------------------
  // Wrapping
  // ---------------------------------------------------------------------------

  /** One row of the box: the text padded to the width, between the side borders. */
  function Row(text: string, w: nat): (r: string)
    ensures |r| == 4 + (if |text| < w then w else |text|)
    ensures |text| <= w ==> |r| == w + 4
    ensures r[..2] == "│ " && r[2..2 + |text|] == text && r[|r| - 2..] == " │"
  {
    var padded := LJust(text, w);
    assert padded[..|text|] == text;
    "│ " + padded + " │"
  }

  /**
   * The greedy split of the words `rest` into rows, the current row holding the
   * words `group`: a word joins the current row when the row's text, the word and
   * one more character fit in `w` (the one is counted even for an empty row);
   * otherwise the current row is emitted, even when it is empty, and the word
   * starts the next one. A non-empty last row is emitted at the end.
   */
  function Greedy(group: seq<string>, rest: seq<string>, w: nat): seq<seq<string>>
    decreases |rest|
  {
    if rest == [] then (if group == [] then [] else [group])
    else if |Join(group, " ")| + |rest[0]| + 1 <= w then Greedy(group + [rest[0]], rest[1..], w)
    else [group] + Greedy([rest[0]], rest[1..], w)
  }

  /** The rows of a sequence of word groups, each group joined by single spaces. */
  function RowsOf(groups: seq<seq<string>>, w: nat): (r: seq<string>)
    ensures |r| == |groups|
  {
    seq(|groups|, k requires 0 <= k < |groups| => Row(Join(groups[k], " "), w))
  }

  /** The rows of one line of the content: the line itself when it fits, else its words split greedily. */
  function LineRows(line: string, w: nat): seq<string> {
    if |line| <= w then [Row(line, w)] else RowsOf(Greedy([], Words(line), w), w)
  }

  function LineWrapper(w: nat): string -> seq<string> {
    line => LineRows(line, w)
  }

  /** The rows of the content, line by line, the lines being separated by `"\n"`. */
  function WrappedRows(content: string, w: nat): seq<string> {
    ConcatMap(SplitChar(content, '\n'), LineWrapper(w))
  }

  lemma RowsOfAppend(a: seq<seq<string>>, b: seq<seq<string>>, w: nat)
    ensures RowsOf(a + b, w) == RowsOf(a, w) + RowsOf(b, w)
  {
  }

  /** The rows of one long line, built word by word. */
  method WrapLongLine(line: string, w: nat) returns (rows: seq<string>)
    ensures rows == RowsOf(Greedy([], Words(line), w), w)
  {
    var words := Words(line);
    rows := [];
    var current := "";
    ghost var done: seq<seq<string>> := [];
    ghost var group: seq<string> := [];
    for j := 0 to |words|
      invariant current == Join(group, " ")
      invariant group == [] || group[0] != []
      invariant rows == RowsOf(done, w)
      invariant done + Greedy(group, words[j..], w) == Greedy([], words, w)
    {
      var word := words[j];
      GreedyStep(group, words, j, w);
      JoinSnoc(group, word, " ");
      if |current| + |word| + 1 <= w {
        if group != [] {
          JoinNonEmpty(group, " ");
        }
        current := if current != "" then current + " " + word else word;
        group := group + [word];
      } else {
        AppendAssoc(done, [group], Greedy([word], words[j + 1..], w));
        RowsSnoc(done, group, w);
        rows := rows + [Row(current, w)];
        done := done + [group];
        current := word;
        group := [word];
        assert Join(group, " ") == word;
      }
    }
    assert words[|words|..] == [];
    if group != [] {
      JoinNonEmpty(group, " ");
      RowsSnoc(done, group, w);
    }
    if current != "" {
      rows := rows + [Row(current, w)];
    }
  }

  /** The rows of one more group. */
  lemma RowsSnoc(done: seq<seq<string>>, group: seq<string>, w: nat)
    ensures RowsOf(done + [group], w) == RowsOf(done, w) + [Row(Join(group, " "), w)]
  {
    RowsOfAppend(done, [group], w);
  }

  /** One step of the greedy split: the next word joins the current row or starts a new one. */
  lemma GreedyStep(group: seq<string>, words: seq<string>, j: nat, w: nat)
    requires j < |words|
    ensures Greedy(group, words[j..], w) ==
      if |Join(group, " ")| + |words[j]| + 1 <= w then Greedy(group + [words[j]], words[j + 1..], w)
      else [group] + Greedy([words[j]], words[j + 1..], w)
  {
    assert words[j..][1..] == words[j + 1..];
  }

  /** Python's `_wrap_content`: the rows of every line of the content, joined by newlines. */
  method WrapContent(content: string, w: nat) returns (r: string)
    ensures r == Join(WrappedRows(content, w), "\n")
  {
    var lines := SplitChar(content, '\n');
    var rows: seq<string> := [];
    for i := 0 to |lines|
      invariant rows == ConcatMap(lines[..i], LineWrapper(w))
    {
      assert lines[..i + 1][..i] == lines[..i];
      var line := lines[i];
      if |line| <= w {
        rows := rows + [Row(line, w)];
      } else {
        var more := WrapLongLine(line, w);
        rows := rows + more;
      }
    }
    assert lines[..|lines|] == lines;
    r := Join(rows, "\n");
  }

  /** All the words of the groups, in order. */
  function Flatten(groups: seq<seq<string>>): seq<string> {
    if groups == [] then [] else groups[0] + Flatten(groups[1..])
  }

  lemma {:induction false} FlattenAppend(a: seq<seq<string>>, b: seq<seq<string>>)
    ensures Flatten(a + b) == Flatten(a) + Flatten(b)
  {
    if a == [] {
      assert a + b == b;
    } else {
      assert (a + b)[0] == a[0];
      assert (a + b)[1..] == a[1..] + b;
      FlattenAppend(a[1..], b);
    }
  }

  /** The greedy split emits exactly the words of the current row and the rest, in order. */
  lemma {:induction false} GreedyKeepsWords(group: seq<string>, rest: seq<string>, w: nat)
    ensures Flatten(Greedy(group, rest, w)) == group + rest
    decreases |rest|
  {
    if rest == [] {
      assert group + rest == group;
      if group != [] {
        assert Flatten([group]) == group + Flatten([]);
      }
    } else if |Join(group, " ")| + |rest[0]| + 1 <= w {
      GreedyKeepsWords(group + [rest[0]], rest[1..], w);
      assert group + [rest[0]] + rest[1..] == group + rest;
    } else {
      GreedyKeepsWords([rest[0]], rest[1..], w);
      FlattenAppend([group], Greedy([rest[0]], rest[1..], w));
      assert Flatten([group]) == group + Flatten([]);
      assert group + ([rest[0]] + rest[1..]) == group + rest;
    }
  }

  /** A long line's rows carry exactly the words of `line.split()`, in order. */
  lemma LongLineKeepsWords(line: string, w: nat)
    ensures Flatten(Greedy([], Words(line), w)) == Words(line)
  {
    GreedyKeepsWords([], Words(line), w);
  }

  /** A row fits: its text is at most `w` long, or it holds a single word. */
  ghost predicate Fits(group: seq<string>, w: nat) {
    |Join(group, " ")| <= w || |group| == 1
  }

  /** Every row of the greedy split fits. */
  lemma {:induction false} GreedyRowsFit(group: seq<string>, rest: seq<string>, w: nat)
    requires Fits(group, w)
    ensures forall k :: 0 <= k < |Greedy(group, rest, w)| ==> Fits(Greedy(group, rest, w)[k], w)
    decreases |rest|
  {
    if rest == [] {
    } else if |Join(group, " ")| + |rest[0]| + 1 <= w {
      JoinSnoc(group, rest[0], " ");
      GreedyRowsFit(group + [rest[0]], rest[1..], w);
    } else {
      GreedyRowsFit([rest[0]], rest[1..], w);
    }
  }

  /** Every row of a long line fits. */
  lemma LongLineRowsFit(line: string, w: nat)
    ensures forall k :: 0 <= k < |Greedy([], Words(line), w)| ==> Fits(Greedy([], Words(line), w)[k], w)
  {
    GreedyRowsFit([], Words(line), w);
  }

  /**
   * The split is greedy: a row is emitted only when the next word would not
   * have fitted on it, so the next row's first word does not fit after it.
   */
  lemma {:induction false} GreedyRowsAreFull(group: seq<string>, rest: seq<string>, w: nat)
    ensures var g := Greedy(group, rest, w);
      forall k :: 1 <= k < |g| ==> g[k] != [] && |Join(g[k - 1], " ")| + |g[k][0]| + 1 > w
    decreases |rest|
  {
    if rest == [] {
    } else if |Join(group, " ")| + |rest[0]| + 1 <= w {
      assert Greedy(group, rest, w) == Greedy(group + [rest[0]], rest[1..], w);
      GreedyRowsAreFull(group + [rest[0]], rest[1..], w);
    } else {
      var g := Greedy(group, rest, w);
      var tail := Greedy([rest[0]], rest[1..], w);
      GreedyRowsAreFull([rest[0]], rest[1..], w);
      GreedyStartsWith([rest[0]], rest[1..], w);
      assert g == [group] + tail;
      forall k | 1 <= k < |g|
        ensures g[k] != [] && |Join(g[k - 1], " ")| + |g[k][0]| + 1 > w
      {
        assert g[k] == tail[k - 1];
        if k > 1 {
          assert g[k - 1] == tail[k - 2];
        }
      }
    }
  }

  /** The first row of a non-empty current row begins with that row's first word. */
  lemma {:induction false} GreedyStartsWith(group: seq<string>, rest: seq<string>, w: nat)
    requires group != []
    ensures var g := Greedy(group, rest, w); g != [] && g[0] != [] && g[0][0] == group[0]
    decreases |rest|
  {
    if rest != [] && |Join(group, " ")| + |rest[0]| + 1 <= w {
      GreedyStartsWith(group + [rest[0]], rest[1..], w);
    }
  }

  /**
   * When the first word of a long line is not shorter than the width, the first
   * row emitted is an empty one, and the word opens the second row.
   */
  lemma LongFirstWordGivesEmptyRow(line: string, w: nat)
    requires Words(line) != [] && |Words(line)[0]| + 1 > w
    ensures var g := Greedy([], Words(line), w); |g| >= 2 && g[0] == [] && g[1] != [] && g[1][0] == Words(line)[0]
  {
    var words := Words(line);
    GreedyStartsWith([words[0]], words[1..], w);
  }

  /** A line that fits gives exactly one row: the line itself, padded. */
  lemma ShortLineIsOneRow(line: string, w: nat)
    requires |line| <= w
    ensures LineRows(line, w) == [Row(line, w)] && |Row(line, w)| == w + 4
  {
  }

  /** Two pieces of content separated by a newline are wrapped independently, in order. */
  lemma WrappedRowsAppend(a: string, b: string, w: nat)
    ensures WrappedRows(a + "\n" + b, w) == WrappedRows(a, w) + WrappedRows(b, w)
  {
    SplitCharAppend(a, b, '\n');
    ConcatMapAppend(SplitChar(a, '\n'), SplitChar(b, '\n'), LineWrapper(w));
  }

  /** Every word of the greedy split is a word of the current row or of the rest. */
  lemma GreedyWordsFrom(group: seq<string>, rest: seq<string>, w: nat, k: nat, j: nat)
    requires k < |Greedy(group, rest, w)| && j < |Greedy(group, rest, w)[k]|
    ensures Greedy(group, rest, w)[k][j] in group + rest
  {
    var g := Greedy(group, rest, w);
    GreedyKeepsWords(group, rest, w);
    FlattenHas(g, k, j);
  }

  lemma {:induction false} FlattenHas(groups: seq<seq<string>>, k: nat, j: nat)
    requires k < |groups| && j < |groups[k]|
    ensures groups[k][j] in Flatten(groups)
  {
    if k > 0 {
      FlattenHas(groups[1..], k - 1, j);
    }
  }

  /** A row holds no newline when its text holds none. */
  lemma RowNoNewline(text: string, w: nat)
    requires '\n' !in text
    ensures '\n' !in Row(text, w)
  {
    var padded := LJust(text, w);
    assert forall k :: 0 <= k < |padded| ==> padded[k] != '\n' by {
      forall k | 0 <= k < |padded| ensures padded[k] != '\n' {
        if k < |text| {
          assert padded[k] == padded[..|text|][k];
        }
      }
    }
  }

  /** The rows of a line hold no newline. */
  lemma LineRowsNoNewline(line: string, w: nat)
    requires '\n' !in line
    ensures forall k :: 0 <= k < |LineRows(line, w)| ==> '\n' !in LineRows(line, w)[k]
  {
    if |line| <= w {
      RowNoNewline(line, w);
    } else {
      var words := Words(line);
      var g := Greedy([], words, w);
      forall k | 0 <= k < |g|
        ensures '\n' !in RowsOf(g, w)[k]
      {
        GroupNoNewline(words, w, k);
        RowNoNewline(Join(g[k], " "), w);
      }
    }
  }

  /** A group of the greedy split of words without spaces, joined by spaces, holds no newline. */
  lemma GroupNoNewline(words: seq<string>, w: nat, k: nat)
    requires forall i :: 0 <= i < |words| ==> NoSpace(words[i])
    requires k < |Greedy([], words, w)|
    ensures '\n' !in Join(Greedy([], words, w)[k], " ")
  {
    var group := Greedy([], words, w)[k];
    forall j | 0 <= j < |group|
      ensures '\n' !in group[j]
    {
      GreedyWordsFrom([], words, w, k, j);
      assert [] + words == words;
      var i :| 0 <= i < |words| && words[i] == group[j];
      assert NoSpace(words[i]);
    }
    JoinWithout(group, " ", '\n');
  }

  /** No row of the wrapped content holds a newline. */
  lemma WrappedRowsNoNewline(content: string, w: nat)
    ensures forall k :: 0 <= k < |WrappedRows(content, w)| ==> '\n' !in WrappedRows(content, w)[k]
  {
    var rows := WrappedRows(content, w);
    var lines := SplitChar(content, '\n');
    forall k | 0 <= k < |rows|
      ensures '\n' !in rows[k]
    {
      var i := ConcatMapMember(lines, LineWrapper(w), rows[k]);
      LineRowsNoNewline(lines[i], w);
    }
  }

  // ---------------------------------------------------------------------------
  // Code fences
  // ---------------------------------------------------------------------------

  /** Python's `format_code_block`. */
  function FormatCodeBlock(code: string, language: string): (r: string)
    ensures StartsWith(r, "```" + language + "\n") && EndsWith(r, "\n```")
    ensures |r| == |code| + |language| + 8
    ensures r[|language| + 4..|r| - 4] == code
  {
    "```" + language + "\n" + code + "\n```"
  }

  datatype CodeBlock = CodeBlock(language: string, code: string)

  /** Number of word characters that begin `s`. */
  function WordCharRun(s: string): (n: nat)
    ensures n <= |s| && (forall k :: 0 <= k < n ==> IsWordChar(s[k])) && (n < |s| ==> !IsWordChar(s[n]))
  {
    if |s| > 0 && IsWordChar(s[0]) then 1 + WordCharRun(s[1..]) else 0
  }

  const Close: string := "\n```"

  /** A block the fence pattern can read back: a language of word characters, code without a closing fence. */
  predicate Readable(b: CodeBlock) {
    (forall k :: 0 <= k < |b.language| ==> IsWordChar(b.language[k])) && !Contains(b.code, Close)
  }

  /**
   * A match of the fence pattern at position `p`: three backticks, a run of word
   * characters as the language, a newline, then the shortest text followed by a
   * newline and three backticks. The language run is maximal because the
   * newline after it is not a word character. Gives the block and where the
   * match ends.
   */
  function FenceAt(text: string, p: nat): (r: Option<(CodeBlock, nat)>)
    requires p <= |text|
    ensures r.Some? ==> p + 8 + |r.value.0.language| + |r.value.0.code| == r.value.1 <= |text|
  {
    if p + 3 > |text| || text[p..p + 3] != "```" then None
    else FenceAfterLanguage(text, p, p + 3 + WordCharRun(text[p + 3..]))
  }

  /** The rest of the fence match, once the language run has ended at `q`. */
  function FenceAfterLanguage(text: string, p: nat, q: nat): (r: Option<(CodeBlock, nat)>)
    requires p + 3 <= |text| && text[p..p + 3] == "```" && q == p + 3 + WordCharRun(text[p + 3..])
    ensures r.Some? ==> p + 8 + |r.value.0.language| + |r.value.0.code| == r.value.1 <= |text|
  {
    if q >= |text| || text[q] != '\n' then None
    else
      match Find(text[q + 1..], Close)
      case None => None
      case Some(k) => Some(FencedBlock(text, p, q, k))
  }

  /** The block between the fence opened at `p` and the first close `k` characters after `q + 1`. */
  function FencedBlock(text: string, p: nat, q: nat, k: nat): (r: (CodeBlock, nat))
    requires p + 3 <= q < |text| && text[p..p + 3] == "```" && text[q] == '\n'
    requires q == p + 3 + WordCharRun(text[p + 3..]) && Find(text[q + 1..], Close) == Some(k)
    ensures p + 8 + |r.0.language| + |r.0.code| == r.1 <= |text|
  {
    (CodeBlock(text[p + 3..q], text[q + 1..][..k]), q + 1 + k + 4)
  }

  /**
   * What a match at `p` reads: the text from `p` to the end of the match is the
   * found block written back in its fenced form, and the block is readable.
   */
  lemma FenceAtMatches(text: string, p: nat)
    requires p <= |text| && FenceAt(text, p).Some?
    ensures var (b, end) := FenceAt(text, p).value;
      text[p..end] == FormatCodeBlock(b.code, b.language) && Readable(b)
  {
    var q := p + 3 + WordCharRun(text[p + 3..]);
    var rest := text[q + 1..];
    var k := Find(rest, Close).value;
    assert FenceAt(text, p) == Some(FencedBlock(text, p, q, k));
    FirstPieceHasNoClose(rest);
    assert Before(rest, Close) == rest[..k];
    FenceSlice(text, p, q, k);
  }

  /**
   * The slice from `p` to the end of a closing fence found `k` characters after
   * `q + 1` is the formatted block of the language between `p + 3` and `q` and
   * the code before that close.
   */
  lemma FenceSlice(text: string, p: nat, q: nat, k: nat)
    requires p + 3 <= q < |text| && text[p..p + 3] == "```" && text[q] == '\n'
    requires Occurs(text[q + 1..], Close, k)
    ensures q + 1 + k + 4 <= |text|
    ensures text[p..q + 1 + k + 4] == FormatCodeBlock(text[q + 1..][..k], text[p + 3..q])
  {
    var e := q + 1 + k + 4;
    var language, newline, code, close := text[p + 3..q], text[q..q + 1], text[q + 1..q + 1 + k], text[q + 1 + k..e];
    assert text[q + 1..][..k] == code;
    assert close == Close;
    assert newline == "\n";
    SliceSplit(text, p, p + 3, e);
    SliceSplit(text, p + 3, q, e);
    SliceSplit(text, q, q + 1, e);
    SliceSplit(text, q + 1, q + 1 + k, e);
    RightNested(text[p..p + 3], language, newline, code, close);
  }

  lemma RightNested<T>(a: seq<T>, b: seq<T>, c: seq<T>, d: seq<T>, e: seq<T>)
    ensures a + (b + (c + (d + e))) == a + b + c + d + e
  {
  }

  lemma SliceSplit<T>(s: seq<T>, i: nat, j: nat, k: nat)
    requires i <= j <= k <= |s|
    ensures s[i..k] == s[i..j] + s[j..k]
  {
  }

  /** The text before the first closing fence contains none. */
  lemma FirstPieceHasNoClose(s: string)
    ensures !Contains(Before(s, Close), Close)
  {
    var b := Before(s, Close);
    match Find(s, Close)
    case None =>
    case Some(i) =>
      forall j: nat | j <= |b|
        ensures !Occurs(b, Close, j)
      {
        if j + 4 <= |b| {
          assert b[j..j + 4] == s[j..j + 4];
          assert !Occurs(s, Close, j);
        }
      }
      ContainsIff(b, Close);
  }

  /** `re.findall` of the fence pattern from position `p`: matches left to right, without overlap. */
  function FencesFrom(text: string, p: nat): (r: seq<CodeBlock>)
    requires p <= |text|
    ensures forall k :: 0 <= k < |r| ==> Readable(r[k]) && |r[k].language| + |r[k].code| + 8 <= |text| - p
    ensures forall k :: 0 <= k < |r| ==> FoundIn(text, r[k], p)
    decreases |text| - p
  {
    if p == |text| then []
    else
      match FenceAt(text, p)
      case Some((block, end)) =>
        var rest := FencesFrom(text, end);
        FoundHere(text, p, block, end, rest);
        [block] + rest
      case None =>
        var rest := FencesFrom(text, p + 1);
        FoundLater(text, rest, p, p + 1);
        rest
  }

  /** The block, formatted, occurs in the text at `p` or after it. */
  ghost predicate FoundIn(text: string, b: CodeBlock, p: nat) {
    exists q :: p <= q && Occurs(text, FormatCodeBlock(b.code, b.language), q)
  }

  /** The block matched at `p`, in front of the blocks found after its end, keeps both properties of `FencesFrom`. */
  lemma FoundHere(text: string, p: nat, block: CodeBlock, end: nat, rest: seq<CodeBlock>)
    requires p < |text| && FenceAt(text, p) == Some((block, end))
    requires forall k :: 0 <= k < |rest| ==> Readable(rest[k]) && |rest[k].language| + |rest[k].code| + 8 <= |text| - end
    requires forall k :: 0 <= k < |rest| ==> FoundIn(text, rest[k], end)
    ensures var r := [block] + rest;
      forall k :: 0 <= k < |r| ==> Readable(r[k]) && |r[k].language| + |r[k].code| + 8 <= |text| - p
    ensures var r := [block] + rest; forall k :: 0 <= k < |r| ==> FoundIn(text, r[k], p)
  {
    FenceAtMatches(text, p);
    assert Occurs(text, FormatCodeBlock(block.code, block.language), p);
    FoundLater(text, rest, p, end);
  }

  lemma FoundLater(text: string, blocks: seq<CodeBlock>, p: nat, q: nat)
    requires p <= q && forall k :: 0 <= k < |blocks| ==> FoundIn(text, blocks[k], q)
    ensures forall k :: 0 <= k < |blocks| ==> FoundIn(text, blocks[k], p)
  {
  }

  /** No fence starts where no backtick is: the search moves on past such text. */
  lemma {:induction false} SkipToFence(text: string, p: nat, q: nat)
    requires p <= q <= |text| && forall i :: p <= i < q ==> text[i] != '`'
    ensures FencesFrom(text, p) == FencesFrom(text, q)
    decreases q - p
  {
    if p < q {
      assert FenceAt(text, p) == None by {
        if p + 3 <= |text| {
          assert text[p..p + 3][0] == text[p];
        }
      }
      SkipToFence(text, p + 1, q);
    }
  }

  /** The pieces the fence pattern looks at, in a formatted block written after `prefix`. */
  lemma FormattedInPieces(prefix: string, code: string, language: string, rest: string)
    requires Readable(CodeBlock(language, code))
    ensures FenceShape(prefix + (FormatCodeBlock(code, language) + rest), |prefix|, language, code)
  {
    FormattedShape(code, language, rest);
    ShapeShift(prefix, FormatCodeBlock(code, language) + rest, language, code);
  }

  /** A formatted block followed by more text has the fence shape at its start. */
  lemma FormattedShape(code: string, language: string, rest: string)
    requires Readable(CodeBlock(language, code))
    ensures FenceShape(FormatCodeBlock(code, language) + rest, 0, language, code)
  {
    var t := FormatCodeBlock(code, language) + rest;
    PiecesBeforeRest(code, language, rest);
    CloseHead();
    FindAfterAbsent(code, Close, rest);
    assert t[3 + |language| + 1..][..|code|] == code;
  }

  /** The fence shape at the start of `t` is found again after any prefix. */
  lemma ShapeShift(prefix: string, t: string, language: string, code: string)
    requires FenceShape(t, 0, language, code)
    ensures FenceShape(prefix + t, |prefix|, language, code)
  {
    ShiftedSlices(prefix, t, 3, |language|);
  }

  /**
   * The text at `p` has the shape the fence pattern matches: three backticks,
   * `language` as the whole run of word characters, a newline, then `code` up
   * to the first closing fence.
   */
  ghost predicate FenceShape(text: string, p: nat, language: string, code: string) {
    && p + 3 + |language| < |text| && text[p..p + 3] == "```" && WordCharRun(text[p + 3..]) == |language|
    && text[p + 3..p + 3 + |language|] == language && text[p + 3 + |language|] == '\n'
    && Find(text[p + 3 + |language| + 1..], Close) == Some(|code|) && text[p + 3 + |language| + 1..][..|code|] == code
  }

  /** The match at `p`, read off the pieces of the text the pattern looks at. */
  lemma FenceAtOf(text: string, p: nat, q: nat, k: nat)
    requires p + 3 <= q < |text| && text[p..p + 3] == "```" && text[q] == '\n'
    requires q == p + 3 + WordCharRun(text[p + 3..]) && Find(text[q + 1..], Close) == Some(k)
    ensures FenceAt(text, p) == Some((CodeBlock(text[p + 3..q], text[q + 1..][..k]), q + 1 + k + 4))
  {
    FenceAtOpened(text, p);
    FenceAfterClosed(text, p, q, k);
  }

  /** The match at `p` of a text with the fence shape there. */
  lemma FenceAtShape(text: string, p: nat, language: string, code: string)
    requires FenceShape(text, p, language, code)
    ensures FenceAt(text, p) == Some((CodeBlock(language, code), p + |language| + |code| + 8))
  {
    FenceAtOf(text, p, p + 3 + |language|, |code|);
  }

  /** Past the opening backticks, the match goes on where the language run ends. */
  lemma FenceAtOpened(text: string, p: nat)
    requires p + 3 <= |text| && text[p..p + 3] == "```"
    ensures FenceAt(text, p) == FenceAfterLanguage(text, p, p + 3 + WordCharRun(text[p + 3..]))
  {
  }

  /** A newline after the language and a close after it give the block up to the first close. */
  lemma FenceAfterClosed(text: string, p: nat, q: nat, k: nat)
    requires p + 3 <= q < |text| && text[p..p + 3] == "```" && text[q] == '\n'
    requires q == p + 3 + WordCharRun(text[p + 3..]) && Find(text[q + 1..], Close) == Some(k)
    ensures FenceAfterLanguage(text, p, q) == Some((CodeBlock(text[p + 3..q], text[q + 1..][..k]), q + 1 + k + 4))
  {
  }

  /** How the fence pattern reads a formatted block followed by more text. */
  lemma PiecesBeforeRest(code: string, language: string, rest: string)
    requires Readable(CodeBlock(language, code))
    ensures var t, n := FormatCodeBlock(code, language) + rest, |language|;
      3 + n < |t| && t[..3] == "```" && WordCharRun(t[3..]) == n &&
      t[3..3 + n] == language && t[3 + n] == '\n' && t[3 + n + 1..] == code + Close + rest
  {
    var t := FormatCodeBlock(code, language) + rest;
    assert t == "```" + language + "\n" + code + Close + rest;
    var after := t[3..];
    assert after == language + "\n" + code + Close + rest;
    assert after[|language|] == '\n';
    WordCharRunOf(after, |language|);
  }

  /** Slices of `t` seen through `prefix + t`. */
  lemma ShiftedSlices(prefix: string, t: string, i: nat, n: nat)
    requires i + n < |t|
    ensures var text, p := prefix + t, |prefix|;
      text[p..p + i] == t[..i] && text[p + i..] == t[i..] && text[p + i..p + i + n] == t[i..i + n] &&
      text[p + i + n] == t[i + n] && text[p + i + n + 1..] == t[i + n + 1..]
  {
  }

  /**
   * In a text whose first fence is a formatted block after text without
   * backticks, that block is the first found.
   */
  lemma FirstFenceFound(prefix: string, code: string, language: string, rest: string)
    requires '`' !in prefix && Readable(CodeBlock(language, code))
    ensures var text := prefix + (FormatCodeBlock(code, language) + rest);
      Fences(text) != [] && Fences(text)[0] == CodeBlock(language, code)
  {
    var text := prefix + (FormatCodeBlock(code, language) + rest);
    forall i | 0 <= i < |prefix|
      ensures text[i] != '`'
    {
      assert text[i] == prefix[i];
    }
    SkipToFence(text, 0, |prefix|);
    FormattedInPieces(prefix, code, language, rest);
    FenceAtShape(text, |prefix|, language, code);
  }

  /** `re.findall` of the fence pattern over the whole text: every block found is readable and fits in the text. */
  function Fences(text: string): (r: seq<CodeBlock>)
    ensures forall k :: 0 <= k < |r| ==> Readable(r[k]) && |r[k].language| + |r[k].code| + 8 <= |text|
  {
    FencesFrom(text, 0)
  }

  /** Every block found in a text is found again, alone, in its own formatted form. */
  lemma FoundBlocksRoundTrip(text: string)
    ensures forall b :: b in Fences(text) ==> Fences(FormatCodeBlock(b.code, b.language)) == [b]
  {
    forall b | b in Fences(text)
      ensures Fences(FormatCodeBlock(b.code, b.language)) == [b]
    {
      CodeBlockRoundTrip(b.code, b.language);
    }
  }

  /** Python's `extract_code_blocks`: one record per match, in order. */
  method ExtractCodeBlocks(text: string) returns (blocks: seq<CodeBlock>)
    ensures blocks == Fences(text)
  {
    blocks := BlockRecords(Fences(text));
  }

  /** One record per (language, code) match, in the order of the matches. */
  method BlockRecords(matches: seq<CodeBlock>) returns (blocks: seq<CodeBlock>)
    ensures blocks == matches
  {
    blocks := [];
    for k := 0 to |matches|
      invariant blocks == matches[..k]
    {
      var (language, code) := (matches[k].language, matches[k].code);
      assert matches[..k + 1] == matches[..k] + [CodeBlock(language, code)];
      blocks := blocks + [CodeBlock(language, code)];
    }
    assert matches[..|matches|] == matches;
  }

  /** The match at the start of a formatted block is the whole block. */
  lemma FenceAtFormatted(code: string, language: string)
    requires forall k :: 0 <= k < |language| ==> IsWordChar(language[k])
    requires !Contains(code, Close)
    ensures var text := FormatCodeBlock(code, language);
      FenceAt(text, 0) == Some((CodeBlock(language, code), |text|))
  {
    var text := FormatCodeBlock(code, language);
    FormattedShape(code, language, "");
    assert text + "" == text;
    FenceAtShape(text, 0, language, code);
  }

  /** The first character of the closing fence does not recur in it. */
  lemma CloseHead()
    ensures Close != [] && forall i :: 0 < i < |Close| ==> Close[i] != Close[0]
  {
  }

  /**
   * A block written by `format_code_block` is read back whole: a language made
   * of word characters and code without a newline followed by three backticks
   * give back exactly that one block.
   */
  lemma CodeBlockRoundTrip(code: string, language: string)
    requires forall k :: 0 <= k < |language| ==> IsWordChar(language[k])
    requires !Contains(code, Close)
    ensures Fences(FormatCodeBlock(code, language)) == [CodeBlock(language, code)]
  {
    var text := FormatCodeBlock(code, language);
    FenceAtFormatted(code, language);
    assert FencesFrom(text, |text|) == [];
    assert FencesFrom(text, 0) == [CodeBlock(language, code)] + FencesFrom(text, |text|);
  }

  /** The word run of `s` ends at the first character that is not a word character. */
  lemma WordCharRunOf(s: string, n: nat)
    requires n < |s| && !IsWordChar(s[n]) && forall k :: 0 <= k < n ==> IsWordChar(s[k])
    ensures WordCharRun(s) == n
  {
  }
}

=== FILE: paths.dfy ===
/** The `pathlib.PurePath` attributes the tools read: `name`, `suffix` and `stem`. */
module Paths {
  import opened Base
  import opened Strings

  /** `Path(p).name`: the last `/`-separated component of `p`. */
  function Name(path: string): (r: string)
    ensures '/' !in r && EndsWith(path, r)
    ensures |r| < |path| ==> path[|path| - |r| - 1] == '/'
  {
    AfterLast(path, '/')
  }

  /** Position of the last `c` in `s`, as Python's `str.rfind`. */
  function LastIndexOf(s: string, c: char): (r: Option<nat>)
    ensures r.Some? ==> r.value < |s| && s[r.value] == c && c !in s[r.value + 1..]
    ensures r.None? ==> c !in s
  {
    if s == [] then None
    else if s[|s| - 1] == c then Some(|s| - 1)
    else
      var r := LastIndexOf(s[..|s| - 1], c);
      assert r.Some? ==> s[r.value + 1..] == s[..|s| - 1][r.value + 1..] + [s[|s| - 1]];
      r
  }

  /** Where the name splits into stem and suffix: the last dot, unless it begins or ends the name. */
  function SuffixStart(name: string): (r: Option<nat>)
    ensures r.Some? ==> 0 < r.value < |name| - 1 && name[r.value] == '.' && '.' !in name[r.value + 1..]
  {
    match LastIndexOf(name, '.')
    case Some(i) => if 0 < i < |name| - 1 then Some(i) else None
    case None => None
  }

  /** `Path(p).suffix`: the final dotted extension of the name, or `""`. */
  function Suffix(path: string): string {
    var name := Name(path);
    match SuffixStart(name)
    case Some(i) => name[i..]
    case None => []
  }

  /** `Path(p).stem`: the name without its suffix. */
  function Stem(path: string): string {
    var name := Name(path);
    match SuffixStart(name)
    case Some(i) => name[..i]
    case None => name
  }
}

=== FILE: projects.dfy ===
/**
 * What both the dependency scanner and the compilation tool look for in a project
 * directory: the recursive globs for marker files, and the project types they
 * indicate, tested in a fixed priority order.
 */
module Projects {
  datatype ProjectType = Python | NodeJs | Maven | Gradle | DotNet

  /**
   * The paths each recursive glob over the project directory returns, in glob order:
   * files named requirements.txt, setup.py, pyproject.toml, package.json, pom.xml,
   * build.gradle and build.gradle.kts, and files ending in .csproj and .sln.
   */
  datatype Markers = Markers(
    requirementsTxt: seq<string>,
    setupPy: seq<string>,
    pyprojectToml: seq<string>,
    packageJson: seq<string>,
    pomXml: seq<string>,
    buildGradle: seq<string>,
    buildGradleKts: seq<string>,
    csproj: seq<string>,
    sln: seq<string>)

  /** The order in which both tools test the project types: the first one present wins. */
  function Rank(t: ProjectType): nat {
    match t
    case Python => 0
    case NodeJs => 1
    case Maven => 2
    case Gradle => 3
    case DotNet => 4
  }

  /** The name the tools report for a project type. */
  function TypeName(t: ProjectType): string {
    match t
    case Python => "python"
    case NodeJs => "nodejs"
    case Maven => "maven"
    case Gradle => "gradle"
    case DotNet => "dotnet"
  }

  /** The marker files of a project type, in the order the dependency scanner lists them. */
  function MarkerFiles(m: Markers, t: ProjectType): seq<string> {
    match t
    case Python => m.requirementsTxt + m.setupPy + m.pyprojectToml
    case NodeJs => m.packageJson
    case Maven => m.pomXml
    case Gradle => m.buildGradle + m.buildGradleKts
    case DotNet => m.csproj
  }
}

=== FILE: seqs.dfy ===
/**
 * The list-building shapes the tools use: a loop that appends the result of each
 * element when there is one (`FilterMap`), and a loop that extends a list by the
 * results of each element (`ConcatMap`). Both are defined by their last step, the
 * way a loop builds them.
 */
module Seqs {
  import opened Base

  function OptionToSeq<T>(o: Option<T>): (r: seq<T>)
    ensures o.Some? ==> r == [o.value]
    ensures o.None? ==> r == []
  {
    match o
    case Some(v) => [v]
    case None => []
  }

  /** The results `f` gives for the elements of `s`, in order, where it gives one. */
  function FilterMap<A, B>(s: seq<A>, f: A -> Option<B>): (r: seq<B>)
    ensures |r| <= |s|
  {
    if s == [] then [] else FilterMap(s[..|s| - 1], f) + OptionToSeq(f(s[|s| - 1]))
  }

  lemma {:induction false} FilterMapAppend<A, B>(a: seq<A>, b: seq<A>, f: A -> Option<B>)
    ensures FilterMap(a + b, f) == FilterMap(a, f) + FilterMap(b, f)
    decreases |b|
  {
    if b == [] {
      assert a + b == a;
    } else {
      var b' := b[..|b| - 1];
      assert (a + b)[..|a + b| - 1] == a + b';
      assert (a + b)[|a + b| - 1] == b[|b| - 1];
      FilterMapAppend(a, b', f);
    }
  }

  /** The results of a sequence are those of its part before `i` followed by those of the rest. */
  lemma FilterMapSplit<A, B>(s: seq<A>, i: nat, f: A -> Option<B>)
    requires i <= |s|
    ensures FilterMap(s, f) == FilterMap(s[..i], f) + FilterMap(s[i..], f)
  {
    var a, b := s[..i], s[i..];
    assert s == a + b;
    FilterMapAppend(a, b, f);
  }

  /** One more element of a prefix adds its own result, if any. */
  lemma FilterMapStep<A, B>(s: seq<A>, i: nat, f: A -> Option<B>)
    requires i < |s|
    ensures FilterMap(s[..i + 1], f) == FilterMap(s[..i], f) + OptionToSeq(f(s[i]))
  {
    assert s[..i + 1][..i] == s[..i];
  }

  /** The positions of the elements `f` gives a result for, in increasing order. */
  function Positions<A, B>(s: seq<A>, f: A -> Option<B>): seq<nat> {
    if s == [] then [] else Positions(s[..|s| - 1], f) + (if f(s[|s| - 1]).Some? then [|s| - 1] else [])
  }

  /**
   * Where each result comes from: the k-th result is `f` of the element at `idx[k]`,
   * and the positions increase: order is kept and no element is used twice.
   */
  lemma {:induction false} FilterMapOrigins<A, B>(s: seq<A>, f: A -> Option<B>) returns (idx: seq<nat>)
    ensures idx == Positions(s, f)
    ensures |idx| == |FilterMap(s, f)|
    ensures forall k :: 0 <= k < |idx| ==> idx[k] < |s| && f(s[idx[k]]) == Some(FilterMap(s, f)[k])
    ensures forall k, l :: 0 <= k < l < |idx| ==> idx[k] < idx[l]
  {
    if s == [] {
      idx := [];
    } else {
      var n := |s| - 1;
      var front := s[..n];
      var pre := FilterMapOrigins(front, f);
      var r, rf := FilterMap(s, f), FilterMap(front, f);
      assert r == rf + OptionToSeq(f(s[n]));
      idx := if f(s[n]).Some? then pre + [n] else pre;
      assert |idx| == |r|;
      forall k | 0 <= k < |idx|
        ensures idx[k] < |s| && f(s[idx[k]]) == Some(r[k])
      {
        if k < |pre| {
          assert idx[k] == pre[k] && r[k] == rf[k] && front[pre[k]] == s[pre[k]];
        }
      }
    }
  }

  /** Every element `f` gives a result for is among the positions. */
  lemma {:induction false} PositionsComplete<A, B>(s: seq<A>, f: A -> Option<B>, i: nat)
    requires i < |s| && f(s[i]).Some?
    ensures i in Positions(s, f)
  {
    var n := |s| - 1;
    if i < n {
      assert s[..n][i] == s[i];
      PositionsComplete(s[..n], f, i);
    }
  }

  /** Every result `f` gives for an element of `s` is among the results. */
  lemma {:induction false} FilterMapComplete<A, B>(s: seq<A>, f: A -> Option<B>, i: nat)
    requires i < |s| && f(s[i]).Some?
    ensures f(s[i]).value in FilterMap(s, f)
  {
    var n := |s| - 1;
    if i < n {
      assert s[..n][i] == s[i];
      FilterMapComplete(s[..n], f, i);
    }
  }

  /** Every result comes from some element of `s`. */
  lemma {:induction false} FilterMapMember<A, B>(s: seq<A>, f: A -> Option<B>, y: B) returns (i: nat)
    requires y in FilterMap(s, f)
    ensures i < |s| && f(s[i]) == Some(y)
  {
    var n := |s| - 1;
    if f(s[n]) == Some(y) {
      i := n;
    } else {
      assert y in FilterMap(s[..n], f);
      i := FilterMapMember(s[..n], f, y);
    }
  }

  /** When `f` gives a result for every element, `FilterMap` is a map. */
  lemma {:induction false} FilterMapTotal<A, B>(s: seq<A>, f: A -> Option<B>)
    requires forall i :: 0 <= i < |s| ==> f(s[i]).Some?
    ensures |FilterMap(s, f)| == |s|
    ensures forall i :: 0 <= i < |s| ==> FilterMap(s, f)[i] == f(s[i]).value
  {
    if s != [] {
      var n := |s| - 1;
      FilterMapTotal(s[..n], f);
    }
  }

  /** `FilterMap` over four elements of which the first two give results. */
  lemma FilterMapFirstTwo<A, B>(s: seq<A>, f: A -> Option<B>, a: B, b: B)
    requires |s| == 4 && f(s[0]) == Some(a) && f(s[1]) == Some(b) && f(s[2]).None? && f(s[3]).None?
    ensures FilterMap(s, f) == [a, b]
  {
    assert s[..1][..0] == [];
    assert FilterMap(s[..1], f) == [a];
    assert s[..2][..1] == s[..1];
    assert FilterMap(s[..2], f) == [a, b];
    assert s[..3][..2] == s[..2];
    assert s[..4][..3] == s[..3] && s[..4] == s;
  }

  /** `FilterMap` over elements that give no result is empty. */
  lemma {:induction false} FilterMapNone<A, B>(s: seq<A>, f: A -> Option<B>)
    requires forall i :: 0 <= i < |s| ==> f(s[i]).None?
    ensures FilterMap(s, f) == []
  {
    if s != [] {
      FilterMapNone(s[..|s| - 1], f);
    }
  }

  /** An element that gives no result leaves the results of the others as they are. */
  lemma FilterMapSkip<A, B>(before: seq<A>, x: A, after: seq<A>, f: A -> Option<B>)
    requires f(x).None?
    ensures FilterMap(before + [x] + after, f) == FilterMap(before, f) + FilterMap(after, f)
  {
    var s := before + [x];
    assert s[..|s| - 1] == before;
    assert FilterMap(s, f) == FilterMap(before, f) + [];
    FilterMapAppend(s, after, f);
  }

  /** The concatenation of the lists `f` gives for the elements of `s`, in order. */
  function ConcatMap<A, B>(s: seq<A>, f: A -> seq<B>): seq<B>
  {
    if s == [] then [] else ConcatMap(s[..|s| - 1], f) + f(s[|s| - 1])
  }

  /** One more element of a prefix adds its own results. */
  lemma ConcatMapStep<A, B>(s: seq<A>, i: nat, f: A -> seq<B>)
    requires i < |s|
    ensures ConcatMap(s[..i + 1], f) == ConcatMap(s[..i], f) + f(s[i])
  {
    assert s[..i + 1][..i] == s[..i];
  }

  lemma {:induction false} ConcatMapAppend<A, B>(a: seq<A>, b: seq<A>, f: A -> seq<B>)
    ensures ConcatMap(a + b, f) == ConcatMap(a, f) + ConcatMap(b, f)
    decreases |b|
  {
    if b == [] {
      assert a + b == a;
    } else {
      var b' := b[..|b| - 1];
      assert (a + b)[..|a + b| - 1] == a + b';
      assert (a + b)[|a + b| - 1] == b[|b| - 1];
      ConcatMapAppend(a, b', f);
    }
  }

  /** Every element of a `ConcatMap` comes from the list of some element of `s`. */
  lemma {:induction false} ConcatMapMember<A, B>(s: seq<A>, f: A -> seq<B>, x: B) returns (i: nat)
    requires x in ConcatMap(s, f)
    ensures i < |s| && x in f(s[i])
  {
    var n := |s| - 1;
    if x in f(s[n]) {
      i := n;
    } else {
      i := ConcatMapMember(s[..n], f, x);
    }
  }

  /** `ConcatMap` over elements that all give the empty list is empty. */
  lemma {:induction false} ConcatMapEmpty<A, B>(s: seq<A>, f: A -> seq<B>)
    requires forall i :: 0 <= i < |s| ==> f(s[i]) == []
    ensures ConcatMap(s, f) == []
  {
    if s != [] {
      ConcatMapEmpty(s[..|s| - 1], f);
    }
  }
}

=== FILE: strings.dfy ===
/**
 * The Python `str` operations the tools are written with: `strip`, `startswith`,
 * `endswith`, `in`, `find`, `split` (with and without a separator), `splitlines`,
 * `replace(p, "")`, `join`, `ljust`, `upper`, and `str()` on integers.
 */
module Strings {
  import opened Base

  /** Python's `str.isspace` for a single character. */
  predicate IsSpace(c: char) {
    c == ' ' || ('\t' <= c <= '\r') || ('\U{1C}' <= c <= '\U{1F}') || c == '\U{85}' || c == '\U{A0}'
    || c == '\U{1680}' || ('\U{2000}' <= c <= '\U{200A}') || c == '\U{2028}' || c == '\U{2029}'
    || c == '\U{202F}' || c == '\U{205F}' || c == '\U{3000}'
  }

  /** The characters at which Python's `str.splitlines` ends a line. */
  predicate IsLineBreak(c: char) {
    c == '\n' || c == '\r' || c == '\U{0B}' || c == '\U{0C}' || ('\U{1C}' <= c <= '\U{1E}')
    || c == '\U{85}' || c == '\U{2028}' || c == '\U{2029}'
  }

  /** ASCII letters, digits and `_`: the ASCII part of a regular-expression `\w`. */
  predicate IsWordChar(c: char) {
    ('a' <= c <= 'z') || ('A' <= c <= 'Z') || ('0' <= c <= '9') || c == '_'
  }

  ghost predicate AllSpace(s: string) {
    forall i :: 0 <= i < |s| ==> IsSpace(s[i])
  }

  ghost predicate NoSpace(s: string) {
    forall i :: 0 <= i < |s| ==> !IsSpace(s[i])
  }

  function StartsWith(s: string, p: string): bool {
    |p| <= |s| && s[..|p|] == p
  }

  function EndsWith(s: string, p: string): bool {
    |p| <= |s| && s[|s| - |p|..] == p
  }

  /** `p` occurs in `s` at position `i`. */
  predicate Occurs(s: string, p: string, i: nat) {
    i + |p| <= |s| && s[i..i + |p|] == p
  }

  /** Number of whitespace characters that begin `s`. */
  function LeadingSpace(s: string): (n: nat)
    ensures n <= |s| && AllSpace(s[..n])
    ensures n < |s| ==> !IsSpace(s[n])
  {
    if |s| > 0 && IsSpace(s[0]) then 1 + LeadingSpace(s[1..]) else 0
  }

  /** Number of whitespace characters that end `s`. */
  function TrailingSpace(s: string): (n: nat)
    ensures n <= |s| && AllSpace(s[|s| - n..])
    ensures n < |s| ==> !IsSpace(s[|s| - n - 1])
  {
    if |s| > 0 && IsSpace(s[|s| - 1]) then 1 + TrailingSpace(s[..|s| - 1]) else 0
  }

  /** Python's `str.strip()`: what remains after removing the whitespace at both ends. */
  function Strip(s: string): (r: string)
    ensures exists lo: nat :: lo + |r| <= |s| && r == s[lo..lo + |r|] && AllSpace(s[..lo]) && AllSpace(s[lo + |r|..])
    ensures r == [] || (!IsSpace(r[0]) && !IsSpace(r[|r| - 1]))
  {
    var lo := LeadingSpace(s);
    var t := s[lo..];
    var k := TrailingSpace(t);
    StripParts(s, lo, k);
    t[..|t| - k]
  }

  /** Cutting `lo` characters off the front and `k` off the back of the rest keeps a slice between them. */
  lemma StripParts(s: string, lo: nat, k: nat)
    requires lo <= |s| && k <= |s| - lo
    ensures var r := s[lo..][..|s| - lo - k];
      lo + |r| <= |s| && r == s[lo..lo + |r|] && s[lo + |r|..] == s[lo..][|s| - lo - k..]
  {
  }

  /** First position at or after `i` where `p` occurs in `s` (Python's `str.find`, from `i`). */
  function FindFrom(s: string, p: string, i: nat): (r: Option<nat>)
    requires i <= |s|
    ensures r.Some? ==> i <= r.value && Occurs(s, p, r.value)
    ensures r.Some? ==> forall j :: i <= j < r.value ==> !Occurs(s, p, j)
    ensures r.None? ==> forall j :: i <= j <= |s| ==> !Occurs(s, p, j)
    decreases |s| - i
  {
    if Occurs(s, p, i) then Some(i)
    else if i == |s| then None
    else FindFrom(s, p, i + 1)
  }

  /** Python's `str.find`: the first occurrence of `p` in `s`, if any. */
  function Find(s: string, p: string): (r: Option<nat>)
    ensures r.Some? ==> Occurs(s, p, r.value) && forall j :: 0 <= j < r.value ==> !Occurs(s, p, j)
    ensures r.None? ==> forall j :: 0 <= j <= |s| ==> !Occurs(s, p, j)
  {
    FindFrom(s, p, 0)
  }

  /** Python's `p in s` for strings. */
  predicate Contains(s: string, p: string) {
    Find(s, p).Some?
  }

  lemma ContainsIff(s: string, p: string)
    ensures Contains(s, p) <==> exists j: nat :: Occurs(s, p, j)
  {
    if !Contains(s, p) {
      forall j: nat ensures !Occurs(s, p, j) {
        if j <= |s| { } 
      }
    }
  }

  /** The part of `s` before the first `p` (`s.split(p, 1)[0]`, and all of `s` when `p` is absent). */
  function Before(s: string, p: string): (r: string)
    ensures StartsWith(s, r)
    ensures !Contains(s, p) ==> r == s
  {
    match Find(s, p)
    case Some(i) => s[..i]
    case None => s
  }

  /** The part of `s` after the first `p` (`s.split(p, 1)[1]`), when `p` occurs. */
  function After(s: string, p: string): (r: string)
    requires Contains(s, p)
    ensures Before(s, p) + p + r == s
  {
    var i := Find(s, p).value;
    assert Before(s, p) == s[..i];
    assert s[i..i + |p|] == p;
    assert s == s[..i] + s[i..i + |p|] + s[i + |p|..];
    s[i + |p|..]
  }

  /** Python's `s.replace(p, "")`: every non-overlapping occurrence of `p`, scanned left to right, is removed. */
  function RemoveAll(s: string, p: string): (r: string)
    requires p != []
    ensures |r| <= |s|
    decreases |s|
  {
    if |s| < |p| then s
    else if s[..|p|] == p then RemoveAll(s[|p|..], p)
    else [s[0]] + RemoveAll(s[1..], p)
  }

  /** Python's `sep.join(parts)`. */
  function Join(parts: seq<string>, sep: string): string
  {
    if |parts| == 0 then []
    else if |parts| == 1 then parts[0]
    else parts[0] + sep + Join(parts[1..], sep)
  }

  /** Position of the first `c` in `s`. */
  function IndexOfChar(s: string, c: char): (i: nat)
    requires c in s
    ensures i < |s| && s[i] == c && c !in s[..i]
  {
    if s[0] == c then 0 else 1 + IndexOfChar(s[1..], c)
  }

  /** Python's `s.split(c)` for a one-character separator. */
  function SplitChar(s: string, c: char): (r: seq<string>)
    ensures |r| >= 1
    ensures forall k :: 0 <= k < |r| ==> c !in r[k]
    decreases |s|
  {
    if c !in s then [s]
    else
      var i := IndexOfChar(s, c);
      [s[..i]] + SplitChar(s[i + 1..], c)
  }

  /** The part of `s` after its last `c` (Python's `s.split(c)[-1]`). */
  function AfterLast(s: string, c: char): (r: string)
    ensures c !in r && EndsWith(s, r)
    ensures |r| < |s| ==> s[|s| - |r| - 1] == c
    ensures c !in s ==> r == s
  {
    if s == [] || s[|s| - 1] == c then []
    else
      var r := AfterLast(s[..|s| - 1], c) + [s[|s| - 1]];
      assert s[|s| - |r|..] == s[..|s| - 1][|s| - |r|..] + [s[|s| - 1]];
      r
  }

  /** Number of non-whitespace characters that begin `s`. */
  function WordLength(s: string): (n: nat)
    ensures n <= |s| && NoSpace(s[..n])
    ensures n < |s| ==> IsSpace(s[n])
  {
    if |s| > 0 && !IsSpace(s[0]) then 1 + WordLength(s[1..]) else 0
  }

  /** Python's `s.split()`: the maximal runs of non-whitespace characters, in order. */
  function Words(s: string): (r: seq<string>)
    ensures forall k :: 0 <= k < |r| ==> r[k] != [] && NoSpace(r[k])
    decreases |s|
  {
    var t := s[LeadingSpace(s)..];
    if t == [] then []
    else
      var n := WordLength(t);
      [t[..n]] + Words(t[n..])
  }

  /** Where the first line of `s` ends: at a line break, or at the end of `s`. */
  function LineEnd(s: string): (n: nat)
    ensures n <= |s| && (n < |s| ==> IsLineBreak(s[n]))
    ensures forall k :: 0 <= k < n ==> !IsLineBreak(s[k])
  {
    if |s| == 0 || IsLineBreak(s[0]) then 0 else 1 + LineEnd(s[1..])
  }

  /** Python's `s.splitlines()`: lines without their terminators; `"\r\n"` ends one line. */
  function SplitLines(s: string): (r: seq<string>)
    ensures s == [] <==> r == []
    decreases |s|
  {
    if s == [] then []
    else
      var n := LineEnd(s);
      if n == |s| then [s]
      else
        var next := if s[n] == '\r' && n + 1 < |s| && s[n + 1] == '\n' then n + 2 else n + 1;
        [s[..n]] + SplitLines(s[next..])
  }

  /** `line` holds no line-break character. */
  ghost predicate NoLineBreak(line: string) {
    forall j :: 0 <= j < |line| ==> !IsLineBreak(line[j])
  }

  /** One step of `splitlines`: a first line without line breaks, then the lines of a shorter rest. */
  lemma SplitLinesStep(s: string) returns (head: string, tail: string)
    requires s != []
    ensures |tail| < |s| && NoLineBreak(head)
    ensures SplitLines(s) == [head] + SplitLines(tail)
  {
    var n := LineEnd(s);
    head := s[..n];
    if n < |s| {
      var next := if s[n] == '\r' && n + 1 < |s| && s[n + 1] == '\n' then n + 2 else n + 1;
      tail := s[next..];
    } else {
      assert s[..n] == s;
      tail := [];
    }
  }

  /** No line `splitlines` gives contains a line break. */
  lemma {:induction false} SplitLinesNoBreaks(s: string)
    ensures forall k :: 0 <= k < |SplitLines(s)| ==> NoLineBreak(SplitLines(s)[k])
    decreases |s|
  {
    if s != [] {
      var head, tail := SplitLinesStep(s);
      SplitLinesNoBreaks(tail);
      var r, rest := SplitLines(s), SplitLines(tail);
      forall k | 0 <= k < |r|
        ensures NoLineBreak(r[k])
      {
        if k > 0 {
          assert r[k] == rest[k - 1];
        }
      }
    }
  }

  /** `n` spaces. */
  function Spaces(n: nat): (r: string)
    ensures |r| == n && AllSpace(r)
  {
    seq(n, _ => ' ')
  }

  /** Python's `s.ljust(w)`: `s` padded on the right with spaces to width `w`. */
  function LJust(s: string, w: nat): (r: string)
    ensures |r| == if |s| < w then w else |s|
    ensures r[..|s|] == s && forall k :: |s| <= k < |r| ==> r[k] == ' '
  {
    if |s| < w then s + Spaces(w - |s|) else s
  }

  /** Python's `str.upper` on one ASCII character. */
  function UpperChar(c: char): char {
    if 'a' <= c <= 'z' then (c as int - 32) as char else c
  }

  /** Python's `str.upper`, restricted to ASCII letters. */
  function Upper(s: string): (r: string)
    ensures |r| == |s| && forall k :: 0 <= k < |s| ==> r[k] == UpperChar(s[k])
  {
    seq(|s|, k requires 0 <= k < |s| => UpperChar(s[k]))
  }

  predicate IsDigit(c: char) {
    '0' <= c <= '9'
  }

  /** Python's `str(n)` for a natural number. */
  function NatToString(n: nat): (r: string)
    ensures r != [] && forall k :: 0 <= k < |r| ==> IsDigit(r[k])
    ensures |r| > 1 ==> r[0] != '0'
  {
    var d := ['0' + (n % 10) as char];
    if n < 10 then d else NatToString(n / 10) + d
  }

  /** Python's `str(i)` for an integer. */
  function IntToString(i: int): (r: string)
    ensures r != []
    ensures (i < 0) <==> r[0] == '-'
  {
    if i < 0 then "-" + NatToString(-i) else NatToString(i)
  }

  /** The number a string of decimal digits denotes. */
  function DigitsValue(s: string): nat
    requires forall k :: 0 <= k < |s| ==> IsDigit(s[k])
  {
    if s == [] then 0 else assert IsDigit(s[|s| - 1]); 10 * DigitsValue(s[..|s| - 1]) + (s[|s| - 1] as int - '0' as int) as nat
  }

  // ---------------------------------------------------------------------------
  // Facts about the operations above
  // ---------------------------------------------------------------------------

  /** A string without whitespace is its own strip. */
  lemma StripNoSpace(s: string)
    requires NoSpace(s)
    ensures Strip(s) == s
  {
    if s != [] {
      assert !IsSpace(s[0]) && !IsSpace(s[|s| - 1]);
      assert LeadingSpace(s) == 0;
      assert s[0..] == s;
      assert TrailingSpace(s) == 0;
    }
  }

  /** A string that begins with a non-space character keeps it first after stripping. */
  lemma StripKeepsFirst(s: string)
    requires s != [] && !IsSpace(s[0])
    ensures Strip(s) != [] && Strip(s)[0] == s[0]
  {
    assert LeadingSpace(s) == 0;
    assert s[0..] == s;
    TrailingSpaceBelow(s);
  }

  lemma {:induction false} TrailingSpaceBelow(s: string)
    requires s != [] && !IsSpace(s[0])
    ensures TrailingSpace(s) < |s|
    decreases |s|
  {
    if IsSpace(s[|s| - 1]) {
      var front := s[..|s| - 1];
      assert front != [] && front[0] == s[0];
      TrailingSpaceBelow(front);
    }
  }

  /** `Find` gives an occurrence that no earlier position has. */
  lemma FindFirst(s: string, p: string, i: nat)
    requires Occurs(s, p, i) && forall j :: 0 <= j < i ==> !Occurs(s, p, j)
    ensures Find(s, p) == Some(i)
  {
    var r := Find(s, p);
    assert r.Some?;
    assert r.value <= i;
  }

  /** When the first character of `p` is not in `pre`, `p` is first found right after `pre`. */
  lemma FindAfterFreeChar(pre: string, p: string, x: string)
    requires p != [] && p[0] !in pre
    ensures Find(pre + p + x, p) == Some(|pre|)
  {
    var s := pre + p + x;
    assert s[|pre|..|pre| + |p|] == p;
    forall j | 0 <= j < |pre|
      ensures !Occurs(s, p, j)
    {
      if j + |p| <= |s| {
        assert s[j..j + |p|][0] == pre[j] != p[0];
      }
    }
    FindFirst(s, p, |pre|);
  }

  /**
   * When no later character of `p` equals its first one and `pre` does not contain
   * `p`, `p` is first found right after `pre`.
   */
  lemma FindAfterAbsent(pre: string, p: string, x: string)
    requires p != [] && forall i :: 0 < i < |p| ==> p[i] != p[0]
    requires !Contains(pre, p)
    ensures Find(pre + p + x, p) == Some(|pre|)
  {
    var s := pre + p + x;
    assert s[|pre|..|pre| + |p|] == p;
    forall j | 0 <= j < |pre|
      ensures !Occurs(s, p, j)
    {
      if j + |p| <= |pre| {
        assert pre[j..j + |p|] == s[j..j + |p|];
        assert !Occurs(pre, p, j);
      } else {
        var d := |pre| - j;
        assert s[j..j + |p|][d] == s[|pre|] == p[0] != p[d];
      }
    }
    FindFirst(s, p, |pre|);
  }

  /** `Before` and `After` split `s` at the first `p`, when it occurs right after `pre`. */
  lemma SplitAtFind(pre: string, p: string, x: string)
    requires Find(pre + p + x, p) == Some(|pre|)
    ensures Before(pre + p + x, p) == pre
    ensures After(pre + p + x, p) == x
  {
    var s := pre + p + x;
    assert s[..|pre|] == pre;
    assert s[|pre| + |p|..] == x;
  }

  /** A line without line breaks followed by `"\n"` is the first line of the text. */
  lemma SplitLinesFirst(line: string, rest: string)
    requires forall k :: 0 <= k < |line| ==> !IsLineBreak(line[k])
    ensures SplitLines(line + "\n" + rest) == [line] + SplitLines(rest)
  {
    var s := line + "\n" + rest;
    var n := LineEnd(s);
    assert forall k :: 0 <= k < |line| ==> s[k] == line[k];
    assert s[|line|] == '\n';
    assert n == |line|;
    assert s[..n] == line;
    assert s[n + 1..] == rest;
  }

  /** Joining one more part. */
  lemma {:induction false} JoinSnoc(parts: seq<string>, x: string, sep: string)
    ensures Join(parts + [x], sep) == if parts == [] then x else Join(parts, sep) + sep + x
  {
    if |parts| > 1 {
      assert (parts + [x])[1..] == parts[1..] + [x];
      JoinSnoc(parts[1..], x, sep);
    } else if |parts| == 1 {
      assert (parts + [x])[1..] == [x];
    }
  }

  /** Joining parts of which the first is not empty gives a non-empty string. */
  lemma JoinNonEmpty(parts: seq<string>, sep: string)
    requires parts != [] && parts[0] != []
    ensures Join(parts, sep) != []
  {
  }

  /** Splitting at a separator that does not occur in the first part. */
  lemma SplitCharFirst(a: string, b: string, c: char)
    requires c !in a
    ensures SplitChar(a + [c] + b, c) == [a] + SplitChar(b, c)
  {
    var s := a + [c] + b;
    assert s[|a|] == c;
    assert s[..|a|] == a;
    var i := IndexOfChar(s, c);
    assert i == |a|;
    assert s[i + 1..] == b;
  }

  /** `split` of two texts joined by the separator is the split of each, in order. */
  lemma {:induction false} SplitCharAppend(a: string, b: string, c: char)
    ensures SplitChar(a + [c] + b, c) == SplitChar(a, c) + SplitChar(b, c)
    decreases |a|
  {
    if c !in a {
      SplitCharFirst(a, b, c);
    } else {
      var i := IndexOfChar(a, c);
      var a1, a2 := a[..i], a[i + 1..];
      var rest := a2 + [c] + b;
      assert a == a1 + [c] + a2;
      SplitCharFirst(a1, a2, c);
      var x, y := SplitChar(a2, c), SplitChar(b, c);
      assert SplitChar(a, c) == [a1] + x;
      RegroupFront(a1, [c], a2, [c], b);
      SplitCharFirst(a1, rest, c);
      SplitCharAppend(a2, b, c);
      AppendAssoc([a1], x, y);
    }
  }

  lemma RegroupFront<T>(p: seq<T>, q: seq<T>, r: seq<T>, t: seq<T>, u: seq<T>)
    ensures p + q + r + t + u == p + q + (r + t + u)
  {
  }

  lemma AppendAssoc<T>(a: seq<T>, b: seq<T>, c: seq<T>)
    ensures a + (b + c) == (a + b) + c
  {
  }

  /** `split` undoes `join` when no part contains the separator. */
  lemma {:induction false} SplitCharJoin(parts: seq<string>, c: char)
    requires parts != [] && forall k :: 0 <= k < |parts| ==> c !in parts[k]
    ensures SplitChar(Join(parts, [c]), c) == parts
  {
    if |parts| > 1 {
      SplitCharJoin(parts[1..], c);
      SplitCharFirst(parts[0], Join(parts[1..], [c]), c);
      assert [parts[0]] + parts[1..] == parts;
    }
  }

  /** `join` undoes `split`. */
  lemma {:induction false} JoinSplitChar(s: string, c: char)
    ensures Join(SplitChar(s, c), [c]) == s
    decreases |s|
  {
    if c in s {
      var i := IndexOfChar(s, c);
      var rest := SplitChar(s[i + 1..], c);
      assert SplitChar(s, c) == [s[..i]] + rest;
      JoinCons(s[..i], rest, [c]);
      JoinSplitChar(s[i + 1..], c);
      assert s == s[..i] + [c] + s[i + 1..];
    }
  }

  /** Joining a first part in front of a non-empty list of parts. */
  lemma JoinCons(x: string, rest: seq<string>, sep: string)
    requires rest != []
    ensures Join([x] + rest, sep) == x + sep + Join(rest, sep)
  {
    assert ([x] + rest)[1..] == rest;
  }

  /** A character in neither the parts nor the separator is not in their join. */
  lemma {:induction false} JoinWithout(parts: seq<string>, sep: string, c: char)
    requires c !in sep && forall k :: 0 <= k < |parts| ==> c !in parts[k]
    ensures c !in Join(parts, sep)
  {
    if |parts| > 1 {
      JoinWithout(parts[1..], sep, c);
    }
  }

  /** Joining two non-empty lists of parts. */
  lemma {:induction false} JoinAppend(a: seq<string>, b: seq<string>, sep: string)
    requires a != [] && b != []
    ensures Join(a + b, sep) == Join(a, sep) + sep + Join(b, sep)
  {
    if |a| == 1 {
      assert (a + b)[1..] == b;
    } else {
      assert (a + b)[1..] == a[1..] + b;
      JoinAppend(a[1..], b, sep);
      AppendAssoc(a[0] + sep, Join(a[1..], sep) + sep, Join(b, sep));
    }
  }

  /** A character of `p` that `s` lacks keeps `p` out of `s`. */
  lemma AbsentChar(s: string, p: string, k: nat)
    requires k < |p| && p[k] !in s
    ensures !Contains(s, p)
  {
    forall j: nat | j <= |s|
      ensures !Occurs(s, p, j)
    {
      if j + |p| <= |s| {
        assert s[j..j + |p|][k] == s[j + k];
      }
    }
    ContainsIff(s, p);
  }

  /** A text without `p` has no `p` after its first character either. */
  lemma NotContainsTail(s: string, p: string)
    requires s != [] && !Contains(s, p)
    ensures !Contains(s[1..], p)
  {
    ContainsIff(s, p);
    forall j: nat | j <= |s[1..]|
      ensures !Occurs(s[1..], p, j)
    {
      if j + |p| <= |s[1..]| {
        assert s[1..][j..j + |p|] == s[j + 1..j + 1 + |p|];
        assert !Occurs(s, p, j + 1);
      }
    }
    ContainsIff(s[1..], p);
  }

  /** Removing a pattern that does not occur changes nothing. */
  lemma {:induction false} RemoveAllAbsent(s: string, p: string)
    requires p != [] && !Contains(s, p)
    ensures RemoveAll(s, p) == s
    decreases |s|
  {
    if |s| >= |p| {
      ContainsIff(s, p);
      assert !Occurs(s, p, 0);
      assert s[..|p|] != p by { assert s[0..|p|] == s[..|p|]; }
      NotContainsTail(s, p);
      RemoveAllAbsent(s[1..], p);
      assert [s[0]] + s[1..] == s;
    }
  }

  /**
   * Removing a pattern whose first character does not recur in it: a stretch
   * `s` free of the pattern and the occurrence right after it go first, and
   * removal goes on after that occurrence.
   */
  lemma {:induction false} RemoveAllThrough(s: string, p: string, y: string)
    requires p != [] && forall i :: 0 < i < |p| ==> p[i] != p[0]
    requires !Contains(s, p)
    ensures RemoveAll(s + p + y, p) == s + RemoveAll(y, p)
    decreases |s|
  {
    var t := s + p + y;
    if s == [] {
      assert t == p + y && t[..|p|] == p && t[|p|..] == y;
    } else {
      assert t[..|p|] != p by {
        FindAfterAbsent(s, p, y);
        assert !Occurs(t, p, 0);
        assert t[0..|p|] == t[..|p|];
      }
      assert RemoveAll(t, p) == [t[0]] + RemoveAll(t[1..], p);
      assert t[1..] == s[1..] + p + y;
      NotContainsTail(s, p);
      RemoveAllThrough(s[1..], p, y);
      AppendAssoc([s[0]], s[1..], RemoveAll(y, p));
      assert [s[0]] + s[1..] == s;
    }
  }

  /** The last `c`-segment of a text is `b` exactly when the text is `b` or ends with `c` then `b`. */
  lemma AfterLastIs(s: string, b: string, c: char)
    requires c !in b
    ensures AfterLast(s, c) == b <==> s == b || EndsWith(s, [c] + b)
  {
    if s == b || EndsWith(s, [c] + b) {
      AfterLastOfEnd(s, b, c);
    }
    if AfterLast(s, c) == b && s != b {
      AfterLastEnds(s, c);
    }
  }

  lemma AfterLastOfEnd(s: string, b: string, c: char)
    requires c !in b && (s == b || EndsWith(s, [c] + b))
    ensures AfterLast(s, c) == b
  {
    if s != b {
      var n := |s| - |b|;
      assert s == s[..n - 1] + [c] + b;
      AfterLastOfSuffix(s[..n - 1], b, c);
    }
  }

  lemma AfterLastEnds(s: string, c: char)
    requires AfterLast(s, c) != s
    ensures EndsWith(s, [c] + AfterLast(s, c))
  {
    var r := AfterLast(s, c);
    assert |r| < |s|;
    assert s[|s| - |r|..] == r;
    assert s[|s| - |r| - 1..] == [c] + r;
  }

  lemma {:induction false} AfterLastOfSuffix(a: string, b: string, c: char)
    requires c !in b
    ensures AfterLast(a + [c] + b, c) == b
    decreases |b|
  {
    var s := a + [c] + b;
    if b == [] {
      assert s[|s| - 1] == c;
    } else {
      var b' := b[..|b| - 1];
      assert s[..|s| - 1] == a + [c] + b';
      AfterLastOfSuffix(a, b', c);
      assert b' + [b[|b| - 1]] == b;
    }
  }

  /** Removing `p` from a text that starts with it drops that first occurrence and goes on after it. */
  /** Removing every `p` adds no character. */
  lemma {:induction false} RemoveAllKeepsOut(s: string, p: string, c: char)
    requires p != [] && c !in s
    ensures c !in RemoveAll(s, p)
    decreases |s|
  {
    if |s| >= |p| {
      if s[..|p|] == p {
        RemoveAllKeepsOut(s[|p|..], p, c);
      } else {
        RemoveAllKeepsOut(s[1..], p, c);
      }
    }
  }

  lemma RemoveAllPrefix(p: string, x: string)
    requires p != []
    ensures RemoveAll(p + x, p) == RemoveAll(x, p)
  {
    assert (p + x)[..|p|] == p && (p + x)[|p|..] == x;
  }

  lemma JoinPair(a: string, b: string, sep: string)
    ensures Join([a, b], sep) == a + sep + b
  {
    assert [a, b][1..] == [b];
  }

  lemma JoinTriple(a: string, b: string, c: string, sep: string)
    ensures Join([a, b, c], sep) == a + sep + (b + sep + c)
  {
    assert [a, b, c][1..] == [b, c];
    JoinPair(b, c, sep);
  }

  /** An occurrence of `p` cannot straddle a character that `p` lacks. */
  lemma ContainsAcross(a: string, c: char, b: string, p: string)
    requires c !in p && !Contains(a, p) && !Contains(b, p)
    ensures !Contains(a + [c] + b, p)
  {
    var s := a + [c] + b;
    ContainsIff(a, p);
    ContainsIff(b, p);
    forall j: nat | j <= |s|
      ensures !Occurs(s, p, j)
    {
      if j + |p| <= |s| {
        if j + |p| <= |a| {
          assert s[j..j + |p|] == a[j..j + |p|];
          assert !Occurs(a, p, j);
        } else if j > |a| {
          assert s[j..j + |p|] == b[j - |a| - 1..j - |a| - 1 + |p|];
          assert !Occurs(b, p, j - |a| - 1);
        } else {
          assert s[j..j + |p|][|a| - j] == c;
        }
      }
    }
    ContainsIff(s, p);
  }
}

=== FILE: test_generator.dfy ===
/**
 * The test-generator tool: picks a test framework for a source file, gathers
 * existing tests and similar code as context, builds the prompt for the
 * language model, and takes the generated tests out of its answer.
 *
 * The file system (existence, globs, reads), the vector store's similarity
 * search and the language model are oracles.
 */
module TestGenerator {
  import opened Base
  import opened Strings
  import opened Seqs
  import opened Paths
  import DependencyScanner
  import MessageFormatter

  /** The project directory as the tool sees it. */
  datatype Project = Project(
    path: string,                     // the project directory
    present: string -> bool,          // whether `path / file_path` exists
    read: string -> ReadResult,       // `read_text` of a full path
    glob: string -> seq<string>,      // `path.glob(pattern)`, as full paths
    pytestMarkers: bool,              // some `pytest.ini` or `conftest.py` anywhere in the project
    packageJson: Option<string>)      // the text of `path/package.json`, when it exists

  /** An existing test file given to the model: its path relative to the project, and its text. */
  datatype TestFile = TestFile(path: string, content: string)

  /** A similar-code hit of the vector store: its source and its text. */
  datatype Snippet = Snippet(source: string, content: string)

  /** The result dictionaries the tool returns. */
  datatype Reply =
    | ErrorReply(error: string)
    | Generated(filePath: string, framework: string, outputPath: Option<string>, tests: string)

  /** An optional string argument. Python's `not x` holds for `None` and for `""`. */
  predicate Truthy(o: Option<string>) {
    o.Some? && o.value != ""
  }

  // ---------------------------------------------------------------------------
  // _determine_test_framework
  // ---------------------------------------------------------------------------

  const JsTypes := [".js", ".ts", ".jsx", ".tsx"]

  /** The framework for a file suffix. */
  function Framework(project: Project, fileType: string): (r: string)
    ensures fileType == ".py" ==> r == (if project.pytestMarkers then "pytest" else "unittest")
    ensures fileType == ".java" ==> r == "junit"
    ensures fileType == ".cs" || fileType == ".vb" ==> r == "xunit"
    ensures fileType !in [".py", ".java", ".cs", ".vb"] + JsTypes ==> r == "generic"
  {
    if fileType == ".py" then (if project.pytestMarkers then "pytest" else "unittest")
    else if fileType in JsTypes then
      match project.packageJson
      case Some(content) =>
        if Contains(content, "jest") then "jest"
        else if Contains(content, "mocha") then "mocha"
        else "jest"
      case None => "jest"
    else if fileType == ".java" then "junit"
    else if fileType in [".cs", ".vb"] then "xunit"
    else "generic"
  }

  /**
   * A JavaScript or TypeScript file is tested with mocha exactly when package.json
   * mentions mocha and not jest; otherwise with jest.
   */
  lemma JsFrameworkIff(project: Project, fileType: string)
    requires fileType in JsTypes
    ensures Framework(project, fileType) in ["jest", "mocha"]
    ensures Framework(project, fileType) == "mocha" <==>
      project.packageJson.Some? && !Contains(project.packageJson.value, "jest") && Contains(project.packageJson.value, "mocha")
  {
  }

  // ---------------------------------------------------------------------------
  // _get_context
  // ---------------------------------------------------------------------------

  /** The test-file name patterns for a file, from its suffix and stem. */
  function Patterns(fileType: string, stem: string): (r: seq<string>)
    ensures |r| == 2
    ensures fileType == ".py" ==> r == ["test_" + stem + ".py", stem + "_test.py"]
    ensures fileType == ".js" ==> r == [stem + ".test.js", stem + ".spec.js"]
    ensures fileType == ".ts" ==> r == [stem + ".test.ts", stem + ".spec.ts"]
    ensures fileType == ".java" ==> r == [stem + "Test.java", "Test" + stem + ".java"]
    ensures fileType == ".cs" ==> r == [stem + "Tests.cs", "Test" + stem + ".cs"]
  {
    if fileType == ".py" then ["test_" + stem + ".py", stem + "_test.py"]
    else if fileType == ".js" then [stem + ".test.js", stem + ".spec.js"]
    else if fileType == ".ts" then [stem + ".test.ts", stem + ".spec.ts"]
    else if fileType == ".java" then [stem + "Test.java", "Test" + stem + ".java"]
    else if fileType == ".cs" then [stem + "Tests.cs", "Test" + stem + ".cs"]
    else ["test_" + stem + ".*", stem + "_test.*"]
  }

  /** Any other suffix, `.jsx` and `.tsx` included, falls back to the generic patterns. */
  lemma UnlistedSuffixFallsBack(fileType: string, stem: string)
    requires fileType !in [".py", ".js", ".ts", ".java", ".cs"]
    ensures Patterns(fileType, stem) == ["test_" + stem + ".*", stem + "_test.*"]
  {
  }

  /** The existing test for one globbed file, when it can be read. */
  function Reader(project: Project): string -> Option<TestFile> {
    file =>
      match project.read(file)
      case Content(text) => Some(TestFile(DependencyScanner.RelativeTo(project.path, file), text))
      case ReadFailed(_) => None
  }

  /** The existing tests one pattern finds. */
  function PatternTests(project: Project): string -> seq<TestFile> {
    pattern => FilterMap(project.glob("**/" + pattern), Reader(project))
  }

  /** The existing tests of all patterns, pattern by pattern, in glob order. */
  function ExistingTests(project: Project, patterns: seq<string>): seq<TestFile> {
    ConcatMap(patterns, PatternTests(project))
  }

  /** `t` is the readable file `file`, named relative to the project directory. */
  ghost predicate ReadAs(project: Project, file: string, t: TestFile) {
    project.read(file) == Content(t.content) && t.path == DependencyScanner.RelativeTo(project.path, file)
  }

  /** Every gathered test is a readable file that one of the patterns found. */
  lemma ExistingTestOrigin(project: Project, patterns: seq<string>, t: TestFile)
    requires t in ExistingTests(project, patterns)
    ensures exists k, file :: 0 <= k < |patterns| && file in project.glob("**/" + patterns[k]) && ReadAs(project, file, t)
  {
    var k := ConcatMapMember(patterns, PatternTests(project), t);
    var files := project.glob("**/" + patterns[k]);
    var i := FilterMapMember(files, Reader(project), t);
    assert files[i] in files && ReadAs(project, files[i], t);
  }

  /** Every readable file a pattern finds is among the gathered tests. */
  lemma ExistingTestsComplete(project: Project, patterns: seq<string>, k: nat, file: string)
    requires k < |patterns| && file in project.glob("**/" + patterns[k]) && project.read(file).Content?
    ensures TestFile(DependencyScanner.RelativeTo(project.path, file), project.read(file).text) in ExistingTests(project, patterns)
  {
    var files := project.glob("**/" + patterns[k]);
    var i :| 0 <= i < |files| && files[i] == file;
    FilterMapComplete(files, Reader(project), i);
    assert patterns == patterns[..k] + [patterns[k]] + patterns[k + 1..];
    ConcatMapAppend(patterns[..k] + [patterns[k]], patterns[k + 1..], PatternTests(project));
    ConcatMapAppend(patterns[..k], [patterns[k]], PatternTests(project));
    assert [patterns[k]][..0] == [];
  }

  /** The loops of `_get_context` that collect the existing tests. */
  method GatherExistingTests(project: Project, patterns: seq<string>) returns (tests: seq<TestFile>)
    ensures tests == ExistingTests(project, patterns)
  {
    tests := [];
    for k := 0 to |patterns|
      invariant tests == ConcatMap(patterns[..k], PatternTests(project))
    {
      ConcatMapStep(patterns, k, PatternTests(project));
      var found := ReadTests(project, project.glob("**/" + patterns[k]));
      tests := tests + found;
    }
    assert patterns[..|patterns|] == patterns;
  }

  /** The inner loop: the readable files among those one pattern finds, in glob order. */
  method ReadTests(project: Project, files: seq<string>) returns (found: seq<TestFile>)
    ensures found == FilterMap(files, Reader(project))
  {
    found := [];
    for i := 0 to |files|
      invariant found == FilterMap(files[..i], Reader(project))
    {
      FilterMapStep(files, i, Reader(project));
      match project.read(files[i])
      case Content(text) =>
        found := found + [TestFile(DependencyScanner.RelativeTo(project.path, files[i]), text)];
      case ReadFailed(_) =>
    }
    assert files[..|files|] == files;
  }

  // ---------------------------------------------------------------------------
  // _create_test_prompt
  // ---------------------------------------------------------------------------

  /** At most the first `n` elements. */
  function Take<T>(s: seq<T>, n: nat): (r: seq<T>)
    ensures |r| <= n && |r| <= |s| && r == s[..|r|]
    ensures |s| <= n ==> r == s
  {
    if |s| <= n then s else s[..n]
  }

  function Header(content: string, filePath: string, fileType: string, framework: string): string {
    "I need to generate tests for the following code file:\n\nFile path: " + filePath +
    "\nFile type: " + fileType + "\nTest framework to use: " + framework +
    "\n\nHere is the content of the file:\n\n```\n" + content + "\n```\n\n"
  }

  const ExistingIntro := "\nHere are some existing tests in the project that might be helpful:\n\n"
  const SimilarIntro := "\nHere are some similar code files in the project:\n\n"
  const Closing := "\nPlease provide the complete test file that I can use directly without modifications."

  function TestEntry(t: TestFile): string {
    "Test file: " + t.path + "\n```\n" + t.content + "\n```\n\n"
  }

  function SnippetEntry(s: Snippet): string {
    "File: " + s.source + "\n```\n" + s.content + "\n```\n\n"
  }

  /** The existing-tests part of the prompt: nothing without tests, else the intro and at most two entries. */
  function ExistingSection(tests: seq<TestFile>): string {
    if tests == [] then "" else ExistingIntro + ConcatMap(Take(tests, 2), TestEntry)
  }

  /** The similar-code part of the prompt: nothing without hits, else the intro and at most two entries. */
  function SimilarSection(similar: seq<Snippet>): string {
    if similar == [] then "" else SimilarIntro + ConcatMap(Take(similar, 2), SnippetEntry)
  }

  const PytestInstructions :=
    "\nPlease generate pytest tests for this file. Include:\n- Proper imports and fixtures\n" +
    "- Test functions that start with 'test_'\n- Use of pytest assertions\n- Mocking where appropriate\n" +
    "- Edge case testing\n- Parametrized tests where applicable\n"
  const UnittestInstructions :=
    "\nPlease generate unittest tests for this file. Include:\n- A TestCase class that inherits from unittest.TestCase\n" +
    "- Test methods that start with 'test_'\n- Proper use of setUp and tearDown methods if needed\n" +
    "- Appropriate assertions\n- Edge case testing\n"
  const JestInstructions :=
    "\nPlease generate Jest tests for this file. Include:\n- Proper describe and it blocks\n" +
    "- Use of expect assertions\n- Mocking where appropriate\n- Edge case testing\n- Before/after hooks if needed\n"

  /** The framework-specific instructions. */
  function Instructions(framework: string): (r: string)
    ensures r != "" <==> framework in ["pytest", "unittest", "jest"]
  {
    if framework == "pytest" then PytestInstructions
    else if framework == "unittest" then UnittestInstructions
    else if framework == "jest" then JestInstructions
    else ""
  }

  /**
   * The prompt: the header and the existing tests open it; the similar code, the
   * framework's instructions and the closing sentence end it, in that order.
   */
  function Prompt(content: string, filePath: string, fileType: string, framework: string,
                  tests: seq<TestFile>, similar: seq<Snippet>): (r: string)
    ensures StartsWith(r, Header(content, filePath, fileType, framework) + ExistingSection(tests))
    ensures EndsWith(r, SimilarSection(similar) + Instructions(framework) + Closing)
  {
    var h, e, m, i := Header(content, filePath, fileType, framework), ExistingSection(tests), SimilarSection(similar),
                      Instructions(framework);
    Framed(h, e, m, i, Closing);
    h + e + m + i + Closing
  }

  /** Five parts in a row start with the first two and end with the last three. */
  lemma Framed(a: string, b: string, c: string, d: string, e: string)
    ensures StartsWith(a + b + c + d + e, a + b) && EndsWith(a + b + c + d + e, c + d + e)
  {
    var p := a + b + c + d + e;
    assert p == (a + b) + (c + d + e);
    assert p[..|a + b|] == a + b;
    assert p[|p| - |c + d + e|..] == c + d + e;
  }

  /** Keeping the first two tests leaves the existing-tests part unchanged. */
  lemma ExistingSectionTake(tests: seq<TestFile>)
    ensures ExistingSection(Take(tests, 2)) == ExistingSection(tests)
  {
    assert Take(Take(tests, 2), 2) == Take(tests, 2);
    assert Take(tests, 2) == [] <==> tests == [];
  }

  /** Keeping the first two hits leaves the similar-code part unchanged. */
  lemma SimilarSectionTake(similar: seq<Snippet>)
    ensures SimilarSection(Take(similar, 2)) == SimilarSection(similar)
  {
    assert Take(Take(similar, 2), 2) == Take(similar, 2);
    assert Take(similar, 2) == [] <==> similar == [];
  }

  /** Tests after the second and similar-code hits after the second leave the prompt unchanged. */
  lemma AtMostTwoEntries(content: string, filePath: string, fileType: string, framework: string,
                         tests: seq<TestFile>, similar: seq<Snippet>)
    ensures Prompt(content, filePath, fileType, framework, Take(tests, 2), Take(similar, 2)) ==
            Prompt(content, filePath, fileType, framework, tests, similar)
  {
    ExistingSectionTake(tests);
    SimilarSectionTake(similar);
  }

  /** `_create_test_prompt`, built by appending as the code does. */
  method CreateTestPrompt(content: string, filePath: string, fileType: string, framework: string,
                          tests: seq<TestFile>, similar: seq<Snippet>) returns (prompt: string)
    ensures prompt == Prompt(content, filePath, fileType, framework, tests, similar)
  {
    var header := Header(content, filePath, fileType, framework);
    prompt := header;
    if tests != [] {
      prompt := AppendEntries(prompt + ExistingIntro, Take(tests, 2), TestEntry);
      AppendAssoc(header, ExistingIntro, ConcatMap(Take(tests, 2), TestEntry));
    }
    ghost var withTests := prompt;
    assert withTests == header + ExistingSection(tests);
    if similar != [] {
      prompt := AppendEntries(prompt + SimilarIntro, Take(similar, 2), SnippetEntry);
      AppendAssoc(withTests, SimilarIntro, ConcatMap(Take(similar, 2), SnippetEntry));
    }
    assert prompt == withTests + SimilarSection(similar);
    prompt := prompt + Instructions(framework);
    prompt := prompt + Closing;
  }

  /** The loop that appends one entry per item, in order. */
  method AppendEntries<T>(prompt: string, items: seq<T>, entry: T -> string) returns (r: string)
    ensures r == prompt + ConcatMap(items, entry)
  {
    r := prompt;
    for i := 0 to |items|
      invariant r == prompt + ConcatMap(items[..i], entry)
    {
      ConcatMapStep(items, i, entry);
      AppendAssoc(prompt, ConcatMap(items[..i], entry), entry(items[i]));
      r := r + entry(items[i]);
    }
    assert items[..|items|] == items;
  }

  // ---------------------------------------------------------------------------
  // _generate_tests
  // ---------------------------------------------------------------------------

  /** The generated tests: the code of the first fenced block, else the whole answer. */
  function ExtractTests(response: string): (r: string)
    ensures MessageFormatter.Fences(response) == [] ==> r == response
    ensures MessageFormatter.Fences(response) != [] ==> |r| + 8 <= |response| && !Contains(r, MessageFormatter.Close)
    ensures MessageFormatter.Fences(response) != [] ==>
      exists language :: MessageFormatter.FoundIn(response, MessageFormatter.CodeBlock(language, r), 0)
  {
    var blocks := MessageFormatter.Fences(response);
    if blocks != [] then
      assert blocks[0] == MessageFormatter.CodeBlock(blocks[0].language, blocks[0].code);
      blocks[0].code
    else response
  }

  /** The tests are the code of the first fenced block, whatever text and blocks follow it. */
  lemma FirstBlockWins(prefix: string, code: string, language: string, rest: string)
    requires '`' !in prefix && MessageFormatter.Readable(MessageFormatter.CodeBlock(language, code))
    ensures ExtractTests(prefix + MessageFormatter.FormatCodeBlock(code, language) + rest) == code
  {
    MessageFormatter.FirstFenceFound(prefix, code, language, rest);
    AppendAssoc(prefix, MessageFormatter.FormatCodeBlock(code, language), rest);
  }

  /** An answer that is one fenced block gives back that block's code. */
  lemma FencedAnswer(code: string, language: string)
    requires forall k :: 0 <= k < |language| ==> IsWordChar(language[k])
    requires !Contains(code, MessageFormatter.Close)
    ensures ExtractTests(MessageFormatter.FormatCodeBlock(code, language)) == code
  {
    MessageFormatter.CodeBlockRoundTrip(code, language);
  }

  /** No fence is found from `p` on when no three backticks start there or later. */
  lemma {:induction false} NoFenceFrom(text: string, p: nat)
    requires p <= |text| && forall q :: p <= q <= |text| ==> !Occurs(text, "```", q)
    ensures MessageFormatter.FencesFrom(text, p) == []
    decreases |text| - p
  {
    if p < |text| {
      assert !Occurs(text, "```", p);
      NoFenceFrom(text, p + 1);
    }
  }

  /** An answer without three backticks is taken whole. */
  lemma UnfencedAnswer(response: string)
    requires !Contains(response, "```")
    ensures ExtractTests(response) == response
  {
    ContainsIff(response, "```");
    NoFenceFrom(response, 0);
  }

  // ---------------------------------------------------------------------------
  // _run
  // ---------------------------------------------------------------------------

  /**
   * `_run`: validation, framework choice, context, prompt, the model's answer and
   * the tests taken from it, and saving them. `similar` answers the similarity
   * query, `llm` answers a prompt and `save` writes tests to an output path,
   * giving the message of the exception it raises, if any.
   */
  function Run(project: Project, similar: string -> seq<Snippet>, llm: string -> string,
               save: (string, string) -> Option<string>,
               filePath: string, testFramework: Option<string>, outputPath: Option<string>): (r: Reply)
    ensures filePath == "" ==> r == ErrorReply("File path is required")
    ensures filePath != "" && !project.present(filePath) ==> r == ErrorReply("File not found: " + filePath)
    ensures r.Generated? ==> r.filePath == filePath && filePath != "" && project.present(filePath)
    ensures r.Generated? ==> (r.outputPath.Some? <==> Truthy(outputPath)) && (Truthy(outputPath) ==> r.outputPath == outputPath)
    ensures r.Generated? && Truthy(testFramework) ==> r.framework == testFramework.value
    ensures r.Generated? && Truthy(outputPath) ==> save(outputPath.value, r.tests).None?
  {
    if filePath == "" then ErrorReply("File path is required")
    else if !project.present(filePath) then ErrorReply("File not found: " + filePath)
    else
      var fullPath := project.path + "/" + filePath;
      match project.read(fullPath)
      case ReadFailed(m) => ErrorReply("Error generating tests: " + m)
      case Content(content) => Generate(project, similar, llm, save, filePath, Suffix(fullPath), content, testFramework, outputPath)
  }

  /** The part of `_run` after the file is read: the answer for its content, then the optional save. */
  function Generate(project: Project, similar: string -> seq<Snippet>, llm: string -> string,
                    save: (string, string) -> Option<string>, filePath: string, fileType: string, content: string,
                    testFramework: Option<string>, outputPath: Option<string>): (r: Reply)
    ensures r.Generated? ==> r.filePath == filePath
    ensures r.Generated? ==> (r.outputPath.Some? <==> Truthy(outputPath)) && (Truthy(outputPath) ==> r.outputPath == outputPath)
    ensures r.Generated? && Truthy(testFramework) ==> r.framework == testFramework.value
    ensures r.Generated? && Truthy(outputPath) ==> save(outputPath.value, r.tests).None?
    ensures r.Generated? && !Truthy(testFramework) ==> r.framework == Framework(project, fileType)
    ensures r.Generated? ==> r.tests == ExtractTests(llm(Prompt(content, filePath, fileType, r.framework,
      ExistingTests(project, Patterns(fileType, Stem(filePath))), similar("code similar to " + filePath))))
    ensures !Truthy(outputPath) ==> r.Generated?
  {
    var framework := if Truthy(testFramework) then testFramework.value else Framework(project, fileType);
    var tests := ExistingTests(project, Patterns(fileType, Stem(filePath)));
    var hits := similar("code similar to " + filePath);
    var generated := ExtractTests(llm(Prompt(content, filePath, fileType, framework, tests, hits)));
    if !Truthy(outputPath) then Generated(filePath, framework, None, generated)
    else match save(outputPath.value, generated)
      case Some(m) => ErrorReply("Error generating tests: " + m)
      case None => Generated(filePath, framework, outputPath, generated)
  }
}
